=== FILE: README.md ===
# Arduino Morse Radio — a Dafny model of the firmware core

The Arduino Morse Radio is an ESP32 toy radio. A potentiometer tunes across a
dial, and two switches choose long, medium or short wave. Each band holds nine
stations. When the dial comes near a station, the radio keys that station's
message in Morse code on a 600 Hz tone. Elsewhere the loop calls its static-noise
routine, but only with signal strength 0, which sets the speaker duty to 0: away
from a station the radio is silent. A second pair of switches selects the Morse speed.
A WiFi button starts an over-the-air (OTA) update from the project's GitHub
releases. Two Python scripts support releases: one bumps the semantic version,
and one writes the `include/Version.h` header from git.

This project models that core as pure Dafny functions over immutable records.
Every component is a record with step functions that take the old record and
return the new one:

- the Morse keyers;
- the station tables and their persistence in ESP32 `Preferences`;
- signal strength and tuning;
- the band and speed selectors;
- button debouncing and potentiometer smoothing;
- inactivity tracking;
- audio levels;
- the OTA version logic;
- both release scripts.

Pin levels, the millisecond clock, random numbers, WiFi, HTTP and git outcomes
are parameters. `Arduino.Millis` is the 32-bit `unsigned long` clock, and
`Arduino.Elapsed` is its wrap-around subtraction. `Arduino.TruncDiv` is C++
integer division, which truncates toward zero; Arduino's `map` is built on it.

Modules, one per file:

| module | file | models |
|---|---|---|
| Wrappers | wrappers.dfy | `Option` and `Result` |
| Arduino | arduino.dfy | pin levels, `millis`, `map`, `constrain`, `abs`, `toupper` |
| Decimal | decimal.dfy | decimal digits, `String(int)` |
| Text | text.dfy | Python `strip` and `lower` (ASCII); `Split` and `Join` are not called by the scripts and serve only to state the `\d+\.\d+\.\d+` match of `release.py` and the lines of the generated header |
| Preferences | preferences.dfy | the ESP32 key/value store (two maps) |
| Config | config.dfy | speed and band enums, timing tables, `ConfigManager` |
| MorseTable | morse_table.dfy | both Morse tables |
| MorseCode | morse_code.dfy | the `MorseCode` keyer with tune-in delay and word gaps |
| MorseCodePlayer | morse_player.dfy | the simpler `MorseCodePlayer` keyer |
| EnabledStation | station.dfy | `Station` with its `enabled` flag (Station.cpp) |
| RadioStation | radio_station.dfy | the scaled tuning of `StationManager` |
| StationStorage | station_storage.dfy | `StationStorage` save/load |
| StationManager | station_manager.dfy | defaults, search, persistence of `StationManager` |
| WaveBandManager | wave_band.dfy | band switches and band LEDs |
| SpeedManager | speed.dfy | speed switches, three builds |
| ButtonDebouncer | debouncer.dfy | `ButtonDebouncer` |
| PotentiometerReader | pot_reader.dfy | moving-average hysteresis reader |
| PowerManager | power.dfy | input-change detection and the inactivity timer |
| AudioManager | audio.dfy | volume, Morse tone, static |
| RadioSystem | radio_main.dfy | the tuning and WiFi-button steps of `main.cpp` |
| SemVer | semver.dfy | version triples, ordering, formatting |
| OtaManager | ota.dfy | credentials, download URL, version comparison, `checkAndUpdate` |
| Release | release.dfy | `scripts/release.py` |
| VersionHeader | version_header.dfy | `scripts/version.py` |

The timing tables satisfy the spacing rules of Recommendation ITU-R M.1677-1:
a dash is three dots, the gap between characters is three dots, and the gap
between words is seven dots. The letters and figures are those of section 1.1
of Part I of that recommendation.

## Model

| member | source | states |
|---|---|---|
| Arduino.TruncDiv | test/mocks/Arduino.h:45-47 | C++ `/`: the magnitude is the quotient of the magnitudes, and the sign is positive only when the operands agree in sign |
| Arduino.Map | test/mocks/Arduino.h:45-47 | `map` sends the input range's low end to the output's low end and its high end to the output's high end |
| Arduino.MapTruncatesTowardZero | test/mocks/Arduino.h:45-47 | `map` rounds toward zero, so a falling map of 1 over 0..50 onto 255..0 gives 250, not 249 |
| Arduino.Constrain | test/mocks/Arduino.h:48 | below lo the result is lo, above hi (and not below lo) it is hi, and a value inside [lo, hi] is unchanged; for lo <= hi the result lies in [lo, hi] |
| Arduino.Abs | test/mocks/Arduino.h:49 | the result is non-negative and is x or -x |
| Arduino.ToUpper | test/mocks/Arduino.h:44 | lower-case ASCII letters go to the matching capital; every other character is unchanged |
| Arduino.Elapsed | test/mocks/Arduino.h:20 | `unsigned long` subtraction of two clock readings: the plain difference, or the difference plus 2^32 when the clock has wrapped |
| Arduino.ElapsedAfterAdvance | test/mocks/Arduino.h:20 | after the clock moves on by d < 2^32 ms, the elapsed time is d, even across a wrap |
| Decimal.NatToString | src/StationManager.cpp:181-184 | `String(index)` gives decimal digits with no leading zero |
| Decimal.DigitsValueOfNatToString | src/StationManager.cpp:181-184 | reading the decimal text back gives the number (a round trip) |
| Decimal.NatToStringInjective | src/StationManager.cpp:181-184 | different numbers give different decimal text |
| Text.Strip | scripts/release.py:80-98 | Python `strip()`: the result is a slice of the input, only `str.isspace` characters are removed on either side, and its ends are not such characters |
| Text.LeadingSpaces | scripts/version.py:4-24 | counts exactly the leading `str.isspace` characters that `strip()` removes |
| Text.TrailingEnd | scripts/version.py:4-24 | finds exactly where the trailing whitespace that `strip()` removes begins |
| Text.StripTrimmed | scripts/version.py:4-24 | a value with non-space ends is unchanged by strip, even after git's trailing newline is added |
| Text.Lower | scripts/release.py:139 | Python `lower()` on ASCII: same length, and each character is lowered on its own |
| Text.LowerChar | scripts/release.py:139 | capitals go to lower case; every other character is unchanged |
| Preferences.GetInt | test/mocks/Preferences.h:31-37 | `getInt` gives the stored value of a present key and the default otherwise |
| Preferences.GetString | test/mocks/Preferences.h:39-45 | `getString` gives the stored value of a present key and the default otherwise |
| Preferences.PutInt | test/mocks/Preferences.h:21-24 | after `putInt`, the key reads the new value; other integer keys and all string keys read as before |
| Preferences.PutString | test/mocks/Preferences.h:26-29 | after `putString`, the key reads the new value; other string keys and all integer keys read as before |
| Preferences.Clear | test/mocks/Preferences.h:15-19 | after `clear`, every read gives its default |
| Preferences.PutIntTwice | test/mocks/Preferences.h:21-24 | a second `putInt` to the same key overrides the first |
| Preferences.PutIntCommutes | test/mocks/Preferences.h:48-49 | writes to different keys commute |
| Config.TimingTablesFollowItu | src/Config.cpp:4-23 | all three tables follow the ITU 1:3:1:3:7 spacing, and each speed halves the dot of the slower one |
| Config.TimingsForCode | src/Config.cpp:94-105 | each stored speed code selects its table; an unknown code gets medium; every result has ITU spacing |
| Config.TimingsSlowerIsLonger | src/Config.cpp:94-105 | slow has a longer dot than medium, and medium a longer dot than fast |
| Config.SpeedName | src/Config.cpp:25-38 | each speed gets its name, and codes outside 0..2 get "Unknown" |
| Config.BandName | src/Config.cpp:40-53 | each band gets its name, and codes outside 0..2 get "Unknown" |
| Config.NamesDistinguish | src/Config.cpp:25-53 | names tell speeds and bands apart, and no real enum value is "Unknown" |
| Config.CurrentMorseTimings | src/Config.cpp:94-105 | the configured speed selects its own timing table |
| Config.Reset | src/Config.cpp:82-92 | after `reset`: medium speed, short wave, default frequency and volume, WiFi and Morse off |
| Config.ResetIdempotent | src/Config.cpp:82-92 | reset does not depend on the prior state, so resetting twice equals resetting once |
| MorseTable.Symbol | src/MorseCode.cpp:239-254 | a space is a word gap; letters of either case and figures get a well-formed pattern (five elements for figures); all else gets nothing |
| MorseTable.PatternOf | src/MorseCode.cpp:41-46 | capitals and figures index a well-formed entry; every other character gets the empty pattern |
| MorseTable.PatternsWellFormed | src/MorseCode.cpp:4-39 | the 36 patterns are one to five dots and dashes, and each figure has five |
| MorseTable.PatternsDistinct | src/MorseCode.cpp:4-39 | no two characters share a pattern |
| MorseTable.KnownPatterns | src/MorseCode.cpp:4-39 | sample entries match the ITU table, and punctuation has no pattern |
| MorseTable.Lookup | src/MorseCodePlayer.cpp:155-166 | a non-empty code found in the list is paired with the key in the list |
| MorseTable.LookupFinds | src/MorseCodePlayer.cpp:155-166 | the search returns the code of the first entry with the key |
| MorseTable.LookupMisses | src/MorseCodePlayer.cpp:155-166 | the search returns "" for a key the list does not hold |
| MorseTable.CodeMapLayout | src/MorseCodePlayer.cpp:148-153 | the player's list holds the letters in order, then 1 to 9, then 0, with the same patterns as the keyer's array |
| MorseTable.CodeMapLookup | src/MorseCodePlayer.cpp:148-166 | the player's list gives exactly the keyer's pattern for every key |
| MorseTable.LetterEntry | src/MorseCodePlayer.cpp:148-153 | each capital finds the keyer's pattern |
| MorseTable.FigureEntry | src/MorseCodePlayer.cpp:148-153 | each figure from 1 to 9 finds the keyer's pattern |
| MorseTable.ZeroEntry | src/MorseCodePlayer.cpp:148-153 | 0, listed last, finds the keyer's pattern for 0 |
| MorseTable.NoOtherEntry | src/MorseCodePlayer.cpp:155-166 | any character that is not a capital or figure finds nothing |
| MorseTable.PlayerCode | src/MorseCodePlayer.cpp:155-166 | `getMorseCode`: a non-empty code is the one the map lists for the upper-cased character |
| MorseTable.PlayerCodeMatchesSymbol | src/MorseCodePlayer.cpp:155-166 | the two keyers agree on every character except the space, which only `getSymbol` knows |
| MorseTable.CaseInsensitive | src/MorseCode.cpp:242 | both lookups ignore letter case |
| MorseCode.Stop | src/MorseCode.cpp:222-235 | `stop` silences the keyer, rewinds it and keeps the message |
| MorseCode.StartMessage | src/MorseCode.cpp:64-82 | a new message starts silent at its first character, in the tune-in delay, timed from now |
| MorseCode.KeyCharacter | src/MorseCode.cpp:169-220 | loading a character starts the tone exactly when it is a letter or a figure |
| MorseCode.HandleTuneInDelay | src/MorseCode.cpp:126-145 | the keyer stays silent until the tune-in delay has elapsed, then keys the current character |
| MorseCode.HandleWordSpace | src/MorseCode.cpp:147-167 | a space advances only after a full word gap, and the next character sounds only if it is keyable (corrected; see Findings) |
| MorseCode.ProcessSymbol | src/MorseCode.cpp:169-220 | a tone ends once and only once its element's length has passed, the next element starts once and only once a symbol gap has passed, and the next character begins once and only once the letter gap after the last element has passed |
| MorseCode.SkipUnsupported | src/MorseCode.cpp:108-112 | an unsupported character is passed over and the next keyable character is keyed (corrected; see Findings) |
| MorseCode.Update | src/MorseCode.cpp:84-123 | (corrected; see Findings) one step keeps the invariant and the message, never moves backwards, stops at the end, and keys only keyable characters |
| MorseCode.Play | src/MorseCode.cpp:84-123 | (corrected; see Findings) the playing branch of `update`: elements respect their timing, and only letters and figures sound |
| MorseCode.HandleWordSpaceAsWritten | src/MorseCode.cpp:147-167 | the word gap as written: it advances after a full gap but turns the tone on whatever follows |
| MorseCode.UpdateAsWritten | src/MorseCode.cpp:84-123 | `update` as written keeps the bookkeeping and stops at the message end |
| MorseCode.PlayAsWritten | src/MorseCode.cpp:84-123 | the playing branch as written keeps the bookkeeping and never moves backwards |
| MorseCode.WordSpaceToneBlip | src/MorseCode.cpp:158-165 | for "E  E", the first space's gap turns the tone on while the next character is a space |
| MorseCode.UnsupportedSilencesNext | src/MorseCode.cpp:108-112 | for "!E", the E after the skipped "!" is never keyed |
| MorseCode.UnsupportedClipsFirstElement | src/MorseCode.cpp:108-112 | for "!A", A's dot is never keyed and its dash is, after the element gap; the corrected step keys the dot at once |
| MorseCodePlayer.New | src/MorseCodePlayer.cpp:5-11 | a new player has a 100 ms dot, 300 ms dash and gaps, 800 Hz, volume 64, and is silent |
| MorseCodePlayer.SetSpeed | src/MorseCodePlayer.cpp:41-47 | the dot and part gap equal the given dot; the dash and character gap are three dots (wrapping at 2^32); nothing else changes |
| MorseCodePlayer.Stop | src/MorseCodePlayer.cpp:142-146 | playback and tone go off, and nothing else changes |
| MorseCodePlayer.SetMessage | src/MorseCodePlayer.cpp:13-39 | an empty message only stops; any other starts silent at its first character's code, timed from now |
| MorseCodePlayer.Update | src/MorseCodePlayer.cpp:49-110 | a tone ends once and only once its element's length has passed, the next element sounds once and only once a part gap has passed, the next character is loaded once and only once a character gap has passed, and playback ends after the last character; the step keeps the bookkeeping valid |
| EnabledStation.IsInRange | src/Station.cpp:9-18 | a station is in range iff it is enabled and the dial is within the leeway of its frequency |
| EnabledStation.SignalStrength | src/Station.cpp:26-43 | strength is 0..255: zero out of range, and falling linearly with distance inside it |
| EnabledStation.FallingMap | src/Station.cpp:42 | the falling `map` over the leeway is 255 minus the truncated rising one |
| EnabledStation.StrengthPositiveIff | src/Station.cpp:26-43 | strength is positive iff the station is in range and strictly inside the leeway |
| EnabledStation.StrengthMonotone | src/Station.cpp:26-43 | a dial nearer the frequency never hears the station weaker |
| EnabledStation.KnownStrengths | src/Station.cpp:26-43 | exactly on frequency gives 255, half the leeway gives 128, and the edge gives 0 |
| EnabledStation.KnownRanges | src/Station.cpp:9-18 | sample dial positions inside and outside the leeway of a 2000 station |
| RadioStation.ScaleTuning | src/StationManager.cpp:41-62 | the 12-bit reading scales onto 0..4000, with the ends fixed |
| RadioStation.ScaleMonotone | src/StationManager.cpp:41-62 | turning the dial up never lowers the scaled tuning |
| RadioStation.IsInRange | src/StationManager.cpp:41-45 | in range iff the scaled dial is within the leeway of the frequency |
| RadioStation.SignalStrength | src/StationManager.cpp:47-62 | strength is 0..255: zero outside the leeway and at its edge, full strength on frequency |
| RadioStation.RisingMap | src/StationManager.cpp:47-62 | the rising `map` over the leeway stays within 0..255 |
| RadioStation.StrengthPositiveIff | src/StationManager.cpp:47-62 | strength is positive iff the station is strictly inside the leeway |
| RadioStation.StrengthMonotone | src/StationManager.cpp:47-62 | nearer never sounds weaker |
| RadioStation.VariantsDifferByRounding | src/StationManager.cpp:47-62 | at the same distance, the two strength formulas differ by at most 1, from rounding |
| RadioStation.RoundingGap | src/Station.cpp:42 | the difference is 0 exactly when the distance is a multiple of 10 |
| StationStorage.PreferenceKey | src/StationStorage.cpp:4-7 | the key is the prefix followed by the decimal index |
| StationStorage.KeysDistinct | src/StationStorage.cpp:4-7 | keys of different stations differ, and a frequency key is never a message key |
| StationStorage.SaveFirst | src/StationStorage.cpp:9-24 | the save loop up to n writes each station's two keys and leaves every other key alone |
| StationStorage.SaveEntries | src/StationStorage.cpp:9-24 | every saved station's frequency and message read back from their keys |
| StationStorage.LoadEntries | src/StationStorage.cpp:26-44 | each entry takes the stored value, or keeps its own when the key is absent |
| StationStorage.SaveWritesOnlyItsKeys | src/StationStorage.cpp:9-24 | keys that are not station keys read as before the save |
| StationStorage.LoadAfterSave | src/StationStorage.cpp:9-44 | loading what was saved gives back the saved entries, whatever was there before |
| StationStorage.LoadFromEmpty | src/StationStorage.cpp:26-44 | loading from an empty store keeps the current entries |
| StationStorage.SaveStations | src/StationStorage.cpp:9-24 | every station's frequency and message can be read back |
| StationStorage.LoadStations | src/StationStorage.cpp:26-44 | only frequency and message are loaded; name, band and flag are kept |
| StationStorage.StationsRoundTrip | src/StationStorage.cpp:9-44 | save then load leaves the table unchanged |
| StationManager.DefaultsLayout | src/StationManager.cpp:4-38 | 27 defaults in three bands of nine, each on the 0..4000 dial, ascending in a band |
| StationManager.DefaultsAscending | src/StationManager.cpp:4-36 | defaults in the same band are at least two leeways apart |
| StationManager.DefaultsHeardOnce | src/StationManager.cpp:4-36 | at any dial position, at most one default station of a band is heard |
| StationManager.InitializeDefaultStations | src/StationManager.cpp:94-104 | the initial table has 27 stations and nine per band |
| StationManager.DefaultsPerBand | src/StationManager.cpp:4-38 | each band has nine defaults |
| StationManager.DefaultsCount | src/StationManager.cpp:4-38 | counting a band over a prefix of the defaults gives the expected count per block |
| StationManager.BandCount | src/StationManager.cpp:158-169 | the band filter's length equals the band count |
| StationManager.GetStation | src/StationManager.cpp:149-156 | an index in range gives that station, and one past the end gives none |
| StationManager.StationsForBand | src/StationManager.cpp:158-169 | gives ascending indices of exactly the stations in the band |
| StationManager.FindClosestStation | src/StationManager.cpp:106-147 | gives the first audible station of the band in table order with its strength (in 0..255), else the band's first station at strength 0; locks iff some station of the band is audible; gives none iff the band is empty |
| StationManager.Entries | src/StationManager.cpp:186-202 | the persisted part of each station |
| StationManager.SaveToPreferences | src/StationManager.cpp:186-202 | every station's frequency and message read back from their keys |
| StationManager.LoadFromPreferences | src/StationManager.cpp:204-222 | stored values replace frequency and message; the rest is kept |
| StationManager.PreferencesRoundTrip | src/StationManager.cpp:186-222 | save then load changes nothing |
| StationManager.Begin | src/StationManager.cpp:65-83 | `begin` gives the 27 default stations with their names and bands, each taking its stored frequency and message where the store has them and its default otherwise |
| StationManager.UpdateStation | src/StationManager.cpp:171-179 | an index in range changes that station's frequency and message and saves them; otherwise nothing changes |
| StationManager.ResetToDefaults | src/StationManager.cpp:224-228 | the table is the defaults again, and loading the store gives the defaults back |
| WaveBandManager.SelectBand | src/WaveBandManager.cpp:50-61 | long wave iff the LW switch is low; medium iff only the MW switch is low; short otherwise |
| WaveBandManager.SelectBandToggle | test/mocks/WaveBandManager.h:44-55 | the mock's selection: medium and short are swapped |
| WaveBandManager.ToggleSwapsMediumAndShort | test/mocks/WaveBandManager.h:39-62 | the two selections differ exactly by swapping medium and short |
| WaveBandManager.New | src/WaveBandManager.h:40 | a new manager has full LED brightness and all LEDs off |
| WaveBandManager.BandChannel | src/WaveBandManager.cpp:91-101 | each band has its own LED channel |
| WaveBandManager.UpdateLeds | src/WaveBandManager.cpp:77-101 | only the current band's LED is lit, at the set brightness |
| WaveBandManager.Update | src/WaveBandManager.cpp:44-70 | the band follows the switches; a change relights the LEDs; no change changes nothing |
| WaveBandManager.UpdateIdempotent | src/WaveBandManager.cpp:63-69 | reading the same switches twice equals reading them once |
| WaveBandManager.SetLedBrightness | src/WaveBandManager.cpp:103-108 | brightness is clamped up to the minimum, and the current band's LED shows it |
| SpeedManager.DutyOf | src/SpeedManager.cpp:25-39 | each speed indicator has a PWM duty in 1..255 |
| SpeedManager.DutyOrdersSpeeds | src/SpeedManager.cpp:25-39 | a faster speed gets a brighter indicator |
| SpeedManager.Select | src/SpeedManager.cpp:16-40 | slow iff the slow switch is low; medium iff only the medium switch is low; fast otherwise |
| SpeedManager.SelectArduino | main/include/SpeedManager.h:29-50 | this build has fast when the medium switch is low and medium otherwise |
| SpeedManager.SelectEsp | main/include/SpeedManagerESP.h:49-76 | the ESP build selects as the Arduino build does |
| SpeedManager.BuildsAgree | main/include/SpeedManagerESP.h:57-70 | the ESP and Arduino builds agree; the src build differs by swapping medium and fast |
| SpeedManager.Update | src/SpeedManager.cpp:16-40 | the configuration takes the selected speed, and the current timings follow it |
| ButtonDebouncer.New | src/ButtonDebouncer.h:17-24 | a new debouncer reads released (HIGH), with no press reported |
| ButtonDebouncer.Begin | src/ButtonDebouncer.h:26-31 | `begin` takes the current reading as stable |
| ButtonDebouncer.Update | src/ButtonDebouncer.h:36-55 | the stable state changes only to a reading held unchanged for longer than the debounce time |
| ButtonDebouncer.IsPressed | src/ButtonDebouncer.h:80-82 | pressed iff the stable level is the active level |
| ButtonDebouncer.WasPressed | src/ButtonDebouncer.h:62-75 | reports a press only when pressed and not yet reported |
| ButtonDebouncer.PressedTrace | src/ButtonDebouncer.h:36-82 | one entry per sample, and entry i is whether the button counts as pressed once the first i + 1 samples are polled |
| ButtonDebouncer.GetState | src/ButtonDebouncer.h:108 | the debounced level, which is the active level exactly when the button counts as pressed |
| ButtonDebouncer.OneReportPerPress | src/ButtonDebouncer.h:62-75 | over any run, the number of reported presses equals the number of rising edges of the pressed state |
| ButtonDebouncer.HeldPressReportedOnce | src/ButtonDebouncer.h:62-75 | a held button is reported at most once |
| PotentiometerReader.New | src/PotentiometerReader.h:7-12 | a new reader has a zeroed window |
| PotentiometerReader.Begin | src/PotentiometerReader.h:14-21 | `begin` fills the window with the first reading, so its mean is that reading |
| PotentiometerReader.SumBounds | src/PotentiometerReader.h:30-34 | the window sum lies between the count times the bounds |
| PotentiometerReader.MeanBounds | src/PotentiometerReader.h:30-34 | the mean lies within the bounds of the readings |
| PotentiometerReader.Threshold | src/PotentiometerReader.h:37-43 | the hysteresis widens by half for a large jump and never drops below the base |
| PotentiometerReader.Read | src/PotentiometerReader.h:24-53 | the window takes the reading at the ring index; the stable value moves only when the mean leaves the hysteresis band |
| PotentiometerReader.SteadyInput | src/PotentiometerReader.h:14-53 | a steady input reads back as itself |
| PotentiometerReader.StaysInAdcRange | src/PotentiometerReader.h:24-53 | with 12-bit readings, the output stays in 0..4095 |
| PowerManager.UpdatePinStates | src/PowerManager.cpp:37-44 | each switch flag is "pin is LOW"; the analogue readings are kept |
| PowerManager.Observe | src/PowerManager.cpp:103-110 | the stored snapshot is the pins' current flags and readings |
| PowerManager.CheckForInputChanges | src/PowerManager.cpp:46-113 | reports a change iff a switch flipped or a pot moved past its threshold; it then stores the new snapshot |
| PowerManager.SecondCheckQuiet | src/PowerManager.cpp:46-113 | a second check with the same pins reports no change |
| PowerManager.Begin | src/PowerManager.cpp:3-25 | the stored snapshot is the current pots and switches, and the activity time is the given one |
| PowerManager.CheckActivity | src/PowerManager.cpp:115-155 | WiFi keeps the radio awake; checks run only after the debounce; sleep only after the timeout with no activity |
| PowerManager.ActivityPostponesSleep | src/PowerManager.cpp:115-155 | after detected activity, no sleep happens before the timeout |
| AudioManager.VolumeOf | src/AudioManager.cpp:21-24 | the 12-bit reading maps onto 0..255, with its ends fixed |
| AudioManager.VolumeMonotone | src/AudioManager.cpp:21-24 | a higher reading never gives a lower volume |
| AudioManager.SetVolume | src/AudioManager.cpp:21-24 | only the volume changes |
| AudioManager.HandlePlayback | src/AudioManager.cpp:26-40 | re-reads the volume at most every 50 ms, and ignores changes within the hysteresis |
| AudioManager.PlayMorseTone | src/AudioManager.cpp:42-47 | sounds 600 Hz at the current volume |
| AudioManager.Stop | src/AudioManager.cpp:64-67 | duty is zero, and nothing else changes |
| AudioManager.PlayStaticNoise | src/AudioManager.cpp:54-62 | static at the given frequency, with loudness scaled by signal strength |
| AudioManager.StaticVolume | src/AudioManager.cpp:54-62 | zero signal is silent, full signal is the full volume, and the result never exceeds the volume |
| RadioSystem.HandleStationTuning | src/main.cpp:84-109 | (corrected; see Findings) a new station restarts the keyer with its message, the same station keeps playing, and losing the signal stops it |
| RadioSystem.LockedStationNotRestarted | src/main.cpp:84-109 | a newly locked station starts its message, and the next step on it does not restart it |
| RadioSystem.UpdateTuningAndStation | src/main.cpp:200-230 | (corrected; see Findings) one loop step: band from the switches, then tuning on the closest station; the strength is in 0..255 and positive iff the first in-range station of the band (table order) has positive strength, and then that station is the one remembered; otherwise the speaker plays the noise frequency at duty 0 (silent) |
| RadioSystem.HandleWiFiButton | src/main.cpp:185-198 | toggles iff outside the OTA boot window, the button is low and the debounce has passed |
| RadioSystem.NoToggleWithinDebounce | src/main.cpp:185-198 | no second toggle within the debounce time |
| SemVer.IsNewer | src/OTAManager.cpp:306-312 | the comparison ladder; a newer version is a different one (its full meaning is `IsNewerIsLexicographic`) |
| SemVer.IsNewerIsLexicographic | src/OTAManager.cpp:306-312 | the version ladder is the lexicographic order of (major, minor, patch) |
| SemVer.NewerIrreflexive | src/OTAManager.cpp:306-312 | no version is newer than itself |
| SemVer.NewerAsymmetricAndTotal | src/OTAManager.cpp:306-312 | of two different versions, exactly one is newer |
| SemVer.NewerTransitive | src/OTAManager.cpp:306-312 | newer is transitive |
| SemVer.Format | scripts/release.py:58-78 | "M.m.p" starts and ends with a digit |
| SemVer.FormatInjective | scripts/release.py:58-78 | different versions format differently |
| OtaManager.AddWiFiCredentials | src/OTAManager.cpp:4-10 | appends while fewer than three are stored; otherwise nothing changes |
| OtaManager.ClearWiFiCredentials | src/OTAManager.cpp:12 | leaves no credentials |
| OtaManager.CredentialsBounded | src/OTAManager.cpp:4-10 | any series of additions keeps the first three and drops the rest |
| OtaManager.NetworksToTry | src/OTAManager.cpp:60-66 | the stored networks, or the three placeholders when none are stored |
| OtaManager.ConnectToWiFi | src/OTAManager.cpp:60-98 | connects iff some network in the tried list comes up |
| OtaManager.StripTagPrefix | src/OTAManager.cpp:130-135 | one leading 'v' is removed from the tag, and nothing else changes |
| OtaManager.BuildDownloadUrl | src/OTAManager.cpp:374-379 | the base URL, "v", the version, then "/firmware.bin" |
| OtaManager.DownloadUrlInjective | src/OTAManager.cpp:374-379 | different versions get different URLs |
| OtaManager.CSpaceRun | src/OTAManager.cpp:301 | counts exactly the leading C `isspace` characters that `%d` skips |
| OtaManager.DigitRun | src/OTAManager.cpp:301 | `%d` consumes exactly the leading digits |
| OtaManager.ScanInt | src/OTAManager.cpp:301 | a successful `%d` consumes a non-empty prefix |
| OtaManager.ScanFields | src/OTAManager.cpp:301-304 | sscanf assigns at most as many fields as asked |
| OtaManager.ScanTriple | src/OTAManager.cpp:301-304 | "%d.%d.%d" assigns at most three fields |
| OtaManager.ScanNatural | src/OTAManager.cpp:301 | `%d` reads back a number's decimal text |
| OtaManager.ScanFieldsStep | src/OTAManager.cpp:301-304 | a number then a dot fills one field and scanning continues after the dot |
| OtaManager.ScanFieldsLast | src/OTAManager.cpp:301-304 | the last field reads a bare number |
| OtaManager.ScanFormat | src/OTAManager.cpp:301-304 | scanning a formatted version assigns all three fields correctly (a round trip) |
| OtaManager.ScanLetterFails | src/OTAManager.cpp:301-304 | a string starting with a letter, such as 'v', assigns no field |
| OtaManager.IsNewerVersionAsWritten | src/OTAManager.cpp:293-313 | `isNewerVersion` as written: when the current version assigns no field, the answer is decided by the uninitialised locals; when both scans are complete, they play no part |
| OtaManager.Fill | src/OTAManager.cpp:293-313 | three scanned fields are used as they are; with none, the uninitialised values are used |
| OtaManager.TaggedBuildComparesGarbage | src/OTAManager.cpp:293-313 | with current "v1.2.3", the comparison as written depends on uninitialised values; the corrected one says not newer |
| OtaManager.StripFormatted | src/OTAManager.cpp:130-135 | stripping the tag prefix from a tagged or plain version gives the plain version |
| OtaManager.ScanVersion | src/OTAManager.cpp:293-304 | (corrected) the version in a string with the tag's 'v' dropped, present exactly when all three fields are assigned |
| OtaManager.IsNewerVersion | src/OTAManager.cpp:293-313 | (corrected; see Findings) true only when both strings scan in full, and then exactly when the remote version is newer |
| OtaManager.GarbageNeverNewer | src/OTAManager.cpp:293-313 | (corrected) a string that is not a version, on either side, never offers an update |
| OtaManager.IsNewerVersionOfFormatted | src/OTAManager.cpp:293-313 | for formatted versions, tagged or not, the corrected comparison is exactly the version order |
| OtaManager.CheckAndUpdate | src/OTAManager.cpp:14-58 | (corrected; see Findings) the five outcomes each occur exactly under their conditions |
| OtaManager.NoUpdateToSameVersion | src/OTAManager.cpp:14-58 | (corrected; see Findings) a tagged build of the latest release needs no update |
| Release.VersionBody | scripts/release.py:37-46 | the file's text without one trailing newline |
| Release.ParseVersion | scripts/release.py:48-56 | a parsed version is three non-negative numbers |
| Release.ParseAccepts | scripts/release.py:48-56 | three digit strings joined by dots, optionally newline-terminated, parse to their values |
| Release.ParseSound | scripts/release.py:48-56 | everything that parses has that shape |
| Release.ParseFormat | scripts/release.py:48-78 | parsing a formatted version gives it back (a round trip) |
| Release.BumpTriple | scripts/release.py:58-78 | patch, minor and major bump their field and zero the lower ones; any other type is refused |
| Release.BumpIsNewer | scripts/release.py:58-78 | a bump gives a strictly newer version, and only major changes the major number |
| Release.BumpVersion | scripts/release.py:58-78 | invalid versions and bump types are reported; success gives a parseable, newer, correctly bumped version |
| Release.ParseExample | scripts/release.py:15-17 | "1.10.3" parses to (1, 10, 3) |
| Release.PatchExample | scripts/release.py:15-17 | a patch bump of 1.10.3 is 1.10.4 |
| Release.MinorExample | scripts/release.py:15-17 | a minor bump of 1.10.3 is 1.11.0 |
| Release.MajorExample | scripts/release.py:15-17 | a major bump of 1.10.3 is 2.0.0 |
| Release.UnknownBumpExample | scripts/release.py:58-78 | an unknown bump type is refused |
| Release.RejectsLeadingV | scripts/release.py:48-56 | a version with a leading 'v' is refused |
| Release.RunRelease | scripts/release.py:26-210 | a wrong argument count, a failing `git status` or `git branch`, or a dirty tree exits 1; off the main branch the run goes on only after a "y"; nothing is written unless the answer is "y"; when every check passes and the answer is "y", the VERSION file gets the bumped version, and the tag "v" + that version is pushed with exit 0 if publishing succeeds, otherwise nothing is pushed and the exit is 1 |
| Release.OffMainNeedsConsent | scripts/release.py:90-98 | on another branch than main, anything but "y" at the branch prompt ends the run with 1 and writes nothing |
| Release.DecliningIsClean | scripts/release.py:130-172 | answering "n" on a clean main branch writes and pushes nothing, and exits 0 exactly when the file exists, the bump succeeds and the tag is new (1 otherwise) |
| VersionHeader.GetGitVersion | scripts/version.py:4-24 | the exact tag, else `git describe`, else "unknown" when both exit non-zero, each stripped; no version when git is not installed, since only `CalledProcessError` is caught |
| VersionHeader.UnknownOnlyWhenGitFails | scripts/version.py:4-24 | "unknown" appears only when both git calls fail (or git prints it) |
| VersionHeader.TaggedBuildVersion | scripts/version.py:4-24 | a tagged build's version is "v" + the version, with git's newline removed |
| VersionHeader.Header | scripts/version.py:30-37 | the header is the fixed prefix, the version, and the fixed suffix |
| VersionHeader.GenerateVersionHeader | scripts/version.py:26-47 | a header is written exactly when a version was found, and it embeds exactly that version |
| VersionHeader.HeaderInjective | scripts/version.py:30-37 | different versions give different headers |
| VersionHeader.HeaderIsJoinedLines | scripts/version.py:30-37 | the header is its eight lines joined by newlines |
| VersionHeader.HeaderLinesSeparate | scripts/version.py:30-37 | no header line holds a newline, given a single-line version |
| VersionHeader.HeaderLines | scripts/version.py:30-37 | splitting the header at newlines gives its eight lines |

## Left out

- Hardware I/O is left out: PWM channels, pin setup, LED fading tasks, Serial logging, deep sleep and the battery voltage (floating point). Pin levels and ADC readings are parameters.
- WiFi, HTTP and JSON are left out: the network part of `getLatestVersion`, `getAssetDownloadURL` and `downloadAndInstall`. Their outcomes are the parameters of `OtaManager.CheckAndUpdate`.
- `INSTALL_FAILED` of `UpdateResult` is never returned by `checkAndUpdate`, so it has no constructor.
- OtaManager.ConnectToWiFi: whether a network comes up within 30 s is a parameter. The fact that the placeholder networks stay stored afterwards is given by `NetworksToTry`, not returned.
- The FreeRTOS LED tasks and the TaskScheduler loop are left out; `RadioSystem` models one pass of each step.
- `ButtonDebouncer.wasReleased` is left out. It keeps its state in a function-level `static` that all debouncers share.
- 32-bit `int` overflow of sums and products is not modelled, except where the source uses `unsigned long` time or `unsigned int` durations.
- Fields that constructors leave uninitialised start at zero.
- Random static frequencies, `INACTIVITY_TIMEOUT`, `TUNE_IN_DELAY` and the WiFi debounce time are parameters.
- Release.ParseVersion and Text.Lower are modelled on ASCII text: Python's `\d` also matches non-ASCII digits and `lower` also lowers non-ASCII capitals, which the model does not do. `Text.Strip` removes every `str.isspace` character, non-ASCII ones included.
- Output of git or a VERSION file that is not valid UTF-8 is not modelled: the texts are given already decoded.
- OtaManager.ScanInt models `%d` on whitespace, sign and digits only; overflow of the C conversion is not modelled.
- VersionHeader.GetGitVersion takes each git run as a parameter: its output, a non-zero exit, or git not being installed. Other operating-system errors of the subprocess are not modelled; like a missing git, they would escape the script. Writing the file is not modelled.
- Release.RunRelease takes git outcomes, prompt answers and file contents as parameters. The commit, push and tag commands are summarised by `publishOk`.
- `src/WiFiManager.cpp` and `src/SignalManager.cpp` are in the build: `main.cpp` toggles the web UI and reports lock status and signal strength to the LEDs through them. They are left out as web-UI and LED-output code, and `RadioSystem` stops at the values passed to them.
- `src/Stations.cpp` is not part of this model: no other file includes its header.
- MorseCode.Update, MorseCode.Play, RadioSystem.HandleStationTuning and RadioSystem.UpdateTuningAndStation use the corrected word gap and skip of the Findings. The firmware's own step is `MorseCode.UpdateAsWritten`: it turns the tone on for the second space of "E  E" and leaves out the first element of the character after an unsupported one.
- OtaManager.CheckAndUpdate and OtaManager.NoUpdateToSameVersion use the corrected `IsNewerVersion` of the Findings. On a tagged build such as "v1.2.3", the firmware compares uninitialised locals instead, as `IsNewerVersionAsWritten` shows.

## Findings

| source | as written | input that shows it | evidently intended | confidence | as-written member | corrected member |
|---|---|---|---|---|---|---|
| src/MorseCode.cpp:158-165 | after a word gap the tone is switched on for the next character, even when that character is another space | "E  E" at index 1, 700 ms after the last change, medium speed | sound only when the next character has a pattern | high; not executed | MorseCode.WordSpaceToneBlip | MorseCode.HandleWordSpace |
| src/MorseCode.cpp:108-112 | skipping an unsupported character advances the index without loading or keying the next character, so the next step treats it as begun and its first element is never sounded: a one-element character such as E is lost entirely, while "!A" keys A as "-" | "!E" (and "!A", see `MorseCode.UnsupportedClipsFirstElement`) | key the character after the skipped one | high; not executed | MorseCode.UnsupportedSilencesNext | MorseCode.SkipUnsupported |
| src/OTAManager.cpp:293-313 | `FIRMWARE_VERSION` is the git tag "v1.2.3" (scripts/version.py:13-15), but `sscanf("%d.%d.%d")` assigns nothing for a leading 'v', so uninitialised locals are compared | remote "1.2.3", current "v1.2.3" | strip the 'v' from both sides before scanning, and treat a version that does not scan in full as an error that offers no update | medium; not executed | OtaManager.TaggedBuildComparesGarbage | OtaManager.IsNewerVersionOfFormatted |

=== FILE: arduino.dfy ===
/** The integer helpers of the Arduino core that the firmware relies on
    (`map`, `constrain`, `abs`, `toupper`), the two pin levels, and the
    32-bit millisecond clock with its wrap-around subtraction. */
module Arduino {

  const HIGH: int := 1
  const LOW: int := 0

  /** `unsigned long` on the ESP32 is 32 bits wide. */
  const U32_MODULUS: int := 0x1_0000_0000

  /** A `millis()` reading or any other `unsigned long` quantity. */
  type Millis = t: int | 0 <= t < 0x1_0000_0000

  /** C++ integer division, which truncates toward zero (Dafny's `/` is Euclidean). */
  function TruncDiv(a: int, b: int): (q: int)
    requires b != 0
    ensures Abs(q) == Abs(a) / Abs(b)
    ensures q > 0 ==> (a > 0) == (b > 0)
    ensures q < 0 ==> (a > 0) != (b > 0)
  {
    DivNonNegative(Abs(a), Abs(b));
    var m := Abs(a) / Abs(b);
    if (a > 0) == (b > 0) then m else -m
  }

  /** `abs` from the Arduino core; `-x` cannot overflow for unbounded `int`. */
  function Abs(x: int): (r: int)
    ensures r >= 0
    ensures r == x || r == -x
  {
    if x < 0 then -x else x
  }

  lemma AbsSymmetric(x: int)
    ensures Abs(x) == Abs(-x)
  {
  }

  /** Linear rescaling from [inMin, inMax] to [outMin, outMax] with C++ truncating
      division. The source divides by `inMax - inMin`, so equal bounds are excluded. */
  function Map(x: int, inMin: int, inMax: int, outMin: int, outMax: int): (r: int)
    requires inMax != inMin
    ensures x == inMin ==> r == outMin
    ensures x == inMax ==> r == outMax
  {
    TruncDivMultiple(outMax - outMin, inMax - inMin);
    TruncDiv((x - inMin) * (outMax - outMin), inMax - inMin) + outMin
  }

  lemma DivNonNegative(a: nat, b: nat)
    requires b > 0
    ensures a / b >= 0
  {
  }

  lemma MulMonotone(a: int, b: int, n: int)
    requires a <= b && n > 0
    ensures a * n <= b * n
  {
    assert b * n - a * n == (b - a) * n;
  }

  /** Euclidean division by a positive number is monotone. */
  lemma DivMonotone(a: int, b: int, n: int)
    requires a <= b && n > 0
    ensures a / n <= b / n
  {
    var qa, qb := a / n, b / n;
    assert a == qa * n + a % n && b == qb * n + b % n;
    if qa > qb {
      MulMonotone(qb + 1, qa, n);
      assert false;
    }
  }

  /** Exact division of a non-negative multiple. */
  lemma DivExact(q: nat, n: int)
    requires n > 0
    ensures (q * n) / n == q
  {
    var r := (q * n) / n;
    var rem := (q * n) % n;
    assert q * n == r * n + rem;
    assert 0 <= rem < n;
    if r < q {
      assert (r + 1) * n == r * n + n;
      MulMonotone(r + 1, q, n);
      assert false;
    } else if r > q {
      MulMonotone(q + 1, r, n);
      assert false;
    }
  }

  /** Dividing an exact multiple gives back the factor, whatever the signs. */
  lemma TruncDivMultiple(k: int, d: int)
    requires d != 0
    ensures TruncDiv(d * k, d) == k
  {
    assert Abs(d * k) == Abs(k) * Abs(d) by {
      if d < 0 && k < 0 { assert d * k == (-k) * (-d); }
      else if d < 0 { assert -(d * k) == k * (-d); }
      else if k < 0 { assert -(d * k) == (-k) * d; }
    }
    DivExact(Abs(k), Abs(d));
    if k > 0 {
      if d > 0 { assert d * k > 0; } else { assert d * k < 0; }
    } else if k < 0 {
      if d > 0 { assert d * k < 0; } else { assert d * k > 0; }
    }
  }

  /** The truncating division is visible at small numbers: mapping distance 1 of a
      50-wide window onto 255..0 gives 250 (floor division would give 249). */
  lemma MapTruncatesTowardZero()
    ensures Map(1, 0, 50, 255, 0) == 250
    ensures Map(49, 0, 50, 0, 255) == 249
  {
  }

  /** `constrain` clamps into [lo, hi]; values already inside are untouched. */
  function Constrain(x: int, lo: int, hi: int): (r: int)
    ensures lo <= hi ==> lo <= r <= hi
    ensures lo <= x <= hi ==> r == x
    ensures r == x || r == lo || r == hi
    ensures x < lo ==> r == lo
    ensures lo <= x && x > hi ==> r == hi
  {
    if x < lo then lo else if x > hi then hi else x
  }

  predicate IsLowerAscii(c: char) { 'a' <= c <= 'z' }

  /** `toupper` of the test mocks: shifts 'a'..'z' onto 'A'..'Z', leaves the rest. */
  function ToUpper(c: char): (r: char)
    ensures !IsLowerAscii(r)
    ensures IsLowerAscii(c) ==> 'A' <= r <= 'Z' && r as int - 'A' as int == c as int - 'a' as int
    ensures !IsLowerAscii(c) ==> r == c
  {
    if IsLowerAscii(c) then (c as int - 'a' as int + 'A' as int) as char else c
  }

  /** `now - since` on `unsigned long`: the time elapsed on a clock that wraps every 2^32 ms. */
  function Elapsed(now: Millis, since: Millis): (d: Millis)
    ensures since <= now ==> d == now - since
    ensures now < since ==> d == now - since + U32_MODULUS
  {
    (now - since) % U32_MODULUS
  }

  /** The clock reading `d` milliseconds after `t`. */
  function Advance(t: Millis, d: nat): Millis {
    (t + d) % U32_MODULUS
  }

  /** Elapsed time is measured correctly across the wrap as long as less than 2^32 ms passed. */
  lemma ElapsedAfterAdvance(t: Millis, d: nat)
    requires d < U32_MODULUS
    ensures Elapsed(Advance(t, d), t) == d
  {
  }
}

=== FILE: audio.dfy ===
/** The volume handling of `AudioManager`: the volume pot is sampled at most every
    50 ms and accepted only when it moved by more than 50 counts; the 8-bit volume
    scales both the Morse tone and the static. The speaker outputs are the tone
    frequency and duty last written; the noise frequency drawn by `random` is a
    parameter. */
module AudioManager {
  import opened Arduino
  import opened Config

  const VOLUME_UPDATE_INTERVAL: int := 50
  const VOLUME_HYSTERESIS: int := 50
  const MORSE_FREQUENCY: int := 600
  const MIN_STATIC_FREQ: int := 100
  const MAX_STATIC_FREQ: int := 300

  datatype Speaker = Speaker(frequency: int, duty: int)

  datatype Audio = Audio(currentVolume: int, lastVolumeRead: int, lastVolumeUpdate: Millis, speaker: Speaker)

  /** The volume for an ADC reading: 0..4095 onto 0..255. */
  function VolumeOf(adc: int): (v: int)
    ensures adc == 0 ==> v == 0
    ensures adc == ADC_MAX ==> v == 255
    ensures 0 <= adc <= ADC_MAX ==> 0 <= v <= 255 && v == (adc * 255) / ADC_MAX
  {
    VolumeFacts(adc);
    Map(adc, 0, ADC_MAX, 0, 255)
  }

  lemma VolumeFacts(adc: int)
    ensures 0 <= adc <= ADC_MAX ==> Map(adc, 0, ADC_MAX, 0, 255) == (adc * 255) / ADC_MAX
    ensures 0 <= adc <= ADC_MAX ==> 0 <= (adc * 255) / ADC_MAX <= 255
  {
    if 0 <= adc <= ADC_MAX {
      DivMonotone(adc * 255, ADC_MAX * 255, ADC_MAX);
      DivMonotone(0, adc * 255, ADC_MAX);
    }
  }

  /** A higher reading never gives a lower volume. */
  lemma VolumeMonotone(a: int, b: int)
    requires 0 <= a <= b <= ADC_MAX
    ensures VolumeOf(a) <= VolumeOf(b)
  {
    MulMonotone(a, b, 255);
    DivMonotone(a * 255, b * 255, ADC_MAX);
  }

  /** `setVolume`. */
  function SetVolume(a: Audio, adc: int): (r: Audio)
    ensures r.currentVolume == VolumeOf(adc)
    ensures r.(currentVolume := a.currentVolume) == a
  {
    a.(currentVolume := VolumeOf(adc))
  }

  /** `handlePlayback`: nothing happens until the interval has passed since the last
      sample; then the pot is sampled, accepted only if it moved by more than the
      hysteresis, and the sample time is recorded either way. */
  function HandlePlayback(a: Audio, now: Millis, volumeRead: int): (r: Audio)
    ensures Elapsed(now, a.lastVolumeUpdate) < VOLUME_UPDATE_INTERVAL ==> r == a
    ensures Elapsed(now, a.lastVolumeUpdate) >= VOLUME_UPDATE_INTERVAL ==> r.lastVolumeUpdate == now
    ensures Abs(volumeRead - a.lastVolumeRead) <= VOLUME_HYSTERESIS ==>
      r.currentVolume == a.currentVolume && r.lastVolumeRead == a.lastVolumeRead
    ensures Elapsed(now, a.lastVolumeUpdate) >= VOLUME_UPDATE_INTERVAL
            && Abs(volumeRead - a.lastVolumeRead) > VOLUME_HYSTERESIS ==>
      r.currentVolume == VolumeOf(volumeRead) && r.lastVolumeRead == volumeRead
    ensures r.speaker == a.speaker
  {
    if Elapsed(now, a.lastVolumeUpdate) >= VOLUME_UPDATE_INTERVAL then
      var sampled :=
        if Abs(volumeRead - a.lastVolumeRead) > VOLUME_HYSTERESIS
        then SetVolume(a, volumeRead).(lastVolumeRead := volumeRead)
        else a;
      sampled.(lastVolumeUpdate := now)
    else a
  }

  /** `playMorseTone`: the fixed Morse pitch at the current volume. */
  function PlayMorseTone(a: Audio): (r: Audio)
    ensures r.speaker == Speaker(MORSE_FREQUENCY, a.currentVolume)
    ensures r.(speaker := a.speaker) == a
  {
    a.(speaker := Speaker(MORSE_FREQUENCY, a.currentVolume))
  }

  /** `stopMorseTone` and `stop`: the speaker duty goes to zero. */
  function Stop(a: Audio): (r: Audio)
    ensures r.speaker.duty == 0 && r.speaker.frequency == a.speaker.frequency
    ensures r.(speaker := a.speaker) == a
  {
    a.(speaker := a.speaker.(duty := 0))
  }

  /** `playStaticNoise`: the drawn noise pitch, with the volume scaled by the signal
      strength. */
  function PlayStaticNoise(a: Audio, signalStrength: int, noiseFrequency: int): (r: Audio)
    requires MIN_STATIC_FREQ <= noiseFrequency < MAX_STATIC_FREQ
    ensures r.speaker.frequency == noiseFrequency
    ensures r.speaker.duty == StaticVolume(signalStrength, a.currentVolume)
    ensures r.(speaker := a.speaker) == a
  {
    a.(speaker := Speaker(noiseFrequency, StaticVolume(signalStrength, a.currentVolume)))
  }

  /** `map(signalStrength, 0, 255, 0, currentVolume)`: silent at no signal, the full
      volume at full signal, and never louder than the volume in between. */
  function StaticVolume(signalStrength: int, volume: int): (v: int)
    ensures signalStrength == 0 ==> v == 0
    ensures signalStrength == 255 ==> v == volume
    ensures 0 <= signalStrength <= 255 && volume >= 0 ==> 0 <= v <= volume
  {
    StaticFacts(signalStrength, volume);
    Map(signalStrength, 0, 255, 0, volume)
  }

  lemma StaticFacts(s: int, volume: int)
    ensures 0 <= s <= 255 && volume >= 0 ==> 0 <= Map(s, 0, 255, 0, volume) <= volume
  {
    if 0 <= s <= 255 && volume > 0 {
      MulMonotone(s, 255, volume);
      assert s * volume >= 0;
      DivMonotone(s * volume, 255 * volume, 255);
      DivMonotone(0, s * volume, 255);
    }
  }
}

=== FILE: config.dfy ===
/** The configuration layer: the Morse speed and wave band enumerations, the
    three Morse timing tables, their display names, and the configuration record
    that the other components read and write. */
module Config {

  datatype MorseSpeed = Slow | Medium | Fast

  datatype WaveBand = LongWave | MediumWave | ShortWave

  /** The underlying value of `enum class MorseSpeed { SLOW, MEDIUM, FAST }`. */
  function SpeedCode(s: MorseSpeed): int {
    match s
    case Slow => 0
    case Medium => 1
    case Fast => 2
  }

  /** The underlying value of `enum class WaveBand { LONG_WAVE, MEDIUM_WAVE, SHORT_WAVE }`. */
  function BandCode(b: WaveBand): int {
    match b
    case LongWave => 0
    case MediumWave => 1
    case ShortWave => 2
  }

  /** How far, in tuning units, a station can be heard from its frequency. */
  const TUNING_LEEWAY: int := 50
  /** Largest reading of the 12-bit ADC. */
  const ADC_MAX: int := 4095
  /** Full scale of an 8-bit PWM channel. */
  const MAX_BRIGHTNESS: int := 255

  const DEFAULT_MORSE_FREQ: int := 800
  const DEFAULT_VOLUME: int := 64

  /** Durations in milliseconds of one `Audio::MorseTimings` table. */
  datatype MorseTimings = MorseTimings(
    dotDuration: nat, dashDuration: nat, symbolGap: nat, letterGap: nat, wordGap: nat)

  const MORSE_SLOW: MorseTimings := MorseTimings(200, 600, 200, 600, 1400)
  const MORSE_MEDIUM: MorseTimings := MorseTimings(100, 300, 100, 300, 700)
  const MORSE_FAST: MorseTimings := MorseTimings(50, 150, 50, 150, 350)

  /** The spacing rules of section 2 of Part I of Recommendation ITU-R M.1677-1:
      a dash is three dots (2.1), the space between the signals of a letter is one
      dot (2.2), between letters three dots (2.3), between words seven dots (2.4). */
  predicate ItuSpacing(t: MorseTimings) {
    && t.dashDuration == 3 * t.dotDuration
    && t.symbolGap == t.dotDuration
    && t.letterGap == 3 * t.dotDuration
    && t.wordGap == 7 * t.dotDuration
  }

  /** All three tables follow the ITU spacing, and each speed step halves the dot. */
  lemma TimingTablesFollowItu()
    ensures ItuSpacing(MORSE_SLOW) && ItuSpacing(MORSE_MEDIUM) && ItuSpacing(MORSE_FAST)
    ensures MORSE_SLOW.dotDuration == 2 * MORSE_MEDIUM.dotDuration
    ensures MORSE_MEDIUM.dotDuration == 2 * MORSE_FAST.dotDuration
  {
  }

  /** `getCurrentMorseTimings` switches on the stored enum value; any value other
      than SLOW or FAST, including one no enumerator names, selects MEDIUM. */
  function TimingsForCode(code: int): (t: MorseTimings)
    ensures ItuSpacing(t)
    ensures code == SpeedCode(Slow) ==> t == MORSE_SLOW
    ensures code == SpeedCode(Fast) ==> t == MORSE_FAST
    ensures code != SpeedCode(Slow) && code != SpeedCode(Fast) ==> t == MORSE_MEDIUM
  {
    if code == 0 then MORSE_SLOW else if code == 2 then MORSE_FAST else MORSE_MEDIUM
  }

  /** The slower the speed, the longer the dot. */
  lemma TimingsSlowerIsLonger()
    ensures TimingsForCode(SpeedCode(Slow)).dotDuration > TimingsForCode(SpeedCode(Medium)).dotDuration
    ensures TimingsForCode(SpeedCode(Medium)).dotDuration > TimingsForCode(SpeedCode(Fast)).dotDuration
  {
  }

  /** `toString(MorseSpeed)` on the stored enum value. */
  function SpeedName(code: int): (name: string)
    ensures code == SpeedCode(Slow) ==> name == "Slow"
    ensures code == SpeedCode(Medium) ==> name == "Medium"
    ensures code == SpeedCode(Fast) ==> name == "Fast"
    ensures code !in {0, 1, 2} ==> name == "Unknown"
  {
    if code == 0 then "Slow" else if code == 1 then "Medium" else if code == 2 then "Fast"
    else "Unknown"
  }

  /** `toString(WaveBand)` on the stored enum value. */
  function BandName(code: int): (name: string)
    ensures code == BandCode(LongWave) ==> name == "Long Wave"
    ensures code == BandCode(MediumWave) ==> name == "Medium Wave"
    ensures code == BandCode(ShortWave) ==> name == "Short Wave"
    ensures code !in {0, 1, 2} ==> name == "Unknown"
  {
    if code == 0 then "Long Wave" else if code == 1 then "Medium Wave"
    else if code == 2 then "Short Wave" else "Unknown"
  }

  /** Different speeds have different names and none of them is "Unknown";
      likewise for the bands. */
  lemma NamesDistinguish(s1: MorseSpeed, s2: MorseSpeed, b1: WaveBand, b2: WaveBand)
    ensures SpeedName(SpeedCode(s1)) == SpeedName(SpeedCode(s2)) <==> s1 == s2
    ensures BandName(BandCode(b1)) == BandName(BandCode(b2)) <==> b1 == b2
    ensures SpeedName(SpeedCode(s1)) != "Unknown" && BandName(BandCode(b1)) != "Unknown"
  {
  }

  /** The fields of `ConfigManager` the model uses. */
  datatype ConfigState = ConfigState(
    morseSpeed: MorseSpeed, currentBand: WaveBand, morseFrequency: nat, speakerVolume: nat,
    wifiEnabled: bool, morsePlaying: bool, morseToneOn: bool)

  /** `getCurrentMorseTimings`. */
  function CurrentMorseTimings(c: ConfigState): (t: MorseTimings)
    ensures ItuSpacing(t)
    ensures c.morseSpeed == Slow ==> t == MORSE_SLOW
    ensures c.morseSpeed == Medium ==> t == MORSE_MEDIUM
    ensures c.morseSpeed == Fast ==> t == MORSE_FAST
  {
    TimingsForCode(SpeedCode(c.morseSpeed))
  }

  /** `reset`: factory settings, with WiFi, playback and tone switched off.
      Nothing of the previous configuration survives. */
  function Reset(c: ConfigState): (r: ConfigState)
    ensures r.morseSpeed == Medium && r.currentBand == ShortWave
    ensures r.morseFrequency == DEFAULT_MORSE_FREQ && r.speakerVolume == DEFAULT_VOLUME
    ensures !r.wifiEnabled && !r.morsePlaying && !r.morseToneOn
  {
    ConfigState(Medium, ShortWave, DEFAULT_MORSE_FREQ, DEFAULT_VOLUME, false, false, false)
  }

  /** Resetting twice is the same as resetting once, and the result does not
      depend on the configuration reset. */
  lemma ResetIdempotent(c: ConfigState, d: ConfigState)
    ensures Reset(Reset(c)) == Reset(c)
    ensures Reset(c) == Reset(d)
  {
  }
}

=== FILE: debouncer.dfy ===
/** `ButtonDebouncer`: a pin reading becomes the stable state only after it has
    stayed unchanged for longer than the debounce time; `wasPressed` reports each
    press once. The pin reading and `millis()` of each call are parameters. */
module ButtonDebouncer {
  import opened Arduino

  datatype Debouncer = Debouncer(
    debounceMs: Millis,
    activeLow: bool,
    lastReading: int,
    stableState: int,
    lastDebounceTime: Millis,
    pressLatch: bool)

  /** The constructor: both readings HIGH, timer at 0, no press reported. */
  function New(debounceMs: Millis, activeLow: bool): (d: Debouncer)
    ensures d.lastReading == HIGH && d.stableState == HIGH && d.lastDebounceTime == 0
    ensures !d.pressLatch && d.debounceMs == debounceMs && d.activeLow == activeLow
  {
    Debouncer(debounceMs, activeLow, HIGH, HIGH, 0, false)
  }

  /** `begin`: the current reading is taken as both the last and the stable state. */
  function Begin(d: Debouncer, reading: int, now: Millis): (r: Debouncer)
    ensures r.lastReading == reading && r.stableState == reading && r.lastDebounceTime == now
    ensures r.debounceMs == d.debounceMs && r.activeLow == d.activeLow && r.pressLatch == d.pressLatch
  {
    d.(lastReading := reading, stableState := reading, lastDebounceTime := now)
  }

  /** `update`: a changed reading restarts the timer; a reading that has not changed
      for longer than the debounce time becomes the stable state. */
  function Update(d: Debouncer, reading: int, now: Millis): (r: Debouncer)
    ensures r.lastReading == reading
    ensures r.lastDebounceTime == if reading != d.lastReading then now else d.lastDebounceTime
    ensures reading != d.lastReading ==> r.stableState == d.stableState
    ensures r.stableState != d.stableState ==>
      r.stableState == reading && reading == d.lastReading && Elapsed(now, d.lastDebounceTime) > d.debounceMs
    ensures reading == d.lastReading && Elapsed(now, d.lastDebounceTime) > d.debounceMs ==>
      r.stableState == reading
    ensures r.debounceMs == d.debounceMs && r.activeLow == d.activeLow && r.pressLatch == d.pressLatch
  {
    var timer := if reading != d.lastReading then now else d.lastDebounceTime;
    var stable := if Elapsed(now, timer) > d.debounceMs && reading != d.stableState then reading
                  else d.stableState;
    d.(lastDebounceTime := timer, stableState := stable, lastReading := reading)
  }

  /** `isPressed`: the stable state is the active level. */
  function IsPressed(d: Debouncer): (b: bool)
    ensures b <==> d.stableState == (if d.activeLow then LOW else HIGH)
  {
    if d.activeLow then d.stableState == LOW else d.stableState == HIGH
  }

  /** `getState`: the debounced level, which is the active level exactly when the
      button counts as pressed. */
  function GetState(d: Debouncer): (level: int)
    ensures IsPressed(d) <==> level == (if d.activeLow then LOW else HIGH)
  {
    d.stableState
  }

  /** `wasPressed`: true on the first call that sees the button pressed; the latch
      is released by a call that sees it released. */
  function WasPressed(d: Debouncer): (r: (bool, Debouncer))
    ensures r.0 <==> IsPressed(d) && !d.pressLatch
    ensures r.1 == d.(pressLatch := IsPressed(d))
  {
    var pressed := IsPressed(d);
    if pressed && !d.pressLatch then (true, d.(pressLatch := true))
    else if !pressed then (false, d.(pressLatch := false))
    else (false, d)
  }

  /** The loop the firmware runs: `update`, then `wasPressed`, once per sample. */
  function Poll(d: Debouncer, reading: int, now: Millis): (r: (bool, Debouncer))
  {
    WasPressed(Update(d, reading, now))
  }

  /** The debouncer after polling the first `n` samples. */
  function StateAfter(d: Debouncer, samples: seq<(int, Millis)>, n: nat): Debouncer
    requires n <= |samples|
    decreases n
  {
    if n == 0 then d else StateAfter(Poll(d, samples[0].0, samples[0].1).1, samples[1..], n - 1)
  }

  /** Whether the stable state is pressed after each of the samples: entry `i` is
      `isPressed` once the first `i + 1` samples have been polled. */
  function PressedTrace(d: Debouncer, samples: seq<(int, Millis)>): (trace: seq<bool>)
    ensures |trace| == |samples|
    ensures forall i :: 0 <= i < |samples| ==> trace[i] == IsPressed(StateAfter(d, samples, i + 1))
    decreases |samples|
  {
    if |samples| == 0 then []
    else
      var r := Poll(d, samples[0].0, samples[0].1);
      [IsPressed(r.1)] + PressedTrace(r.1, samples[1..])
  }

  /** How many times `wasPressed` answered true over the samples. */
  function ReportCount(d: Debouncer, samples: seq<(int, Millis)>): nat
    decreases |samples|
  {
    if |samples| == 0 then 0
    else
      var r := Poll(d, samples[0].0, samples[0].1);
      (if r.0 then 1 else 0) + ReportCount(r.1, samples[1..])
  }

  /** How many times the pressed state starts in a trace: a pressed entry that
      follows a released one, or opens the trace when `before` is false. */
  function Rises(before: bool, trace: seq<bool>): nat
    decreases |trace|
  {
    if |trace| == 0 then 0
    else (if trace[0] && !before then 1 else 0) + Rises(trace[0], trace[1..])
  }

  /** `wasPressed` answers true exactly once per press: the number of true answers
      equals the number of times the debounced state went from released to pressed. */
  lemma {:induction false} OneReportPerPress(d: Debouncer, samples: seq<(int, Millis)>)
    ensures ReportCount(d, samples) == Rises(d.pressLatch, PressedTrace(d, samples))
    decreases |samples|
  {
    if |samples| > 0 {
      var r := Poll(d, samples[0].0, samples[0].1);
      OneReportPerPress(r.1, samples[1..]);
      assert r.1.pressLatch == IsPressed(r.1);
    }
  }

  /** A press that holds is reported on its first poll and never again. */
  lemma HeldPressReportedOnce(d: Debouncer)
    requires IsPressed(d)
    ensures WasPressed(d).0 <==> !d.pressLatch
    ensures !WasPressed(WasPressed(d).1).0
  {
  }
}

=== FILE: decimal.dfy ===
/** Decimal rendering of non-negative integers, as done by Arduino's
    `String(size_t)` and Python's f-string `{n}`, together with its inverse
    (Python's `int()` on a digit string). */
module Decimal {

  predicate IsDigit(c: char) { '0' <= c <= '9' }

  /** A non-empty run of ASCII digits: one `\d+` group of a regular expression. */
  predicate IsDigits(s: string) {
    |s| > 0 && forall k :: 0 <= k < |s| ==> IsDigit(s[k])
  }

  predicate AllDigits(s: string) {
    forall k :: 0 <= k < |s| ==> IsDigit(s[k])
  }

  function DigitChar(d: nat): (c: char)
    requires d < 10
    ensures IsDigit(c)
  {
    ('0' as int + d) as char
  }

  function DigitValue(c: char): (d: nat)
    requires IsDigit(c)
    ensures d < 10
  {
    c as int - '0' as int
  }

  /** The shortest decimal numeral of `n` (no leading zeros). */
  function NatToString(n: nat): (s: string)
    ensures IsDigits(s)
    ensures |s| > 1 ==> s[0] != '0'
    decreases n
  {
    if n < 10 then [DigitChar(n)] else NatToString(n / 10) + [DigitChar(n % 10)]
  }

  /** The numeral of a one-digit number is that digit. */
  lemma OneDigit(n: nat)
    requires n < 10
    ensures NatToString(n) == [DigitChar(n)]
  {
  }

  /** The numeral of a two-digit number is its tens digit, then its units digit. */
  lemma TwoDigits(n: nat)
    requires 10 <= n < 100
    ensures NatToString(n) == [DigitChar(n / 10), DigitChar(n % 10)]
  {
    OneDigit(n / 10);
  }

  /** The value of a digit string read most significant digit first. */
  function DigitsValue(s: string): nat
    requires AllDigits(s)
  {
    if |s| == 0 then 0 else DigitsValue(s[..|s| - 1]) * 10 + DigitValue(s[|s| - 1])
  }

  /** Reading back a rendered number gives the number. */
  lemma {:induction false} DigitsValueOfNatToString(n: nat)
    ensures DigitsValue(NatToString(n)) == n
    decreases n
  {
    var s := NatToString(n);
    if n >= 10 {
      DigitsValueOfNatToString(n / 10);
      assert s[..|s| - 1] == NatToString(n / 10);
    }
  }

  /** Distinct numbers have distinct renderings. */
  lemma NatToStringInjective(a: nat, b: nat)
    requires NatToString(a) == NatToString(b)
    ensures a == b
  {
    DigitsValueOfNatToString(a);
    DigitsValueOfNatToString(b);
  }
}

=== FILE: morse_code.dfy ===
/** The `MorseCode` player: after a tune-in delay it keys a message element by
    element, holding each dot or dash for its duration and separating elements,
    letters and words by the gaps of the current timing table. The firmware keeps
    the `playing` and `toneOn` flags in the configuration singleton; here they are
    part of the player state, and the tone output and the Morse LEDs follow
    `toneOn`. */
module MorseCode {
  import opened Arduino
  import opened Config
  import opened MorseTable

  datatype MorseState = MorseState(
    message: string,
    messageIndex: nat,
    symbolIndex: nat,
    currentMorseChar: string,
    inTuneInDelay: bool,
    tuneInStartTime: Millis,
    lastStateChange: Millis,
    playing: bool,
    toneOn: bool)

  /** The bookkeeping `update` relies on: the message position is within the
      message, the tune-in delay starts at the first element of a character, and in
      the middle of a character the cached pattern is that character's pattern and
      the element position lies inside it. */
  ghost predicate Valid(s: MorseState) {
    && s.messageIndex <= |s.message|
    && (s.inTuneInDelay ==> s.symbolIndex == 0)
    && (s.symbolIndex > 0 ==>
          && s.messageIndex < |s.message|
          && s.currentMorseChar == Symbol(s.message[s.messageIndex])
          && s.symbolIndex < |s.currentMorseChar|)
  }

  /** The tone sounds only while playing past the tune-in delay, on a letter or
      figure, at one of its elements. */
  ghost predicate ToneOk(s: MorseState) {
    s.toneOn ==>
      && s.playing
      && !s.inTuneInDelay
      && s.messageIndex < |s.message|
      && IsAlnum(s.message[s.messageIndex])
      && s.symbolIndex < |Symbol(s.message[s.messageIndex])|
  }

  ghost predicate Inv(s: MorseState) {
    Valid(s) && ToneOk(s)
  }

  /** `stop`: playback and tone off, back at the start of the message. */
  function Stop(s: MorseState): (r: MorseState)
    ensures !r.playing && !r.toneOn && !r.inTuneInDelay
    ensures r.messageIndex == 0 && r.symbolIndex == 0 && r.currentMorseChar == ""
    ensures r.message == s.message
    ensures Inv(r)
  {
    s.(playing := false, toneOn := false, messageIndex := 0, symbolIndex := 0,
       currentMorseChar := "", inTuneInDelay := false)
  }

  /** `startMessage`: stop whatever plays, then wait out the tune-in delay from `now`
      before the first element of `message`. */
  function StartMessage(s: MorseState, message: string, now: Millis): (r: MorseState)
    ensures r.playing && !r.toneOn && r.inTuneInDelay
    ensures r.message == message && r.messageIndex == 0 && r.symbolIndex == 0
    ensures r.tuneInStartTime == now
    ensures Inv(r)
  {
    Stop(s).(message := message, inTuneInDelay := true, tuneInStartTime := now, playing := true)
  }

  /** How long the tone is held for element `e`. */
  function ElementDuration(t: MorseTimings, e: char): nat {
    if e == DASH then t.dashDuration else t.dotDuration
  }

  /** Begin the character at `messageIndex`: key its first element at once unless it
      is past the end, a space, or a character without a pattern. */
  function KeyCharacter(s: MorseState): (r: MorseState)
    requires s.messageIndex <= |s.message| && !s.toneOn && !s.inTuneInDelay && s.playing
    requires s.symbolIndex == 0
    ensures r.messageIndex == s.messageIndex && r.symbolIndex == 0 && r.message == s.message
    ensures r.lastStateChange == s.lastStateChange && r.playing && !r.inTuneInDelay
    ensures r.toneOn <==> s.messageIndex < |s.message| && IsAlnum(s.message[s.messageIndex])
    ensures Inv(r)
  {
    if s.messageIndex < |s.message| && s.message[s.messageIndex] != SPACE then
      var cur := Symbol(s.message[s.messageIndex]);
      s.(currentMorseChar := cur, toneOn := cur != "")
    else s
  }

  /** `handleTuneInDelay`: silence until `tuneInDelay` ms have passed since the
      start, then key the first character. */
  function HandleTuneInDelay(s: MorseState, tuneInDelay: nat, now: Millis): (r: MorseState)
    requires Valid(s) && s.inTuneInDelay && s.playing
    ensures Inv(r) && r.playing && r.message == s.message && r.messageIndex == s.messageIndex
    ensures r.inTuneInDelay <==> Elapsed(now, s.tuneInStartTime) < tuneInDelay
    ensures r.inTuneInDelay ==> !r.toneOn && r == s.(toneOn := false)
    ensures !r.inTuneInDelay ==>
      (r.toneOn <==> s.messageIndex < |s.message| && IsAlnum(s.message[s.messageIndex]))
  {
    var quiet := s.(toneOn := false);
    if Elapsed(now, s.tuneInStartTime) >= tuneInDelay then
      KeyCharacter(quiet.(inTuneInDelay := false, lastStateChange := now))
    else quiet
  }

  /** `handleWordSpace` with the space check the other transitions make: after the
      word gap, move on and key the next character unless it is itself a space. */
  function HandleWordSpace(s: MorseState, t: MorseTimings, now: Millis): (r: MorseState)
    requires Valid(s) && s.playing && !s.inTuneInDelay
    requires s.messageIndex < |s.message| && s.message[s.messageIndex] == SPACE
    ensures Inv(r) && r.playing && r.message == s.message
    ensures r.messageIndex == s.messageIndex + 1 <==> Elapsed(now, s.lastStateChange) >= t.wordGap
    ensures r.messageIndex == s.messageIndex ==> !r.toneOn
    ensures r.messageIndex != s.messageIndex ==>
      (r.toneOn <==> r.messageIndex < |r.message| && IsAlnum(r.message[r.messageIndex]))
  {
    var quiet := s.(toneOn := false);
    if Elapsed(now, s.lastStateChange) >= t.wordGap then
      KeyCharacter(quiet.(messageIndex := s.messageIndex + 1, symbolIndex := 0, lastStateChange := now))
    else quiet
  }

  /** `processSymbol`: hold a sounding element for its duration; after the gap that
      follows it (the letter gap after the last element, the element gap otherwise)
      key the next element or begin the next character. */
  function ProcessSymbol(s: MorseState, t: MorseTimings, now: Millis): (r: MorseState)
    requires Valid(s) && s.playing && !s.inTuneInDelay
    requires s.messageIndex < |s.message| && s.message[s.messageIndex] != SPACE
    requires s.currentMorseChar == Symbol(s.message[s.messageIndex])
    requires s.symbolIndex < |s.currentMorseChar|
    ensures Inv(r) && r.playing && r.message == s.message
    ensures s.messageIndex <= r.messageIndex <= s.messageIndex + 1
    ensures s.toneOn && !r.toneOn ==>
      Elapsed(now, s.lastStateChange) >= ElementDuration(t, s.currentMorseChar[s.symbolIndex])
    ensures s.toneOn ==> r.messageIndex == s.messageIndex && r.symbolIndex == s.symbolIndex
    ensures !s.toneOn && r.messageIndex == s.messageIndex && r.symbolIndex != s.symbolIndex ==>
      r.toneOn && r.symbolIndex == s.symbolIndex + 1 && Elapsed(now, s.lastStateChange) >= t.symbolGap
    ensures r.messageIndex != s.messageIndex ==>
      && Elapsed(now, s.lastStateChange) >= t.letterGap
      && (r.toneOn <==> r.messageIndex < |r.message| && IsAlnum(r.message[r.messageIndex]))
    ensures s.toneOn && Elapsed(now, s.lastStateChange) >= ElementDuration(t, s.currentMorseChar[s.symbolIndex]) ==>
      !r.toneOn && r.lastStateChange == now
    ensures !s.toneOn && s.symbolIndex + 1 < |s.currentMorseChar| && Elapsed(now, s.lastStateChange) >= t.symbolGap ==>
      r.toneOn && r.messageIndex == s.messageIndex && r.symbolIndex == s.symbolIndex + 1 && r.lastStateChange == now
    ensures !s.toneOn && s.symbolIndex + 1 == |s.currentMorseChar| && Elapsed(now, s.lastStateChange) >= t.letterGap ==>
      r.messageIndex == s.messageIndex + 1 && r.symbolIndex == 0 && r.lastStateChange == now
  {
    var cur := s.currentMorseChar;
    var duration := ElementDuration(t, cur[s.symbolIndex]);
    var gap := if s.symbolIndex == |cur| - 1 then t.letterGap else t.symbolGap;
    if s.toneOn then
      if Elapsed(now, s.lastStateChange) >= duration then s.(toneOn := false, lastStateChange := now)
      else s
    else if Elapsed(now, s.lastStateChange) >= gap then
      var next := s.symbolIndex + 1;
      if next >= |cur| then
        KeyCharacter(s.(messageIndex := s.messageIndex + 1, symbolIndex := 0, lastStateChange := now))
      else
        s.(symbolIndex := next, toneOn := true, lastStateChange := now)
    else s
  }

  /** Leave a character that has no pattern and, like every other move to a new
      character, key the next one at once. */
  function SkipUnsupported(s: MorseState, now: Millis): (r: MorseState)
    requires Inv(s) && s.playing && !s.inTuneInDelay && !s.toneOn
    requires s.messageIndex < |s.message| && Symbol(s.message[s.messageIndex]) == ""
    ensures Inv(r) && r.playing && r.message == s.message
    ensures r.messageIndex == s.messageIndex + 1
    ensures r.toneOn <==> r.messageIndex < |r.message| && IsAlnum(r.message[r.messageIndex])
  {
    KeyCharacter(s.(currentMorseChar := "", messageIndex := s.messageIndex + 1, symbolIndex := 0,
                    lastStateChange := now))
  }

  /** A step that moves to a new letter or figure keys it in the same step. */
  ghost predicate KeysNewCharacter(s: MorseState, r: MorseState) {
    (r.playing && r.messageIndex != s.messageIndex && r.messageIndex < |r.message|
     && IsAlnum(r.message[r.messageIndex]))
    ==> r.toneOn
  }

  /** One `update` at time `now` with the current timing table and tune-in delay. */
  function Update(s: MorseState, t: MorseTimings, tuneInDelay: nat, now: Millis): (r: MorseState)
    requires Inv(s)
    ensures Inv(r) && r.message == s.message
    ensures !s.playing ==> r == s
    ensures r.playing ==> s.playing && s.messageIndex <= r.messageIndex
    ensures s.playing && !s.inTuneInDelay && s.messageIndex == |s.message| ==> !r.playing
    ensures s.playing && s.inTuneInDelay ==>
      && (r.inTuneInDelay <==> Elapsed(now, s.tuneInStartTime) < tuneInDelay)
      && (r.inTuneInDelay ==> !r.toneOn)
    ensures KeysNewCharacter(s, r)
    ensures s.toneOn && !r.toneOn ==>
      Elapsed(now, s.lastStateChange)
        >= ElementDuration(t, Symbol(s.message[s.messageIndex])[s.symbolIndex])
    ensures s.playing && !s.inTuneInDelay && !s.toneOn && r.toneOn && r.messageIndex == s.messageIndex ==>
      Elapsed(now, s.lastStateChange) >= t.symbolGap
  {
    if !s.playing then s
    else if s.inTuneInDelay then HandleTuneInDelay(s, tuneInDelay, now)
    else if s.symbolIndex == 0 || s.currentMorseChar == "" then
      if s.messageIndex >= |s.message| then Stop(s)
      else
        var cur := Symbol(s.message[s.messageIndex]);
        if cur == "" then SkipUnsupported(s, now)
        else Play(s.(currentMorseChar := cur), t, now)
    else Play(s, t, now)
  }

  /** The part of `update` after the current pattern is known: a space waits out the
      word gap, anything else plays its elements. */
  function Play(s: MorseState, t: MorseTimings, now: Millis): (r: MorseState)
    requires Inv(s) && s.playing && !s.inTuneInDelay
    requires s.messageIndex < |s.message|
    requires s.currentMorseChar == Symbol(s.message[s.messageIndex]) && s.symbolIndex < |s.currentMorseChar|
    ensures Inv(r) && r.playing && r.message == s.message
    ensures s.messageIndex <= r.messageIndex
    ensures KeysNewCharacter(s, r)
    ensures s.toneOn && !r.toneOn ==>
      Elapsed(now, s.lastStateChange) >= ElementDuration(t, s.currentMorseChar[s.symbolIndex])
    ensures !s.toneOn && r.toneOn && r.messageIndex == s.messageIndex ==>
      Elapsed(now, s.lastStateChange) >= t.symbolGap
  {
    if s.message[s.messageIndex] == SPACE then HandleWordSpace(s, t, now)
    else ProcessSymbol(s, t, now)
  }

  /** `handleWordSpace` as the firmware has it: after the word gap it keys whatever
      character comes next, a second space included. */
  function HandleWordSpaceAsWritten(s: MorseState, t: MorseTimings, now: Millis): (r: MorseState)
    requires Valid(s) && s.playing && !s.inTuneInDelay
    requires s.messageIndex < |s.message| && s.message[s.messageIndex] == SPACE
    ensures Valid(r) && r.playing && r.message == s.message
    ensures r.messageIndex == s.messageIndex + 1 <==> Elapsed(now, s.lastStateChange) >= t.wordGap
    ensures r.messageIndex == s.messageIndex ==> !r.toneOn
    ensures r.messageIndex != s.messageIndex ==>
      (r.toneOn <==> r.messageIndex < |r.message| && Symbol(r.message[r.messageIndex]) != "")
  {
    var quiet := s.(toneOn := false);
    if Elapsed(now, s.lastStateChange) >= t.wordGap then
      var next := quiet.(messageIndex := s.messageIndex + 1, symbolIndex := 0, lastStateChange := now);
      if next.messageIndex < |next.message| then
        var cur := Symbol(next.message[next.messageIndex]);
        next.(currentMorseChar := cur, toneOn := cur != "")
      else next
    else quiet
  }

  /** `update` as the firmware has it: a character without a pattern is passed over
      without keying the character after it, and the word space is the one above. */
  function UpdateAsWritten(s: MorseState, t: MorseTimings, tuneInDelay: nat, now: Millis): (r: MorseState)
    requires Valid(s)
    ensures Valid(r) && r.message == s.message
    ensures !s.playing ==> r == s
    ensures r.playing ==> s.playing && s.messageIndex <= r.messageIndex
    ensures s.playing && !s.inTuneInDelay && s.messageIndex == |s.message| ==> !r.playing
  {
    if !s.playing then s
    else if s.inTuneInDelay then HandleTuneInDelay(s, tuneInDelay, now)
    else if s.symbolIndex == 0 || s.currentMorseChar == "" then
      if s.messageIndex >= |s.message| then Stop(s)
      else
        var cur := Symbol(s.message[s.messageIndex]);
        if cur == "" then s.(currentMorseChar := cur, messageIndex := s.messageIndex + 1)
        else PlayAsWritten(s.(currentMorseChar := cur), t, now)
    else PlayAsWritten(s, t, now)
  }

  function PlayAsWritten(s: MorseState, t: MorseTimings, now: Millis): (r: MorseState)
    requires Valid(s) && s.playing && !s.inTuneInDelay
    requires s.messageIndex < |s.message|
    requires s.currentMorseChar == Symbol(s.message[s.messageIndex]) && s.symbolIndex < |s.currentMorseChar|
    ensures Valid(r) && r.playing && r.message == s.message
    ensures s.messageIndex <= r.messageIndex
  {
    if s.message[s.messageIndex] == SPACE then HandleWordSpaceAsWritten(s, t, now)
    else ProcessSymbol(s, t, now)
  }

  /** With two spaces in a row the firmware switches the tone on for the second
      space at the end of the first word gap; the corrected step keeps it off. */
  lemma WordSpaceToneBlip()
    ensures var s := MorseState("E  E", 1, 0, " ", false, 0, 0, true, false);
      && Inv(s)
      && UpdateAsWritten(s, MORSE_MEDIUM, 0, 700).toneOn
      && !ToneOk(UpdateAsWritten(s, MORSE_MEDIUM, 0, 700))
      && !Update(s, MORSE_MEDIUM, 0, 700).toneOn
  {
    var s := MorseState("E  E", 1, 0, " ", false, 0, 0, true, false);
    assert Symbol(s.message[1]) == " ";
    var r := UpdateAsWritten(s, MORSE_MEDIUM, 0, 700);
    assert r.messageIndex == 2 && r.message[2] == SPACE;
  }

  /** After a character without a pattern the firmware never keys the next letter:
      in "!E" the E is passed over in silence whatever the time of the next step,
      and playback ends without a tone. The corrected step keys the E at once. */
  lemma UnsupportedSilencesNext()
    ensures var s0 := MorseState("!E", 0, 0, "", false, 0, 0, true, false);
      var s1 := UpdateAsWritten(s0, MORSE_MEDIUM, 0, 0);
      && Inv(s0)
      && s1.messageIndex == 1 && !s1.toneOn && !KeysNewCharacter(s0, s1)
      && (forall now: Millis :: !UpdateAsWritten(s1, MORSE_MEDIUM, 0, now).toneOn)
      && UpdateAsWritten(s1, MORSE_MEDIUM, 0, 300).messageIndex == 2
      && !UpdateAsWritten(UpdateAsWritten(s1, MORSE_MEDIUM, 0, 300), MORSE_MEDIUM, 0, 300).playing
      && Update(s0, MORSE_MEDIUM, 0, 0).toneOn
  {
    var s0 := MorseState("!E", 0, 0, "", false, 0, 0, true, false);
    assert Symbol(s0.message[0]) == "";
    var s1 := UpdateAsWritten(s0, MORSE_MEDIUM, 0, 0);
    assert Symbol(s1.message[1]) == ".";
    forall now: Millis
      ensures !UpdateAsWritten(s1, MORSE_MEDIUM, 0, now).toneOn
    {
    }
  }

  /** A character of several elements after one without a pattern loses only its
      first element: in "!A" the step after the skip never sounds A's dot, and
      once the element gap has passed it keys A's dash. The corrected step keys
      the dot at once. */
  lemma UnsupportedClipsFirstElement()
    ensures var s0 := MorseState("!A", 0, 0, "", false, 0, 0, true, false);
      var s1 := UpdateAsWritten(s0, MORSE_MEDIUM, 0, 0);
      var s2 := UpdateAsWritten(s1, MORSE_MEDIUM, 0, 100);
      && Inv(s0) && Symbol('A') == ".-"
      && s1.messageIndex == 1 && s1.symbolIndex == 0 && !s1.toneOn
      && (forall now: Millis :: var r := UpdateAsWritten(s1, MORSE_MEDIUM, 0, now);
            r.toneOn ==> r.messageIndex == 1 && r.symbolIndex == 1)
      && s2.messageIndex == 1 && s2.symbolIndex == 1 && s2.toneOn
      && var c := Update(s0, MORSE_MEDIUM, 0, 0); c.toneOn && c.messageIndex == 1 && c.symbolIndex == 0
  {
    var s0 := MorseState("!A", 0, 0, "", false, 0, 0, true, false);
    assert Symbol(s0.message[0]) == "";
    var s1 := UpdateAsWritten(s0, MORSE_MEDIUM, 0, 0);
    assert Symbol(s1.message[1]) == ".-";
    forall now: Millis
      ensures var r := UpdateAsWritten(s1, MORSE_MEDIUM, 0, now);
        r.toneOn ==> r.messageIndex == 1 && r.symbolIndex == 1
    {
    }
  }
}

=== FILE: morse_player.dfy ===
/** `MorseCodePlayer`: the simpler Morse keyer. It keys each character of a message
    from the `getMorseCode` table, waiting a part gap before every element and a
    character gap after every character; all durations derive from one dot length. */
module MorseCodePlayer {
  import opened Arduino
  import opened MorseTable

  /** `unsigned int` on the ESP32 is 32 bits wide, like `unsigned long`. */
  type U32 = Millis

  datatype Player = Player(
    message: string,
    messageIndex: nat,
    currentMorseCode: string,
    morseCodeIndex: nat,
    timer: Millis,
    toneOn: bool,
    dotDuration: U32,
    dashDuration: U32,
    partGap: U32,
    characterGap: U32,
    playing: bool,
    frequency: U32,
    volume: U32)

  /** The bookkeeping `update` relies on: the element position never passes the end
      of the current pattern, a sounding tone is at one of its elements, and while
      playing the current pattern is that of the current character. */
  ghost predicate Valid(p: Player) {
    && p.morseCodeIndex <= |p.currentMorseCode|
    && (p.toneOn ==> p.playing && p.morseCodeIndex < |p.currentMorseCode|)
    && (p.playing ==>
          p.messageIndex < |p.message| && p.currentMorseCode == PlayerCode(p.message[p.messageIndex]))
  }

  /** `setSpeed`: every duration follows from the dot; the products wrap at 2^32. */
  function SetSpeed(p: Player, dot: U32): (r: Player)
    ensures r.dotDuration == dot && r.partGap == dot
    ensures dot < U32_MODULUS / 3 ==> r.dashDuration == 3 * dot && r.characterGap == 3 * dot
    ensures r.dashDuration == r.characterGap && r.dashDuration == (3 * dot) % U32_MODULUS
    ensures Valid(p) ==> Valid(r)
    ensures r.(dotDuration := p.dotDuration, dashDuration := p.dashDuration, partGap := p.partGap,
               characterGap := p.characterGap) == p
  {
    var triple := (dot * 3) % U32_MODULUS;
    p.(dotDuration := dot, dashDuration := triple, partGap := dot, characterGap := triple)
  }

  /** The constructor: a 100 ms dot, 800 Hz, volume 64, not playing. */
  function New(): (r: Player)
    ensures r.dotDuration == 100 && r.dashDuration == 300 && r.partGap == 100 && r.characterGap == 300
    ensures !r.playing && !r.toneOn && r.frequency == 800 && r.volume == 64
    ensures Valid(r)
  {
    SetSpeed(Player("", 0, "", 0, 0, false, 0, 0, 0, 0, false, 0, 0), 100)
      .(playing := false, frequency := 800, volume := 64)
  }

  /** `stop`: playback and tone off; nothing else changes. */
  function Stop(p: Player): (r: Player)
    ensures !r.playing && !r.toneOn
    ensures r.(playing := p.playing, toneOn := p.toneOn) == p
    ensures Valid(p) ==> Valid(r)
  {
    p.(playing := false, toneOn := false)
  }

  /** `setMessage`: an empty message only stops playback and keeps the old message;
      any other message is started from its first character, silent, timed from `now`. */
  function SetMessage(p: Player, message: string, now: Millis): (r: Player)
    requires Valid(p)
    ensures Valid(r)
    ensures |message| == 0 ==> r == Stop(p) && r.message == p.message
    ensures |message| > 0 ==>
      && r.playing && !r.toneOn && r.message == message
      && r.messageIndex == 0 && r.morseCodeIndex == 0 && r.timer == now
      && r.currentMorseCode == PlayerCode(message[0])
    ensures r.dotDuration == p.dotDuration && r.frequency == p.frequency && r.volume == p.volume
  {
    if |message| == 0 then Stop(p)
    else
      p.(message := message, messageIndex := 0, currentMorseCode := PlayerCode(message[0]),
         morseCodeIndex := 0, playing := true, timer := now, toneOn := false)
  }

  /** How long the tone is held for the element at `morseCodeIndex`: a dot or,
      for anything else, a dash. */
  function ToneDuration(p: Player): U32
    requires p.morseCodeIndex < |p.currentMorseCode|
  {
    if p.currentMorseCode[p.morseCodeIndex] == DOT then p.dotDuration else p.dashDuration
  }

  /** One `update` at time `now`. */
  function Update(p: Player, now: Millis): (r: Player)
    requires Valid(p)
    ensures Valid(r) && r.message == p.message
    ensures !p.playing ==> r == p
    ensures r.playing ==> p.playing && p.messageIndex <= r.messageIndex
    ensures p.toneOn && !r.toneOn ==>
      r.morseCodeIndex == p.morseCodeIndex + 1 && Elapsed(now, p.timer) >= ToneDuration(p)
    ensures !p.toneOn && r.toneOn ==>
      r.morseCodeIndex == p.morseCodeIndex && Elapsed(now, p.timer) >= p.partGap
    ensures r.messageIndex == p.messageIndex && r.morseCodeIndex != p.morseCodeIndex ==>
      p.toneOn && !r.toneOn
    ensures r.messageIndex != p.messageIndex ==>
      r.messageIndex == p.messageIndex + 1 && !p.toneOn
      && p.morseCodeIndex == |p.currentMorseCode| && Elapsed(now, p.timer) >= p.characterGap
    ensures p.playing && !r.playing ==>
      && p.messageIndex == |p.message| - 1 && !p.toneOn
      && p.morseCodeIndex == |p.currentMorseCode| && Elapsed(now, p.timer) >= p.characterGap
    ensures p.playing && p.toneOn && Elapsed(now, p.timer) >= ToneDuration(p) ==>
      !r.toneOn && r.morseCodeIndex == p.morseCodeIndex + 1 && r.timer == now
    ensures p.playing && !p.toneOn && p.morseCodeIndex < |p.currentMorseCode|
            && Elapsed(now, p.timer) >= p.partGap ==>
      r.toneOn && r.morseCodeIndex == p.morseCodeIndex && r.timer == now
    ensures p.playing && !p.toneOn && p.morseCodeIndex == |p.currentMorseCode|
            && Elapsed(now, p.timer) >= p.characterGap ==>
      && r.messageIndex == p.messageIndex + 1 && r.timer == now
      && (r.playing <==> r.messageIndex < |p.message|)
      && (r.playing ==> r.morseCodeIndex == 0 && !r.toneOn)
  {
    if !p.playing then p
    else if p.toneOn then
      if Elapsed(now, p.timer) >= ToneDuration(p) then
        p.(toneOn := false, morseCodeIndex := p.morseCodeIndex + 1, timer := now)
      else p
    else if p.morseCodeIndex < |p.currentMorseCode| then
      if Elapsed(now, p.timer) >= p.partGap then p.(toneOn := true, timer := now) else p
    else if Elapsed(now, p.timer) >= p.characterGap then
      var next := p.messageIndex + 1;
      if next < |p.message| then
        p.(messageIndex := next, currentMorseCode := PlayerCode(p.message[next]), morseCodeIndex := 0,
           timer := now)
      else
        p.(messageIndex := next, playing := false, timer := now)
    else p
  }
}

=== FILE: morse_table.dfy ===
/** The two Morse lookup tables of the firmware: the indexed pattern array of
    `MorseCode::getSymbol` and the character/code association list of
    `MorseCodePlayer::getMorseCode`. Both hold the letters and figures of
    section 1.1 of Part I of Recommendation ITU-R M.1677-1. */
module MorseTable {
  import opened Arduino

  const DOT: char := '.'
  const DASH: char := '-'
  const SPACE: char := ' '

  /** `MORSE_PATTERNS`: A to Z, then 0 to 9. */
  const PATTERNS: seq<string> := [
    ".-", "-...", "-.-.", "-..", ".", "..-.", "--.", "....", "..",
    ".---", "-.-", ".-..", "--", "-.", "---", ".--.", "--.-", ".-.",
    "...", "-", "..-", "...-", ".--", "-..-", "-.--", "--..",
    "-----", ".----", "..---", "...--", "....-", ".....", "-....", "--...", "---..", "----."
  ]

  /** `MORSE_CODE_MAP`: A to Z, then 1 to 9, then 0. */
  const CODE_MAP: seq<(char, string)> := [
    ('A', ".-"), ('B', "-..."), ('C', "-.-."), ('D', "-.."), ('E', "."), ('F', "..-."),
    ('G', "--."), ('H', "...."), ('I', ".."), ('J', ".---"), ('K', "-.-"), ('L', ".-.."),
    ('M', "--"), ('N', "-."), ('O', "---"), ('P', ".--."), ('Q', "--.-"), ('R', ".-."),
    ('S', "..."), ('T', "-"), ('U', "..-"), ('V', "...-"), ('W', ".--"), ('X', "-..-"),
    ('Y', "-.--"), ('Z', "--.."), ('1', ".----"), ('2', "..---"), ('3', "...--"),
    ('4', "....-"), ('5', "....."), ('6', "-...."), ('7', "--..."), ('8', "---.."),
    ('9', "----."), ('0', "-----")
  ]

  predicate IsUpperAscii(c: char) { 'A' <= c <= 'Z' }
  predicate IsDigitChar(c: char) { '0' <= c <= '9' }

  /** The characters both tables know, in either case. */
  predicate IsAlnum(c: char) { IsUpperAscii(c) || IsLowerAscii(c) || IsDigitChar(c) }

  /** A well-formed ITU letter or figure: one to five dots and dashes. */
  predicate IsPattern(p: string) {
    1 <= |p| <= 5 && forall k :: 0 <= k < |p| ==> p[k] == DOT || p[k] == DASH
  }

  /** `getSymbol`: a space stands for itself (the word gap), letters of either case
      and figures give their pattern, everything else gives the empty string. */
  function Symbol(c: char): (p: string)
    ensures c == SPACE ==> p == " "
    ensures IsAlnum(c) ==> IsPattern(p)
    ensures IsDigitChar(c) ==> |p| == 5
    ensures c != SPACE && !IsAlnum(c) ==> p == ""
  {
    if c == SPACE then [SPACE] else PatternOf(ToUpper(c))
  }

  /** The table entry of an upper-case letter or a figure; the empty string otherwise. */
  function PatternOf(u: char): (p: string)
    ensures IsUpperAscii(u) || IsDigitChar(u) ==> IsPattern(p)
    ensures IsDigitChar(u) ==> |p| == 5
    ensures !IsUpperAscii(u) && !IsDigitChar(u) ==> p == ""
  {
    PatternsWellFormed();
    if IsUpperAscii(u) then PATTERNS[u as int - 'A' as int]
    else if IsDigitChar(u) then PATTERNS[26 + (u as int - '0' as int)]
    else ""
  }

  lemma PatternsWellFormed()
    ensures |PATTERNS| == 36
    ensures forall i :: 0 <= i < 36 ==> IsPattern(PATTERNS[i])
    ensures forall i :: 26 <= i < 36 ==> |PATTERNS[i]| == 5
  {
  }

  /** The first code listed for `u`, or the empty string. */
  function Lookup(table: seq<(char, string)>, u: char): (code: string)
    ensures code != "" ==> exists i :: 0 <= i < |table| && table[i] == (u, code)
  {
    if |table| == 0 then ""
    else if table[0].0 == u then table[0].1
    else Lookup(table[1..], u)
  }

  /** `getMorseCode`: upper-case the character and search the association list. */
  function PlayerCode(c: char): (p: string)
    ensures p != "" ==> exists i :: 0 <= i < |CODE_MAP| && CODE_MAP[i] == (ToUpper(c), p)
  {
    Lookup(CODE_MAP, ToUpper(c))
  }

  /** The association list is the pattern array re-ordered: letters in the same
      places, the figures 1 to 9 next, and 0 last. */
  lemma CodeMapLayout()
    ensures |CODE_MAP| == 36
    ensures forall k :: 0 <= k < 26 ==> CODE_MAP[k] == (('A' as int + k) as char, PATTERNS[k])
    ensures forall j :: 26 <= j < 35 ==> CODE_MAP[j] == (('1' as int + j - 26) as char, PATTERNS[j + 1])
    ensures CODE_MAP[35] == ('0', PATTERNS[26])
  {
  }

  /** A search that passes only other keys returns the code at the first match. */
  lemma {:induction false} LookupFinds(table: seq<(char, string)>, u: char, i: nat)
    requires i < |table| && table[i].0 == u
    requires forall j :: 0 <= j < i ==> table[j].0 != u
    ensures Lookup(table, u) == table[i].1
    decreases i
  {
    if i > 0 {
      LookupFinds(table[1..], u, i - 1);
    }
  }

  /** A search for a key the list does not hold returns the empty string. */
  lemma {:induction false} LookupMisses(table: seq<(char, string)>, u: char)
    requires forall j :: 0 <= j < |table| ==> table[j].0 != u
    ensures Lookup(table, u) == ""
    decreases |table|
  {
    if |table| > 0 {
      LookupMisses(table[1..], u);
    }
  }

  /** The association list gives each upper-case letter and figure its pattern
      and knows no other key. */
  lemma CodeMapLookup(u: char)
    ensures Lookup(CODE_MAP, u) == PatternOf(u)
  {
    CodeMapLayout();
    if IsUpperAscii(u) {
      LetterEntry(u);
    } else if '1' <= u <= '9' {
      FigureEntry(u);
    } else if u == '0' {
      ZeroEntry();
    } else {
      NoOtherEntry(u);
    }
  }

  lemma ZeroEntry()
    ensures Lookup(CODE_MAP, '0') == PATTERNS[26]
  {
    CodeMapLayout();
    LookupFinds(CODE_MAP, '0', 35);
  }

  lemma NoOtherEntry(u: char)
    requires !IsUpperAscii(u) && !IsDigitChar(u)
    ensures Lookup(CODE_MAP, u) == ""
  {
    CodeMapLayout();
    LookupMisses(CODE_MAP, u);
  }

  lemma LetterEntry(u: char)
    requires IsUpperAscii(u)
    ensures Lookup(CODE_MAP, u) == PATTERNS[u as int - 'A' as int]
  {
    CodeMapLayout();
    var k := u as int - 'A' as int;
    assert CODE_MAP[k].0 == u;
    LookupFinds(CODE_MAP, u, k);
  }

  lemma FigureEntry(u: char)
    requires '1' <= u <= '9'
    ensures Lookup(CODE_MAP, u) == PATTERNS[26 + (u as int - '0' as int)]
  {
    CodeMapLayout();
    var k := 26 + (u as int - '1' as int);
    assert CODE_MAP[k].0 == u;
    LookupFinds(CODE_MAP, u, k);
  }

  /** The two players agree on every letter (either case) and figure; they differ
      only on the space, which `getSymbol` keeps as a word gap and `getMorseCode`
      does not know. */
  lemma PlayerCodeMatchesSymbol(c: char)
    ensures c == SPACE ==> PlayerCode(c) == ""
    ensures c != SPACE ==> PlayerCode(c) == Symbol(c)
  {
    if c == SPACE {
      NoOtherEntry(c);
    } else {
      CodeMapLookup(ToUpper(c));
    }
  }

  /** `getSymbol` and `getMorseCode` do not distinguish a letter from its capital. */
  lemma CaseInsensitive(c: char)
    ensures Symbol(c) == Symbol(ToUpper(c))
    ensures PlayerCode(c) == PlayerCode(ToUpper(c))
  {
  }

  /** Entries of the table as printed in section 1.1 of Part I of ITU-R M.1677-1. */
  lemma KnownPatterns()
    ensures Symbol('A') == ".-" && Symbol('a') == ".-" && Symbol('B') == "-..."
    ensures Symbol('E') == "." && Symbol('S') == "..." && Symbol('O') == "---"
    ensures Symbol('0') == "-----" && Symbol('1') == ".----" && Symbol('9') == "----."
    ensures Symbol(' ') == " " && Symbol('!') == "" && Symbol('.') == ""
  {
    assert ToUpper('a') == 'A';
    assert PatternOf('A') == PATTERNS[0] == ".-";
    assert PatternOf('B') == PATTERNS[1];
    assert PatternOf('E') == PATTERNS[4];
    assert PatternOf('S') == PATTERNS[18];
    assert PatternOf('O') == PATTERNS[14];
    assert PatternOf('0') == PATTERNS[26];
    assert PatternOf('1') == PATTERNS[27];
    assert PatternOf('9') == PATTERNS[35];
  }

  /** No two letters or figures share a pattern, so a received pattern names one character. */
  lemma PatternsDistinct()
    ensures forall i, j :: 0 <= i < j < |PATTERNS| ==> PATTERNS[i] != PATTERNS[j]
  {
  }
}

=== FILE: ota.dfy ===
/** The decision logic of `OTAManager`: the bounded WiFi credential list, the
    version comparison, the release tag and download URL handling, and the result
    ladder of an update check. Network, HTTP, JSON and flash writes are not
    modelled; their outcomes are parameters. */
module OtaManager {
  import opened Wrappers
  import opened Decimal
  import opened SemVer
  import Text

  const MAX_WIFI_CREDENTIALS: nat := 3
  const GITHUB_DOWNLOAD_BASE: string := "https://github.com/olipayne/Arduino-Morse-Radio/releases/download/"

  datatype Credential = Credential(ssid: string, password: string)

  /** `addWiFiCredentials`: append while fewer than three are stored, else ignore. */
  function AddWiFiCredentials(creds: seq<Credential>, ssid: string, password: string): (r: seq<Credential>)
    ensures |creds| < MAX_WIFI_CREDENTIALS ==> r == creds + [Credential(ssid, password)]
    ensures |creds| >= MAX_WIFI_CREDENTIALS ==> r == creds
    ensures |creds| <= MAX_WIFI_CREDENTIALS ==> |r| <= MAX_WIFI_CREDENTIALS
  {
    if |creds| < MAX_WIFI_CREDENTIALS then creds + [Credential(ssid, password)] else creds
  }

  /** `clearWiFiCredentials`. */
  function ClearWiFiCredentials(creds: seq<Credential>): (r: seq<Credential>)
    ensures |r| == 0
  {
    []
  }

  /** However many credentials are added, at most three are kept, and they are the
      first three added. */
  lemma {:induction false} CredentialsBounded(creds: seq<Credential>, added: seq<Credential>)
    requires |creds| <= MAX_WIFI_CREDENTIALS
    ensures var r := AddAll(creds, added);
      |r| <= MAX_WIFI_CREDENTIALS && r == (creds + added)[..Min(|creds| + |added|, MAX_WIFI_CREDENTIALS)]
    decreases |added|
  {
    if |added| > 0 {
      var next := AddWiFiCredentials(creds, added[0].ssid, added[0].password);
      CredentialsBounded(next, added[1..]);
      if |creds| < MAX_WIFI_CREDENTIALS {
        assert next + added[1..] == creds + added;
      } else {
        assert (creds + added)[..MAX_WIFI_CREDENTIALS] == creds;
        assert (creds + added[1..])[..MAX_WIFI_CREDENTIALS] == creds;
      }
    }
  }

  function Min(a: nat, b: nat): nat { if a < b then a else b }

  function AddAll(creds: seq<Credential>, added: seq<Credential>): seq<Credential>
    decreases |added|
  {
    if |added| == 0 then creds
    else AddAll(AddWiFiCredentials(creds, added[0].ssid, added[0].password), added[1..])
  }

  /** The networks `connectToWiFi` tries, in order: the stored ones, or the three
      placeholder networks when none are stored. */
  function NetworksToTry(creds: seq<Credential>): (r: seq<Credential>)
    requires |creds| <= MAX_WIFI_CREDENTIALS
    ensures 1 <= |r| <= MAX_WIFI_CREDENTIALS
    ensures |creds| > 0 ==> r == creds
  {
    if |creds| == 0 then
      AddWiFiCredentials(AddWiFiCredentials(AddWiFiCredentials(creds, "YourWiFi1", "password1"),
        "YourWiFi2", "password2"), "YourWiFi3", "password3")
    else creds
  }

  /** Whether a connection is made: some tried network comes up, as reported by
      the WiFi stack. */
  function ConnectToWiFi(creds: seq<Credential>, connects: Credential -> bool): (ok: bool)
    requires |creds| <= MAX_WIFI_CREDENTIALS
    ensures ok <==> exists i :: 0 <= i < |NetworksToTry(creds)| && connects(NetworksToTry(creds)[i])
  {
    AnyConnects(NetworksToTry(creds), connects)
  }

  function AnyConnects(nets: seq<Credential>, connects: Credential -> bool): (ok: bool)
    ensures ok <==> exists i :: 0 <= i < |nets| && connects(nets[i])
  {
    if |nets| == 0 then false
    else if connects(nets[0]) then true
    else
      var r := AnyConnects(nets[1..], connects);
      assert forall i :: 1 <= i < |nets| ==> nets[i] == nets[1..][i - 1];
      r
  }

  /** The `tag_name` of the latest release with one leading 'v' removed. */
  function StripTagPrefix(tag: string): (r: string)
    ensures |tag| > 0 && tag[0] == 'v' ==> r == tag[1..]
    ensures !(|tag| > 0 && tag[0] == 'v') ==> r == tag
  {
    if |tag| > 0 && tag[0] == 'v' then tag[1..] else tag
  }

  /** `buildDownloadURL`. */
  function BuildDownloadUrl(version: string): (url: string)
    ensures |url| == |GITHUB_DOWNLOAD_BASE| + 1 + |version| + 13
    ensures url[..|GITHUB_DOWNLOAD_BASE|] == GITHUB_DOWNLOAD_BASE
    ensures url[|GITHUB_DOWNLOAD_BASE|] == 'v'
    ensures url[|GITHUB_DOWNLOAD_BASE| + 1..|url| - 13] == version
    ensures url[|url| - 13..] == "/firmware.bin"
  {
    GITHUB_DOWNLOAD_BASE + "v" + version + "/firmware.bin"
  }

  /** Different versions give different URLs. */
  lemma DownloadUrlInjective(a: string, b: string)
    requires BuildDownloadUrl(a) == BuildDownloadUrl(b)
    ensures a == b
  {
    var ua, ub := BuildDownloadUrl(a), BuildDownloadUrl(b);
    assert ua[|GITHUB_DOWNLOAD_BASE| + 1..|ua| - 13] == a;
  }

  // ----- `sscanf(s, "%d.%d.%d", ...)` -----

  /** Length of the leading run of decimal digits. */
  function DigitRun(s: string): (n: nat)
    ensures n <= |s|
    ensures AllDigits(s[..n])
    ensures n < |s| ==> !IsDigit(s[n])
  {
    if |s| > 0 && IsDigit(s[0]) then
      var r := DigitRun(s[1..]);
      assert s[..1 + r] == [s[0]] + s[1..][..r];
      1 + r
    else 0
  }

  /** The characters C's `isspace` accepts in the "C" locale, which `%d` skips:
      space, and tab to carriage return. */
  predicate IsCSpace(c: char) {
    c == ' ' || '\t' <= c <= '\r'
  }

  /** Length of the leading run of `isspace` characters. */
  function CSpaceRun(s: string): (n: nat)
    ensures n <= |s|
    ensures forall k :: 0 <= k < n ==> IsCSpace(s[k])
    ensures n < |s| ==> !IsCSpace(s[n])
  {
    if |s| > 0 && IsCSpace(s[0]) then 1 + CSpaceRun(s[1..]) else 0
  }

  /** One `%d` conversion: optional whitespace, an optional sign and at least one
      digit. The value and how many characters were read, or nothing when no digit
      follows. */
  function ScanInt(s: string): (r: Option<(int, nat)>)
    ensures r.Some? ==> 0 < r.value.1 <= |s|
  {
    var ws := CSpaceRun(s);
    var signed := ws < |s| && (s[ws] == '-' || s[ws] == '+');
    var start := if signed then ws + 1 else ws;
    var digits := DigitRun(s[start..]);
    if digits == 0 then None
    else
      var magnitude: int := DigitsValue(s[start..][..digits]);
      var value: int := if signed && s[ws] == '-' then -magnitude else magnitude;
      Some((value, start + digits))
  }

  /** The conversions of "%d.%d.%d" from the `fields`-th last on: each stores a
      value, and a failed conversion or a missing '.' ends the scan, leaving the
      later fields unassigned. */
  function ScanFields(s: string, fields: nat): (vals: seq<int>)
    ensures |vals| <= fields
    decreases fields
  {
    if fields == 0 then []
    else match ScanInt(s)
      case None => []
      case Some(conv) =>
        var rest := s[conv.1..];
        if fields == 1 || |rest| == 0 || rest[0] != '.' then [conv.0]
        else [conv.0] + ScanFields(rest[1..], fields - 1)
  }

  /** The values `sscanf(s, "%d.%d.%d", ...)` stores, in order. */
  function ScanTriple(s: string): (vals: seq<int>)
    ensures |vals| <= 3
  {
    ScanFields(s, 3)
  }

  /** A number followed by a non-digit is read as itself. */
  lemma ScanNatural(n: nat, rest: string)
    requires |rest| == 0 || !IsDigit(rest[0])
    ensures ScanInt(NatToString(n) + rest) == Some((n, |NatToString(n)|))
  {
    var d := NatToString(n);
    var s := d + rest;
    assert s[0] == d[0];
    assert CSpaceRun(s) == 0;
    assert s[0..] == s;
    DigitRunOfDigits(d, rest);
    assert s[..|d|] == d;
    DigitsValueOfNatToString(n);
  }

  /** The digit run of digits followed by a non-digit is exactly those digits. */
  lemma {:induction false} DigitRunOfDigits(d: string, rest: string)
    requires AllDigits(d)
    requires |rest| == 0 || !IsDigit(rest[0])
    ensures DigitRun(d + rest) == |d|
    decreases |d|
  {
    if |d| > 0 {
      assert (d + rest)[1..] == d[1..] + rest;
      DigitRunOfDigits(d[1..], rest);
    } else {
      assert d + rest == rest;
    }
  }

  /** A rendered number and a '.' pass one conversion on to the next. */
  lemma ScanFieldsStep(n: nat, rest: string, fields: nat)
    requires fields >= 2
    ensures ScanFields(NatToString(n) + "." + rest, fields) == [n] + ScanFields(rest, fields - 1)
  {
    var s := NatToString(n) + "." + rest;
    ScanNatural(n, "." + rest);
    assert s == NatToString(n) + ("." + rest);
    assert s[|NatToString(n)|..] == "." + rest;
    assert ("." + rest)[1..] == rest;
  }

  /** The last conversion reads a rendered number. */
  lemma ScanFieldsLast(n: nat)
    ensures ScanFields(NatToString(n), 1) == [n]
  {
    ScanNatural(n, "");
    assert NatToString(n) + "" == NatToString(n);
  }

  /** The three fields of a rendered version are read back. */
  lemma ScanFormat(t: Triple)
    requires IsNatural(t)
    ensures ScanTriple(Format(t)) == Fields(t)
  {
    var m, n, p := NatToString(t.major), NatToString(t.minor), NatToString(t.patch);
    assert Format(t) == m + "." + (n + "." + p);
    ScanFieldsStep(t.major, n + "." + p, 3);
    ScanFieldsStep(t.minor, p, 2);
    ScanFieldsLast(t.patch);
  }

  /** A string that starts with a letter such as 'v' stores nothing at all. */
  lemma ScanLetterFails(s: string)
    requires |s| > 0 && ('a' <= s[0] <= 'z' || 'A' <= s[0] <= 'Z')
    ensures ScanTriple(s) == []
  {
    assert CSpaceRun(s) == 0;
    assert s[0..] == s;
    assert DigitRun(s) == 0;
  }

  /** The three locals after the scan: each stored field, or the value that was
      in the uninitialised local for each field `sscanf` left alone. */
  function Fill(vals: seq<int>, indeterminate: Triple): (t: Triple)
    requires |vals| <= 3
    ensures |vals| == 3 ==> Fields(t) == vals
    ensures |vals| == 0 ==> t == indeterminate
  {
    Triple(if |vals| > 0 then vals[0] else indeterminate.major,
           if |vals| > 1 then vals[1] else indeterminate.minor,
           if |vals| > 2 then vals[2] else indeterminate.patch)
  }

  /** `isNewerVersion` as written: both strings are scanned into uninitialised
      locals, so a field the scan does not reach compares whatever the local held;
      that value is the `indeterminate` parameter. */
  function IsNewerVersionAsWritten(remote: string, current: string, remoteJunk: Triple, currentJunk: Triple)
    : (b: bool)
    ensures |ScanTriple(current)| == 0 ==> (b <==> IsNewer(Fill(ScanTriple(remote), remoteJunk), currentJunk))
    ensures |ScanTriple(remote)| == 3 && |ScanTriple(current)| == 3 ==>
      (b <==> IsNewer(Fill(ScanTriple(remote), Triple(0, 0, 0)), Fill(ScanTriple(current), Triple(0, 0, 0))))
  {
    IsNewer(Fill(ScanTriple(remote), remoteJunk), Fill(ScanTriple(current), currentJunk))
  }

  /** The version the firmware is built with is a git tag such as "v1.2.3", and
      the scan of such a string stores nothing: the as-written comparison ignores
      the running version and decides on stack contents. With the latest release
      equal to the running one, an update is offered or not depending on them. */
  lemma TaggedBuildComparesGarbage()
    ensures IsNewerVersionAsWritten("1.2.3", "v1.2.3", Triple(0, 0, 0), Triple(0, 0, 0))
    ensures !IsNewerVersionAsWritten("1.2.3", "v1.2.3", Triple(0, 0, 0), Triple(1, 2, 3))
    ensures !IsNewerVersion("1.2.3", "v1.2.3")
  {
    ScanReleaseExample();
    ScanLetterFails("v1.2.3");
    assert StripTagPrefix("v1.2.3") == "1.2.3";
    assert Fill([1, 2, 3], Triple(0, 0, 0)) == Triple(1, 2, 3);
  }

  /** "1.2.3" is read as the three fields 1, 2 and 3. */
  lemma ScanReleaseExample()
    ensures ScanTriple("1.2.3") == [1, 2, 3]
  {
    FormatExample();
    ScanFormat(Triple(1, 2, 3));
  }

  lemma FormatExample()
    ensures Format(Triple(1, 2, 3)) == "1.2.3"
  {
    assert NatToString(1) == "1" && NatToString(2) == "2" && NatToString(3) == "3";
  }

  /** The version in a string, with the tag's 'v' dropped, when all three fields
      of "%d.%d.%d" are stored; nothing when the scan stops short. */
  function ScanVersion(s: string): (r: Option<Triple>)
    ensures r.Some? <==> |ScanTriple(StripTagPrefix(s))| == 3
    ensures r.Some? ==> Fields(r.value) == ScanTriple(StripTagPrefix(s))
  {
    var vals := ScanTriple(StripTagPrefix(s));
    if |vals| == 3 then Some(Triple(vals[0], vals[1], vals[2])) else None
  }

  /** `isNewerVersion` as intended: the 'v' of a tag is dropped from both sides,
      as it is from the release tag, and a version that does not scan in full is
      an error, which offers no update. */
  function IsNewerVersion(remote: string, current: string): (b: bool)
    ensures b ==> ScanVersion(remote).Some? && ScanVersion(current).Some?
    ensures b ==> IsNewer(ScanVersion(remote).value, ScanVersion(current).value)
    ensures ScanVersion(remote).Some? && ScanVersion(current).Some? ==>
      (b <==> IsNewer(ScanVersion(remote).value, ScanVersion(current).value))
  {
    match (ScanVersion(remote), ScanVersion(current))
    case (Some(r), Some(c)) => IsNewer(r, c)
    case _ => false
  }

  /** A failed scan on either side never offers an update: the latest release is
      not taken to be newer than text that is not a version. */
  lemma GarbageNeverNewer()
    ensures !IsNewerVersion("1.0.0", "garbage")
    ensures !IsNewerVersion("garbage", "1.0.0")
  {
    ScanLetterFails("garbage");
    assert StripTagPrefix("garbage") == "garbage";
  }

  /** A rendered version loses nothing to the tag prefix removal, and its tag
      loses exactly its 'v'. */
  lemma StripFormatted(t: Triple, tagged: bool)
    requires IsNatural(t)
    ensures StripTagPrefix((if tagged then "v" else "") + Format(t)) == Format(t)
  {
    var s := (if tagged then "v" else "") + Format(t);
    if tagged {
      assert s[1..] == Format(t);
    } else {
      assert s == Format(t);
    }
  }

  /** On rendered versions, with or without the tag's 'v', the comparison is the
      version order. */
  lemma IsNewerVersionOfFormatted(r: Triple, c: Triple, rTagged: bool, cTagged: bool)
    requires IsNatural(r) && IsNatural(c)
    ensures IsNewerVersion((if rTagged then "v" else "") + Format(r), (if cTagged then "v" else "") + Format(c))
            <==> IsNewer(r, c)
  {
    StripFormatted(r, rTagged);
    StripFormatted(c, cTagged);
    ScanFormat(r);
    ScanFormat(c);
    assert Fields(r) == [r.major, r.minor, r.patch] && Fields(c) == [c.major, c.minor, c.patch];
  }

  datatype UpdateResult = Updated | WifiFailed | VersionCheckFailed | NoUpdateNeeded | DownloadFailed

  /** `checkAndUpdate` with the outcome of each network step as a parameter: the
      first failing step decides the result. */
  function CheckAndUpdate(connected: bool, latestVersion: string, currentVersion: string, installed: bool)
    : (r: UpdateResult)
    ensures r == WifiFailed <==> !connected
    ensures r == VersionCheckFailed <==> connected && |latestVersion| == 0
    ensures r == NoUpdateNeeded <==>
      connected && |latestVersion| > 0 && !IsNewerVersion(latestVersion, currentVersion)
    ensures r == Updated <==>
      connected && |latestVersion| > 0 && IsNewerVersion(latestVersion, currentVersion) && installed
    ensures r == DownloadFailed <==>
      connected && |latestVersion| > 0 && IsNewerVersion(latestVersion, currentVersion) && !installed
  {
    if !connected then WifiFailed
    else if |latestVersion| == 0 then VersionCheckFailed
    else if !IsNewerVersion(latestVersion, currentVersion) then NoUpdateNeeded
    else if installed then Updated
    else DownloadFailed
  }

  /** Nothing is downloaded for the version already running. */
  lemma NoUpdateToSameVersion(v: Triple, connected: bool, installed: bool)
    requires IsNatural(v) && connected
    ensures CheckAndUpdate(connected, Format(v), "v" + Format(v), installed) == NoUpdateNeeded
  {
    IsNewerVersionOfFormatted(v, v, false, true);
    assert |Format(v)| > 0;
  }
}

=== FILE: pot_reader.dfy ===
/** `PotentiometerReader`: a five-slot moving average of the raw ADC readings,
    followed by an adaptive hysteresis that moves the reported value in steps of at
    most twice the hysteresis. The raw reading of each call is a parameter. */
module PotentiometerReader {
  import opened Arduino

  const WINDOW_SIZE: nat := 5

  datatype Reader = Reader(hysteresis: int, lastStableValue: int, window: seq<int>, windowIndex: nat)

  /** The window is the fixed array of five slots and the index points into it. */
  predicate Valid(p: Reader) {
    |p.window| == WINDOW_SIZE && p.windowIndex < WINDOW_SIZE
  }

  /** The constructor: every slot and the stable value are zero. */
  function New(hysteresis: int): (p: Reader)
    ensures Valid(p) && p.lastStableValue == 0 && p.windowIndex == 0
    ensures forall i :: 0 <= i < WINDOW_SIZE ==> p.window[i] == 0
  {
    Reader(hysteresis, 0, [0, 0, 0, 0, 0], 0)
  }

  /** `begin`: the first reading fills every slot and is the stable value. */
  function Begin(p: Reader, initial: int): (r: Reader)
    requires Valid(p)
    ensures Valid(r) && r.lastStableValue == initial && r.windowIndex == p.windowIndex
    ensures forall i :: 0 <= i < WINDOW_SIZE ==> r.window[i] == initial
    ensures Mean(r.window) == initial
  {
    var w := [initial, initial, initial, initial, initial];
    SumBounds(w, initial, initial);
    TruncDivMultiple(initial, 5);
    p.(window := w, lastStableValue := initial)
  }

  function Sum(w: seq<int>): int {
    if |w| == 0 then 0 else Sum(w[..|w| - 1]) + w[|w| - 1]
  }

  /** The `long` sum divided by five, truncating toward zero as C++ does. */
  function Mean(w: seq<int>): int {
    TruncDiv(Sum(w), WINDOW_SIZE)
  }

  /** A mean of values in [lo, hi] lies in [lo, hi]. */
  lemma {:induction false} SumBounds(w: seq<int>, lo: int, hi: int)
    requires forall i :: 0 <= i < |w| ==> lo <= w[i] <= hi
    ensures |w| * lo <= Sum(w) <= |w| * hi
  {
    if |w| > 0 {
      var k := |w| - 1;
      SumBounds(w[..k], lo, hi);
      assert |w| * lo == k * lo + lo && |w| * hi == k * hi + hi;
    }
  }

  lemma MeanBounds(w: seq<int>, lo: nat, hi: int)
    requires |w| == WINDOW_SIZE
    requires forall i :: 0 <= i < |w| ==> lo <= w[i] <= hi
    ensures lo <= Mean(w) <= hi
  {
    SumBounds(w, lo, hi);
    DivMonotone(5 * lo, Sum(w), 5);
    DivMonotone(Sum(w), 5 * hi, 5);
  }

  /** The band around the stable value inside which the average is ignored: the
      hysteresis, widened to `hysteresis * 1.5` (converted back to `int`, so
      truncated toward zero) when the average is more than twice the hysteresis away. */
  function Threshold(hysteresis: int, difference: int): (t: int)
    ensures hysteresis >= 0 ==> hysteresis <= t
    ensures Abs(difference) <= 2 * hysteresis ==> t == hysteresis
    ensures hysteresis >= 0 && Abs(difference) > 2 * hysteresis ==> t == (3 * hysteresis) / 2
  {
    if Abs(difference) > hysteresis * 2 then TruncDiv(hysteresis * 3, 2) else hysteresis
  }

  /** The step taken toward the average: the whole difference, capped at twice the
      hysteresis either way. */
  function Step(hysteresis: int, difference: int): int {
    if difference > 0 then Min(difference, hysteresis * 2) else Max(difference, -hysteresis * 2)
  }

  function Min(a: int, b: int): int { if a < b then a else b }
  function Max(a: int, b: int): int { if a > b then a else b }

  /** `read`: store the raw reading in the current slot, advance the slot, average
      the window and move the stable value toward the average when it lies outside
      the threshold. The returned value is the new stable value. */
  function Read(p: Reader, raw: int): (r: (int, Reader))
    requires Valid(p)
    ensures Valid(r.1) && r.0 == r.1.lastStableValue && r.1.hysteresis == p.hysteresis
    ensures r.1.window == p.window[p.windowIndex := raw]
    ensures r.1.windowIndex == (p.windowIndex + 1) % WINDOW_SIZE
    ensures var avg := Mean(r.1.window);
      && (Abs(avg - p.lastStableValue) <= Threshold(p.hysteresis, avg - p.lastStableValue) ==>
            r.0 == p.lastStableValue)
      && (Abs(avg - p.lastStableValue) > Threshold(p.hysteresis, avg - p.lastStableValue) ==>
            r.0 != p.lastStableValue || p.hysteresis == 0)
      && (p.hysteresis >= 0 ==>
            && Abs(r.0 - p.lastStableValue) <= 2 * p.hysteresis
            && (p.lastStableValue <= r.0 <= avg || avg <= r.0 <= p.lastStableValue))
  {
    var window := p.window[p.windowIndex := raw];
    var index := (p.windowIndex + 1) % WINDOW_SIZE;
    var current := Mean(window);
    var difference := current - p.lastStableValue;
    var stable := if Abs(difference) > Threshold(p.hysteresis, difference)
                  then p.lastStableValue + Step(p.hysteresis, difference)
                  else p.lastStableValue;
    (stable, p.(window := window, windowIndex := index, lastStableValue := stable))
  }

  /** A steady input keeps the output steady: after `begin`, reading the same value
      again reports it unchanged. */
  lemma SteadyInput(p: Reader, value: int)
    requires Valid(p) && p.hysteresis >= 0
    ensures Read(Begin(p, value), value).0 == value
  {
    var b := Begin(p, value);
    assert b.window[b.windowIndex := value] == b.window;
  }

  /** Readings within the ADC range give a reported value within the ADC range. */
  lemma StaysInAdcRange(p: Reader, raw: int)
    requires Valid(p) && p.hysteresis >= 0
    requires 0 <= p.lastStableValue <= 4095 && 0 <= raw <= 4095
    requires forall i :: 0 <= i < WINDOW_SIZE ==> 0 <= p.window[i] <= 4095
    ensures 0 <= Read(p, raw).0 <= 4095
  {
    MeanBounds(p.window[p.windowIndex := raw], 0, 4095);
  }
}

=== FILE: power.dfy ===
/** The activity tracking of `PowerManager`: the last seen tuning and volume
    readings and switch states, the time of the last activity, and the decision to
    enter deep sleep. Pin readings, `millis()`, whether WiFi is on and the
    inactivity timeout are parameters; what deep sleep does is not modelled. */
module PowerManager {
  import opened Arduino

  const POTENTIOMETER_THRESHOLD: int := 100
  /** The debounce of `checkActivity`. */
  const ACTIVITY_DEBOUNCE: int := 100

  /** One sample of the inputs: the two pots and the five switch pins
      (long wave, medium wave, slow, medium speed, WiFi button). */
  datatype Inputs = Inputs(tuning: int, volume: int, lw: int, mw: int, slow: int, med: int, wifi: int)

  /** What `PowerManager` remembers of the inputs: the pot readings and, for each
      switch, whether it was closed (read LOW). */
  datatype Snapshot = Snapshot(
    tuning: int, volume: int, lw: bool, mw: bool, slow: bool, med: bool, wifi: bool)

  /** `updatePinStates`: each switch state is whether its pin reads LOW; the pot
      readings are kept. */
  function UpdatePinStates(s: Snapshot, pins: Inputs): (r: Snapshot)
    ensures r.lw == (pins.lw == LOW) && r.mw == (pins.mw == LOW) && r.slow == (pins.slow == LOW)
    ensures r.med == (pins.med == LOW) && r.wifi == (pins.wifi == LOW)
    ensures r.tuning == s.tuning && r.volume == s.volume
  {
    s.(lw := pins.lw == LOW, mw := pins.mw == LOW, slow := pins.slow == LOW, med := pins.med == LOW,
       wifi := pins.wifi == LOW)
  }

  /** Everything `checkForInputChanges` stores about a sample. */
  function Observe(pins: Inputs): (r: Snapshot)
    ensures r == UpdatePinStates(r, pins) && r.tuning == pins.tuning && r.volume == pins.volume
  {
    Snapshot(pins.tuning, pins.volume, pins.lw == LOW, pins.mw == LOW, pins.slow == LOW, pins.med == LOW, pins.wifi == LOW)
  }

  /** The reference notion of activity: a pot moved by more than the threshold or a
      switch changed position. */
  predicate Moved(s: Snapshot, now: Snapshot) {
    || Abs(now.tuning - s.tuning) > POTENTIOMETER_THRESHOLD
    || Abs(now.volume - s.volume) > POTENTIOMETER_THRESHOLD
    || now.lw != s.lw || now.mw != s.mw || now.slow != s.slow || now.med != s.med || now.wifi != s.wifi
  }

  /** `checkForInputChanges`: report whether anything moved since the stored sample,
      and store the new one. */
  function CheckForInputChanges(s: Snapshot, pins: Inputs): (r: (bool, Snapshot))
    ensures r.0 <==> Moved(s, Observe(pins))
    ensures r.1 == Observe(pins)
  {
    var current := Observe(pins);
    var activity :=
      Abs(pins.tuning - s.tuning) > POTENTIOMETER_THRESHOLD
      || Abs(pins.volume - s.volume) > POTENTIOMETER_THRESHOLD
      || current.lw != s.lw || current.mw != s.mw || current.slow != s.slow
      || current.med != s.med || current.wifi != s.wifi;
    (activity, current)
  }

  /** Checking the same inputs twice finds no change the second time; a pot that
      moved by exactly the threshold is not activity. */
  lemma SecondCheckQuiet(s: Snapshot, pins: Inputs)
    ensures !CheckForInputChanges(CheckForInputChanges(s, pins).1, pins).0
    ensures s == Observe(pins).(tuning := pins.tuning - POTENTIOMETER_THRESHOLD) ==>
      !CheckForInputChanges(s, pins).0
  {
  }

  datatype Tracker = Tracker(last: Snapshot, lastActivityTime: Millis, lastDebounceTime: Millis)

  /** `begin` on a cold start: the pots are read and then the switches. */
  function Begin(pins: Inputs, lastActivityTime: Millis): (t: Tracker)
    ensures t.last == Observe(pins) && t.lastActivityTime == lastActivityTime && t.lastDebounceTime == 0
  {
    Tracker(UpdatePinStates(Snapshot(pins.tuning, pins.volume, false, false, false, false, false), pins),
            lastActivityTime, 0)
  }

  /** `checkActivity`: with WiFi on the radio counts as active; otherwise the inputs
      are checked at most once per debounce period, and an inactivity of at least the
      timeout sends the radio to deep sleep. The result's flag is the sleep decision. */
  function CheckActivity(t: Tracker, wifiEnabled: bool, pins: Inputs, now: Millis, timeout: Millis)
    : (r: (Tracker, bool))
    ensures wifiEnabled ==> r == (t.(lastActivityTime := now), false)
    ensures !wifiEnabled && Elapsed(now, t.lastDebounceTime) <= ACTIVITY_DEBOUNCE ==>
      r.0 == t && (r.1 <==> Elapsed(now, t.lastActivityTime) >= timeout)
    ensures !wifiEnabled && Elapsed(now, t.lastDebounceTime) > ACTIVITY_DEBOUNCE ==>
      && r.0.last == Observe(pins)
      && (Moved(t.last, Observe(pins)) ==>
            r.0.lastActivityTime == now && r.0.lastDebounceTime == now && !r.1)
      && (!Moved(t.last, Observe(pins)) ==>
            r.0.lastActivityTime == t.lastActivityTime && r.0.lastDebounceTime == t.lastDebounceTime
            && (r.1 <==> Elapsed(now, t.lastActivityTime) >= timeout))
    ensures r.1 ==> !wifiEnabled && Elapsed(now, t.lastActivityTime) >= timeout
  {
    if wifiEnabled then (t.(lastActivityTime := now), false)
    else
      var checked :=
        if Elapsed(now, t.lastDebounceTime) > ACTIVITY_DEBOUNCE then
          var c := CheckForInputChanges(t.last, pins);
          if c.0 then (true, Tracker(c.1, now, now)) else (false, t.(last := c.1))
        else (false, t);
      if checked.0 then (checked.1, false)
      else (checked.1, Elapsed(now, checked.1.lastActivityTime) >= timeout)
  }

  /** Activity postpones sleep: right after activity is seen, the radio stays awake
      until the timeout has passed again. */
  lemma ActivityPostponesSleep(t: Tracker, pins: Inputs, now: Millis, later: Millis, in2: Inputs, timeout: Millis)
    requires Elapsed(now, t.lastDebounceTime) > ACTIVITY_DEBOUNCE && Moved(t.last, Observe(pins))
    requires Elapsed(later, now) < timeout
    ensures !CheckActivity(CheckActivity(t, false, pins, now, timeout).0, false, in2, later, timeout).1
  {
  }
}

=== FILE: preferences.dfy ===
/** The in-memory key-value store of the test mocks, which stands for the ESP32
    non-volatile `Preferences` namespace: integers and strings live in two
    separate maps, and a read of a missing key yields the caller's default. */
module Preferences {

  datatype Store = Store(ints: map<string, int>, strings: map<string, string>)

  /** A store that holds nothing (a fresh namespace). */
  const Empty: Store := Store(map[], map[])

  function GetInt(p: Store, key: string, default: int): (v: int)
    ensures key in p.ints ==> v == p.ints[key]
    ensures key !in p.ints ==> v == default
  {
    if key in p.ints then p.ints[key] else default
  }

  function GetString(p: Store, key: string, default: string): (v: string)
    ensures key in p.strings ==> v == p.strings[key]
    ensures key !in p.strings ==> v == default
  {
    if key in p.strings then p.strings[key] else default
  }

  /** `putInt`: afterwards `key` reads back as `value`; every other integer key
      and every string key reads as before. */
  function PutInt(p: Store, key: string, value: int): (r: Store)
    ensures forall d :: GetInt(r, key, d) == value
    ensures forall k, d :: k != key ==> GetInt(r, k, d) == GetInt(p, k, d)
    ensures forall k, d :: GetString(r, k, d) == GetString(p, k, d)
    ensures r.ints.Keys == p.ints.Keys + {key}
  {
    p.(ints := p.ints[key := value])
  }

  /** `putString`: the string counterpart of `PutInt`. */
  function PutString(p: Store, key: string, value: string): (r: Store)
    ensures forall d :: GetString(r, key, d) == value
    ensures forall k, d :: k != key ==> GetString(r, k, d) == GetString(p, k, d)
    ensures forall k, d :: GetInt(r, k, d) == GetInt(p, k, d)
    ensures r.strings.Keys == p.strings.Keys + {key}
  {
    p.(strings := p.strings[key := value])
  }

  /** `clear`: every later read returns its default. */
  function Clear(p: Store): (r: Store)
    ensures forall k, d :: GetInt(r, k, d) == d
    ensures forall k, d :: GetString(r, k, d) == d
  {
    Empty
  }

  /** Reading an integer key that was never written yields the default. */
  lemma GetIntOfEmpty(key: string, default: int)
    ensures GetInt(Empty, key, default) == default
  {
  }

  /** A later put on the same key overrides an earlier one. */
  lemma PutIntTwice(p: Store, key: string, v1: int, v2: int)
    ensures PutInt(PutInt(p, key, v1), key, v2) == PutInt(p, key, v2)
  {
  }

  /** Puts on different keys commute. */
  lemma PutIntCommutes(p: Store, k1: string, v1: int, k2: string, v2: int)
    requires k1 != k2
    ensures PutInt(PutInt(p, k1, v1), k2, v2) == PutInt(PutInt(p, k2, v2), k1, v1)
  {
  }
}

=== FILE: radio_main.dfy ===
/** The decisions of the radio's main loop: what a tuning result does to the Morse
    player and the speaker, and when the WiFi button toggles WiFi. The last station
    heard, which the firmware keeps by address between calls, is modelled as an
    index into the station table. */
module RadioSystem {
  import opened Wrappers
  import opened Arduino
  import opened Config
  import opened RadioStation
  import MorseCode
  import AudioManager
  import WaveBandManager
  import StationManager

  /** The state `handleStationTuning` reads and writes: its remembered station, the
      Morse player and the audio output. `audio` records only the speaker writes the
      main loop makes itself (`stop` and the static noise); the Morse tone that the
      player switches on and off is carried by `morse.toneOn`, not by `audio.speaker`. */
  datatype Tuning = Tuning(lastStation: Option<nat>, morse: MorseCode.MorseState, audio: AudioManager.Audio)

  /** `handleStationTuning`: a positive signal locks the station, and a newly locked
      station (or a stopped player) restarts its message, silencing the speaker when
      the station changed; no signal stops the Morse and plays static at that
      strength. The Morse player is then stepped once. */
  function HandleStationTuning(
    t: Tuning, stations: seq<Station>, station: Option<nat>, signalStrength: int,
    config: ConfigState, tuneInDelay: nat, noiseFrequency: int, now: Millis): (r: Tuning)
    requires MorseCode.Inv(t.morse)
    requires signalStrength > 0 ==> station.Some? && station.value < |stations|
    requires AudioManager.MIN_STATIC_FREQ <= noiseFrequency < AudioManager.MAX_STATIC_FREQ
    ensures MorseCode.Inv(r.morse)
    ensures signalStrength > 0 ==> r.lastStation == station
    ensures signalStrength > 0 && station != t.lastStation ==>
      && r.audio == AudioManager.Stop(t.audio)
      && r.morse.playing && r.morse.message == stations[station.value].message
      && r.morse.messageIndex == 0
    ensures signalStrength > 0 && station == t.lastStation && !t.morse.playing ==>
      && r.audio == t.audio
      && r.morse.playing && r.morse.message == stations[station.value].message
      && r.morse.messageIndex == 0
    ensures signalStrength > 0 && station == t.lastStation && t.morse.playing ==>
      r.audio == t.audio && r.morse == MorseCode.Update(t.morse, CurrentMorseTimings(config), tuneInDelay, now)
    ensures signalStrength <= 0 ==>
      r.audio == AudioManager.PlayStaticNoise(t.audio, signalStrength, noiseFrequency)
    ensures signalStrength <= 0 && t.morse.playing ==> r.lastStation.None? && !r.morse.playing
    ensures signalStrength <= 0 && !t.morse.playing ==> r.lastStation == t.lastStation && r.morse == t.morse
  {
    var timings := CurrentMorseTimings(config);
    var handled :=
      if signalStrength > 0 then
        if !t.morse.playing || station != t.lastStation then
          var audio := if station != t.lastStation then AudioManager.Stop(t.audio) else t.audio;
          Tuning(station, MorseCode.StartMessage(t.morse, stations[station.value].message, now), audio)
        else t
      else
        var stopped :=
          if t.morse.playing then t.(morse := MorseCode.Stop(t.morse), lastStation := None) else t;
        stopped.(audio := AudioManager.PlayStaticNoise(t.audio, signalStrength, noiseFrequency));
    handled.(morse := MorseCode.Update(handled.morse, timings, tuneInDelay, now))
  }

  /** A station that keeps its signal keeps its message playing: calling again with
      the same station and a positive signal never restarts the message. */
  lemma LockedStationNotRestarted(
    t: Tuning, stations: seq<Station>, station: Option<nat>, signalStrength: int,
    config: ConfigState, tuneInDelay: nat, noiseFrequency: int, now: Millis, later: Millis)
    requires MorseCode.Inv(t.morse)
    requires signalStrength > 0 && station.Some? && station.value < |stations|
    requires AudioManager.MIN_STATIC_FREQ <= noiseFrequency < AudioManager.MAX_STATIC_FREQ
    requires station != t.lastStation
    ensures var r := HandleStationTuning(t, stations, station, signalStrength, config, tuneInDelay,
                                         noiseFrequency, now);
      var r2 := HandleStationTuning(r, stations, station, signalStrength, config, tuneInDelay,
                                    noiseFrequency, later);
      r2.audio == r.audio
      && r2.morse == MorseCode.Update(r.morse, CurrentMorseTimings(config), tuneInDelay, later)
  {
  }

  /** `updateTuningAndStation`: read the band switches, find the closest station of
      the band for the tuning reading, and hand the result to `handleStationTuning`. */
  method UpdateTuningAndStation(
    bands: WaveBandManager.Manager, stations: seq<Station>, t: Tuning, lwSwitch: int, mwSwitch: int,
    tuning: int, tuneInDelay: nat, noiseFrequency: int, now: Millis)
    returns (bands': WaveBandManager.Manager, t': Tuning, signalStrength: int)
    requires MorseCode.Inv(t.morse)
    requires AudioManager.MIN_STATIC_FREQ <= noiseFrequency < AudioManager.MAX_STATIC_FREQ
    ensures bands' == WaveBandManager.Update(bands, lwSwitch, mwSwitch)
    ensures MorseCode.Inv(t'.morse)
    ensures signalStrength > 0 ==>
      && t'.lastStation.Some? && t'.lastStation.value < |stations|
      && stations[t'.lastStation.value].band == bands'.config.currentBand
      && IsInRange(stations[t'.lastStation.value], tuning)
      && signalStrength == SignalStrength(stations[t'.lastStation.value], tuning)
      && ((t.morse.playing && t'.lastStation == t.lastStation)
          || t'.morse.message == stations[t'.lastStation.value].message)
    ensures signalStrength <= 0 ==>
      t'.audio == AudioManager.PlayStaticNoise(t.audio, signalStrength, noiseFrequency)
    ensures 0 <= signalStrength <= 255
    ensures signalStrength > 0 ==>
      forall j :: 0 <= j < t'.lastStation.value ==>
        !StationManager.Audible(stations, j, tuning, bands'.config.currentBand)
    ensures signalStrength > 0 <==>
      exists i :: 0 <= i < |stations| && FirstAudible(stations, i, tuning, bands'.config.currentBand)
                  && SignalStrength(stations[i], tuning) > 0
    ensures signalStrength <= 0 ==>
      t'.audio.speaker.duty == 0 && t'.audio.speaker.frequency == noiseFrequency
  {
    bands' := WaveBandManager.Update(bands, lwSwitch, mwSwitch);
    var b := bands'.config.currentBand;
    var closest, locked;
    closest, signalStrength, locked := StationManager.FindClosestStation(stations, tuning, b);
    if signalStrength > 0 {
      assert closest.Some?;
      assert FirstAudible(stations, closest.value, tuning, b);
    } else {
      forall i | 0 <= i < |stations| && FirstAudible(stations, i, tuning, b)
        ensures SignalStrength(stations[i], tuning) <= 0
      {
        assert closest.Some? && closest.value == i;
      }
    }
    t' := HandleStationTuning(t, stations, closest, signalStrength, bands'.config, tuneInDelay,
                              noiseFrequency, now);
  }

  /** Station `i` is the first of band `b` in table order that is in range. */
  ghost predicate FirstAudible(stations: seq<Station>, i: nat, tuning: int, b: WaveBand)
    requires i < |stations|
  {
    StationManager.Audible(stations, i, tuning, b)
    && forall j :: 0 <= j < i ==> !StationManager.Audible(stations, j, tuning, b)
  }

  /** `handleWiFiButton`: outside the OTA boot window, a pressed (LOW) button toggles
      WiFi when more than the debounce time has passed since the last toggle, which
      is then recorded. The result is whether to toggle and the new press time. */
  function HandleWiFiButton(lastButtonPress: Millis, inOtaBootWindow: bool, button: int,
                            now: Millis, debounceTime: Millis): (r: (bool, Millis))
    ensures r.0 <==> !inOtaBootWindow && button == LOW && Elapsed(now, lastButtonPress) > debounceTime
    ensures r.1 == if r.0 then now else lastButtonPress
  {
    if inOtaBootWindow then (false, lastButtonPress)
    else if button == LOW && Elapsed(now, lastButtonPress) > debounceTime then (true, now)
    else (false, lastButtonPress)
  }

  /** Two toggles are always more than the debounce time apart. */
  lemma NoToggleWithinDebounce(last: Millis, now: Millis, later: Millis, debounceTime: Millis,
                               button: int, button2: int, w1: bool, w2: bool)
    requires HandleWiFiButton(last, w1, button, now, debounceTime).0
    requires Elapsed(later, now) <= debounceTime
    ensures !HandleWiFiButton(HandleWiFiButton(last, w1, button, now, debounceTime).1, w2, button2, later,
                              debounceTime).0
  {
  }
}

=== FILE: radio_station.dfy ===
/** The `Station` that the station manager keeps (src/StationManager.cpp): the raw
    tuning reading is first scaled from the ADC range onto the 0..4000 dial, and
    every station is always enabled. */
module RadioStation {
  import opened Arduino
  import opened Config
  import EnabledStation

  datatype Station = Station(name: string, frequency: int, band: WaveBand, message: string)

  /** The dial position of a tuning reading: `map(t, 0, ADC_MAX, 0, 4000)`. */
  function ScaleTuning(t: int): (v: int)
    ensures t == 0 ==> v == 0
    ensures t == ADC_MAX ==> v == 4000
    ensures 0 <= t <= ADC_MAX ==> 0 <= v <= 4000 && v == (4000 * t) / ADC_MAX
  {
    ScaleFacts(t);
    Map(t, 0, ADC_MAX, 0, 4000)
  }

  lemma ScaleFacts(t: int)
    ensures 0 <= t <= ADC_MAX ==>
      var v := Map(t, 0, ADC_MAX, 0, 4000); 0 <= v <= 4000 && v == (4000 * t) / ADC_MAX
  {
    if 0 <= t <= ADC_MAX {
      assert Abs((t - 0) * (4000 - 0)) == 4000 * t;
      DivMonotone(4000 * t, 4000 * ADC_MAX, ADC_MAX);
      DivExact(4000, ADC_MAX);
    }
  }

  /** Turning the knob up never moves the dial down. */
  lemma ScaleMonotone(a: int, b: int)
    requires 0 <= a <= b <= ADC_MAX
    ensures ScaleTuning(a) <= ScaleTuning(b)
  {
    DivMonotone(4000 * a, 4000 * b, ADC_MAX);
  }

  /** Distance on the dial between the scaled tuning and the station. */
  function Distance(s: Station, tuning: int): nat {
    Abs(ScaleTuning(tuning) - s.frequency)
  }

  /** `isInRange`: the scaled tuning is within the leeway of the frequency. */
  function IsInRange(s: Station, tuning: int): (b: bool)
    ensures b <==> Distance(s, tuning) <= TUNING_LEEWAY
  {
    Abs(ScaleTuning(tuning) - s.frequency) <= TUNING_LEEWAY
  }

  /** `getSignalStrength`: the remaining margin `leeway - distance` mapped onto
      0..MAX_BRIGHTNESS, and nothing outside the leeway. */
  function SignalStrength(s: Station, tuning: int): (r: int)
    ensures 0 <= r <= MAX_BRIGHTNESS
    ensures Distance(s, tuning) > TUNING_LEEWAY ==> r == 0
    ensures Distance(s, tuning) <= TUNING_LEEWAY ==>
      r == (MAX_BRIGHTNESS * (TUNING_LEEWAY - Distance(s, tuning))) / TUNING_LEEWAY
    ensures Distance(s, tuning) == 0 ==> r == MAX_BRIGHTNESS
    ensures Distance(s, tuning) == TUNING_LEEWAY ==> r == 0
  {
    var distance := Abs(ScaleTuning(tuning) - s.frequency);
    if distance > TUNING_LEEWAY then 0
    else
      RisingMap(TUNING_LEEWAY - distance);
      Map(TUNING_LEEWAY - distance, 0, TUNING_LEEWAY, 0, MAX_BRIGHTNESS)
  }

  /** `map(m, 0, 50, 0, 255)` on a margin inside the leeway is the floor of 255m/50. */
  lemma RisingMap(m: int)
    requires 0 <= m <= TUNING_LEEWAY
    ensures Map(m, 0, TUNING_LEEWAY, 0, MAX_BRIGHTNESS) == (MAX_BRIGHTNESS * m) / TUNING_LEEWAY
    ensures 0 <= (MAX_BRIGHTNESS * m) / TUNING_LEEWAY <= MAX_BRIGHTNESS
  {
    assert Abs((m - 0) * (MAX_BRIGHTNESS - 0)) == MAX_BRIGHTNESS * m;
    DivMonotone(MAX_BRIGHTNESS * m, MAX_BRIGHTNESS * TUNING_LEEWAY, TUNING_LEEWAY);
    DivMonotone(0, MAX_BRIGHTNESS * m, TUNING_LEEWAY);
  }

  /** Some signal exactly when in range and short of the edge. */
  lemma StrengthPositiveIff(s: Station, tuning: int)
    ensures SignalStrength(s, tuning) > 0 <==> IsInRange(s, tuning) && Distance(s, tuning) < TUNING_LEEWAY
  {
    var d := Distance(s, tuning);
    if d < TUNING_LEEWAY {
      DivMonotone(MAX_BRIGHTNESS * 1, MAX_BRIGHTNESS * (TUNING_LEEWAY - d), TUNING_LEEWAY);
    }
  }

  /** Closer on the dial never means weaker. */
  lemma StrengthMonotone(s: Station, near: int, far: int)
    requires Distance(s, near) <= Distance(s, far)
    ensures SignalStrength(s, near) >= SignalStrength(s, far)
  {
    var dn, df := Distance(s, near), Distance(s, far);
    if df <= TUNING_LEEWAY {
      DivMonotone(MAX_BRIGHTNESS * (TUNING_LEEWAY - df), MAX_BRIGHTNESS * (TUNING_LEEWAY - dn), TUNING_LEEWAY);
    }
  }

  /** The two station variants round the same distance differently: the enabled-flag
      variant floors the drop (255 less the floor of 255d/50), this one floors the
      remainder, so the flagged variant is one stronger unless the distance is a
      multiple of 10, where 255d/50 is whole. */
  lemma VariantsDifferByRounding(s: Station, tuning: int, e: EnabledStation.Station, raw: int)
    requires e.enabled && Abs(raw - e.frequency) == Distance(s, tuning) <= TUNING_LEEWAY
    ensures EnabledStation.SignalStrength(e, raw) - SignalStrength(s, tuning)
      == if Distance(s, tuning) % 10 == 0 then 0 else 1
  {
    var d := Distance(s, tuning);
    RoundingGap(d);
    assert EnabledStation.SignalStrength(e, raw) == 255 - (255 * d) / TUNING_LEEWAY;
    assert SignalStrength(s, tuning) == (255 * (TUNING_LEEWAY - d)) / TUNING_LEEWAY;
  }

  lemma RoundingGap(d: int)
    requires 0 <= d <= TUNING_LEEWAY
    ensures (255 - (255 * d) / 50) - (255 * (50 - d)) / 50 == if d % 10 == 0 then 0 else 1
  {
    // With d = 10k + j: 255d = 50(51k + 5j) + 5j and 255(50 - d) = 50(255 - 51k - 5j) - 5j.
    var k, j := d / 10, d % 10;
    assert d == 10 * k + j;
    DivideBy50(255 * d, 51 * k + 5 * j, 5 * j);
    if j == 0 {
      DivideBy50(255 * (50 - d), 255 - 51 * k, 0);
    } else {
      DivideBy50(255 * (50 - d), 255 - 51 * k - 5 * j - 1, 50 - 5 * j);
    }
  }

  /** Division by the leeway, from a quotient and remainder. */
  lemma DivideBy50(x: int, q: int, r: int)
    requires 0 <= r < 50 && x == 50 * q + r
    ensures x / 50 == q
  {
  }
}

=== FILE: release.dfy ===
/** The release script: reading and bumping the `major.minor.patch` version, and
    the order of the checks it makes before it writes anything. Git, the console
    and the file system are parameters: their answers are inputs, and the result
    says what the script leaves behind. */
module Release {
  import opened Wrappers
  import opened Decimal
  import opened Text
  import opened SemVer

  /** A version as the pattern `^(\d+)\.(\d+)\.(\d+)$` sees it: three digit
      groups and, since `$` also matches before a final newline, perhaps one. */
  function Spelled(m: string, n: string, p: string, newline: bool): string {
    m + "." + n + "." + p + (if newline then "\n" else "")
  }

  /** The string without the one final newline `$` lets through. */
  function VersionBody(s: string): (b: string)
    ensures s == b || s == b + "\n"
  {
    if |s| > 0 && s[|s| - 1] == '\n' then s[..|s| - 1] else s
  }

  /** `parse_version`: the three groups as integers, or nothing for any other
      string (the script then exits with status 1). */
  function ParseVersion(s: string): (r: Option<Triple>)
    ensures r.Some? ==> IsNatural(r.value)
  {
    var parts := Split(VersionBody(s), '.');
    if |parts| == 3 && IsDigits(parts[0]) && IsDigits(parts[1]) && IsDigits(parts[2]) then
      Some(Triple(DigitsValue(parts[0]), DigitsValue(parts[1]), DigitsValue(parts[2])))
    else None
  }

  lemma DigitsHaveNoDot(d: string)
    requires IsDigits(d)
    ensures NoSep(d, '.')
  {
  }

  /** Every string of the pattern is accepted, with the values of its groups. */
  lemma ParseAccepts(m: string, n: string, p: string, newline: bool)
    requires IsDigits(m) && IsDigits(n) && IsDigits(p)
    ensures ParseVersion(Spelled(m, n, p, newline)) == Some(Triple(DigitsValue(m), DigitsValue(n), DigitsValue(p)))
  {
    SpelledBody(m, n, p, newline);
    SplitDotted(m, n, p);
  }

  /** The final newline, if any, is the only thing `$` lets through. */
  lemma SpelledBody(m: string, n: string, p: string, newline: bool)
    requires IsDigits(p)
    ensures VersionBody(Spelled(m, n, p, newline)) == m + "." + n + "." + p
  {
    var body := m + "." + n + "." + p;
    var s := Spelled(m, n, p, newline);
    if newline {
      assert s[..|s| - 1] == body;
    } else {
      assert s == body && s[|s| - 1] == p[|p| - 1];
    }
  }

  /** Three digit groups joined by dots split back into the groups. */
  lemma SplitDotted(m: string, n: string, p: string)
    requires IsDigits(m) && IsDigits(n) && IsDigits(p)
    ensures Split(m + "." + n + "." + p, '.') == [m, n, p]
  {
    DigitsHaveNoDot(m);
    DigitsHaveNoDot(n);
    DigitsHaveNoDot(p);
    assert m + "." + n + "." + p == m + ['.'] + (n + ['.'] + p);
    SplitPiece(m, '.', n + ['.'] + p);
    SplitPiece(n, '.', p);
    SplitWhole(p, '.');
  }

  /** Only strings of the pattern are accepted. */
  lemma ParseSound(s: string)
    requires ParseVersion(s).Some?
    ensures exists m, n, p, newline ::
      IsDigits(m) && IsDigits(n) && IsDigits(p) && s == Spelled(m, n, p, newline)
      && ParseVersion(s).value == Triple(DigitsValue(m), DigitsValue(n), DigitsValue(p))
  {
    var body := VersionBody(s);
    var parts := Split(body, '.');
    JoinSplit(body, '.');
    assert Join(parts[2..], '.') == parts[2];
    assert Join(parts[1..], '.') == parts[1] + ['.'] + Join(parts[2..], '.');
    assert Join(parts, '.') == parts[0] + ['.'] + Join(parts[1..], '.');
    var newline := s != body;
    assert s == Spelled(parts[0], parts[1], parts[2], newline);
  }

  /** A rendered version is read back as itself. */
  lemma ParseFormat(t: Triple)
    requires IsNatural(t)
    ensures ParseVersion(Format(t)) == Some(t)
  {
    var m, n, p := NatToString(t.major), NatToString(t.minor), NatToString(t.patch);
    ParseAccepts(m, n, p, false);
    assert Spelled(m, n, p, false) == Format(t);
    DigitsValueOfNatToString(t.major);
    DigitsValueOfNatToString(t.minor);
    DigitsValueOfNatToString(t.patch);
  }

  /** The semantic-versioning step for a bump type; nothing for an unknown type. */
  function BumpTriple(t: Triple, bumpType: string): (r: Option<Triple>)
    ensures r.Some? <==> bumpType in {"patch", "minor", "major"}
    ensures bumpType == "patch" ==> r == Some(t.(patch := t.patch + 1))
    ensures bumpType == "minor" ==> r == Some(t.(minor := t.minor + 1, patch := 0))
    ensures bumpType == "major" ==> r == Some(Triple(t.major + 1, 0, 0))
  {
    if bumpType == "patch" then Some(t.(patch := t.patch + 1))
    else if bumpType == "minor" then Some(t.(minor := t.minor + 1, patch := 0))
    else if bumpType == "major" then Some(Triple(t.major + 1, 0, 0))
    else None
  }

  /** A bump always gives a newer natural version, and it changes only the bumped
      field and those to its right. */
  lemma BumpIsNewer(t: Triple, bumpType: string)
    requires IsNatural(t) && BumpTriple(t, bumpType).Some?
    ensures IsNewer(BumpTriple(t, bumpType).value, t)
    ensures IsNatural(BumpTriple(t, bumpType).value)
    ensures bumpType != "major" ==> BumpTriple(t, bumpType).value.major == t.major
  {
  }

  datatype BumpError = InvalidVersion | InvalidBumpType

  /** `bump_version`: the version is parsed first, so a malformed version is
      reported whatever the bump type. */
  function BumpVersion(version: string, bumpType: string): (r: Result<string, BumpError>)
    ensures ParseVersion(version).None? <==> r == Failure(InvalidVersion)
    ensures r == Failure(InvalidBumpType) <==>
      ParseVersion(version).Some? && bumpType !in {"patch", "minor", "major"}
    ensures r.Success? ==>
      && ParseVersion(r.value).Some?
      && IsNewer(ParseVersion(r.value).value, ParseVersion(version).value)
      && Some(ParseVersion(r.value).value) == BumpTriple(ParseVersion(version).value, bumpType)
  {
    match ParseVersion(version)
    case None => Failure(InvalidVersion)
    case Some(t) =>
      match BumpTriple(t, bumpType)
      case None => Failure(InvalidBumpType)
      case Some(next) =>
        BumpIsNewer(t, bumpType);
        ParseFormat(next);
        Success(Format(next))
  }

  /** The version the usage examples start from. */
  lemma ParseExample()
    ensures ParseVersion("1.10.3") == Some(Triple(1, 10, 3))
  {
    assert DigitsValue("1") == 1;
    assert DigitsValue("10") == 10;
    assert DigitsValue("3") == 3;
    ParseAccepts("1", "10", "3", false);
    assert Spelled("1", "10", "3", false) == "1.10.3";
  }

  /** Once a version is read and the bump type known, the result is the rendered bump. */
  lemma BumpOfParsed(version: string, bumpType: string, t: Triple, next: Triple)
    requires ParseVersion(version) == Some(t) && BumpTriple(t, bumpType) == Some(next)
    ensures IsNatural(next) && BumpVersion(version, bumpType) == Success(Format(next))
  {
    BumpIsNewer(t, bumpType);
  }

  /** The usage examples of the script: 1.10.3 becomes 1.10.4, 1.11.0 or 2.0.0. */
  lemma PatchExample()
    ensures BumpVersion("1.10.3", "patch") == Success("1.10.4")
  {
    ParseExample();
    BumpOfParsed("1.10.3", "patch", Triple(1, 10, 3), Triple(1, 10, 4));
    ExampleNumerals();
    FormatOf(1, 10, 4, "1", "10", "4");
    ExampleTexts();
  }

  lemma MinorExample()
    ensures BumpVersion("1.10.3", "minor") == Success("1.11.0")
  {
    ParseExample();
    BumpOfParsed("1.10.3", "minor", Triple(1, 10, 3), Triple(1, 11, 0));
    ExampleNumerals();
    FormatOf(1, 11, 0, "1", "11", "0");
    ExampleTexts();
  }

  lemma MajorExample()
    ensures BumpVersion("1.10.3", "major") == Success("2.0.0")
  {
    ParseExample();
    BumpOfParsed("1.10.3", "major", Triple(1, 10, 3), Triple(2, 0, 0));
    ExampleNumerals();
    FormatOf(2, 0, 0, "2", "0", "0");
    ExampleTexts();
  }

  /** The numerals the examples need. */
  lemma ExampleNumerals()
    ensures NatToString(0) == "0" && NatToString(1) == "1" && NatToString(2) == "2"
    ensures NatToString(4) == "4" && NatToString(10) == "10" && NatToString(11) == "11"
  {
    OneDigit(0);
    OneDigit(1);
    OneDigit(2);
    OneDigit(4);
    TwoDigits(10);
    TwoDigits(11);
  }

  /** The example versions spelled out field by field. */
  lemma ExampleTexts()
    ensures "1" + "." + "10" + "." + "4" == "1.10.4"
    ensures "1" + "." + "11" + "." + "0" == "1.11.0"
    ensures "2" + "." + "0" + "." + "0" == "2.0.0"
  {
  }

  /** A rendered version from the numerals of its fields. */
  lemma FormatOf(m: nat, n: nat, p: nat, ms: string, ns: string, ps: string)
    requires NatToString(m) == ms && NatToString(n) == ns && NatToString(p) == ps
    ensures Format(Triple(m, n, p)) == ms + "." + ns + "." + ps
  {
  }

  lemma UnknownBumpExample()
    ensures BumpVersion("1.10.3", "build") == Failure(InvalidBumpType)
  {
    ParseExample();
  }

  /** A tag name such as "v1.10.3" is not a version the script accepts. */
  lemma RejectsLeadingV(s: string)
    requires |s| > 0 && s[0] == 'v'
    ensures BumpVersion(s, "patch") == Failure(InvalidVersion)
  {
    var body := VersionBody(s);
    assert |body| > 0 && body[0] == 'v';
    var parts := Split(body, '.');
    assert parts[0] == body[..FindSep(body, '.')];
    assert parts[0][0] == 'v';
  }

  /** What a run of the script leaves behind: its exit status, the new contents of
      the VERSION file if it was rewritten, and the tag it pushed if it got that far. */
  datatype Outcome = Outcome(exitCode: int, versionWritten: Option<string>, pushedTag: Option<string>)

  function Exit(code: int): Outcome { Outcome(code, None, None) }

  /** `check_git_status`'s first half: `git status --porcelain` ran and printed
      nothing but whitespace. A failing command (absent here) ends the run through
      `run_command`. */
  predicate TreeClean(status: Option<string>) {
    status.Some? && |Strip(status.value)| == 0
  }

  /** `check_git_status`'s second half: `git branch --show-current` ran, and
      either the branch is "main" or the user answered "y" to continuing on it. */
  predicate BranchAccepted(branch: Option<string>, branchAnswer: string) {
    branch.Some? && (Strip(branch.value) == "main" || Lower(branchAnswer) == "y")
  }

  /** `main` of the release script. `argv` is the command line with the script
      name first; `status` and `branch` are the outputs of `git status --porcelain`
      and `git branch --show-current`, absent when the command exits non-zero;
      `branchAnswer` and `answer` are what was typed at the two prompts;
      `versionFile` is the VERSION file, absent or its contents; `tags` are the
      existing tags; `publishOk` says whether generating the header, committing,
      tagging and pushing all succeeded. */
  function RunRelease(argv: seq<string>, status: Option<string>, branch: Option<string>, branchAnswer: string,
                versionFile: Option<string>, tags: set<string>, answer: string, publishOk: bool): (o: Outcome)
    ensures |argv| != 2 ==> o == Exit(1)
    ensures |argv| == 2 && !TreeClean(status) ==> o == Exit(1)
    ensures |argv| == 2 && TreeClean(status) && !BranchAccepted(branch, branchAnswer) ==> o == Exit(1)
    ensures o.versionWritten.Some? ==>
      && |argv| == 2 && TreeClean(status) && BranchAccepted(branch, branchAnswer) && versionFile.Some?
      && BumpVersion(Strip(versionFile.value), Lower(argv[1])).Success?
      && var next := BumpVersion(Strip(versionFile.value), Lower(argv[1])).value;
         && "v" + next !in tags && Lower(answer) == "y"
         && o.versionWritten == Some(next + "\n")
    ensures Lower(answer) != "y" ==> o.versionWritten.None? && o.pushedTag.None?
    ensures o.pushedTag.Some? ==> o.versionWritten.Some? && publishOk && o.exitCode == 0
    ensures o.pushedTag.Some? ==>
      && |argv| == 2 && versionFile.Some? && BumpVersion(Strip(versionFile.value), Lower(argv[1])).Success?
      && o.pushedTag == Some("v" + BumpVersion(Strip(versionFile.value), Lower(argv[1])).value)
    ensures && |argv| == 2 && TreeClean(status) && BranchAccepted(branch, branchAnswer) && versionFile.Some?
            && BumpVersion(Strip(versionFile.value), Lower(argv[1])).Success?
            && "v" + BumpVersion(Strip(versionFile.value), Lower(argv[1])).value !in tags
            && Lower(answer) == "y" ==>
      var next := BumpVersion(Strip(versionFile.value), Lower(argv[1])).value;
      o == (if publishOk then Outcome(0, Some(next + "\n"), Some("v" + next)) else Outcome(1, Some(next + "\n"), None))
    ensures o.exitCode == 0 && o.versionWritten.None? ==> Lower(answer) != "y"
  {
    if |argv| != 2 then Exit(1)
    else
      var bumpType := Lower(argv[1]);
      match status
      case None => Exit(1)
      case Some(porcelain) =>
        if |Strip(porcelain)| > 0 then Exit(1)
        else match branch
          case None => Exit(1)
          case Some(current) =>
            if Strip(current) != "main" && Lower(branchAnswer) != "y" then Exit(1)
            else match versionFile
              case None => Exit(1)
              case Some(contents) =>
                match BumpVersion(Strip(contents), bumpType)
                case Failure(_) => Exit(1)
                case Success(next) =>
                  if "v" + next in tags then Exit(1)
                  else if Lower(answer) != "y" then Exit(0)
                  else if publishOk then Outcome(0, Some(next + "\n"), Some("v" + next))
                  else Outcome(1, Some(next + "\n"), None)
  }

  /** Declining at the final prompt on a clean tree of the main branch never
      writes anything, and the run succeeds exactly when every check passed: the
      VERSION file exists, its version bumps, and the new tag is not taken yet. */
  lemma DecliningIsClean(argv: seq<string>, branch: string, branchAnswer: string, versionFile: Option<string>,
                         tags: set<string>, publishOk: bool)
    requires |argv| == 2 && Strip(branch) == "main"
    ensures var o := RunRelease(argv, Some(""), Some(branch), branchAnswer, versionFile, tags, "n", publishOk);
      && o.versionWritten.None? && o.pushedTag.None?
      && (o.exitCode == 0 <==>
            && versionFile.Some?
            && BumpVersion(Strip(versionFile.value), Lower(argv[1])).Success?
            && "v" + BumpVersion(Strip(versionFile.value), Lower(argv[1])).value !in tags)
      && (o.exitCode == 0 || o.exitCode == 1)
  {
    PromptFacts();
  }

  /** Off the main branch, nothing is released unless the user agrees to continue. */
  lemma OffMainNeedsConsent(argv: seq<string>, branch: string, branchAnswer: string, versionFile: Option<string>,
                            tags: set<string>, answer: string, publishOk: bool)
    requires |argv| == 2 && Strip(branch) != "main" && Lower(branchAnswer) != "y"
    ensures RunRelease(argv, Some(""), Some(branch), branchAnswer, versionFile, tags, answer, publishOk) == Exit(1)
  {
    PromptFacts();
  }

  lemma PromptFacts()
    ensures Lower("n") == "n" && Strip("") == "" && |Strip("")| == 0
  {
    assert Lower("n")[0] == 'n';
  }
}

=== FILE: semver.dfy ===
/** Semantic version triples, their `major.minor.patch` rendering and the
    "is newer" order that the firmware uses to decide on an update. */
module SemVer {
  import opened Decimal

  datatype Triple = Triple(major: int, minor: int, patch: int)

  /** The comparison ladder of `isNewerVersion`: major first, then minor, then
      patch, each deciding as soon as the two differ. */
  function IsNewer(remote: Triple, current: Triple): (b: bool)
    ensures b ==> remote != current
  {
    if remote.major > current.major then true
    else if remote.major < current.major then false
    else if remote.minor > current.minor then true
    else if remote.minor < current.minor then false
    else remote.patch > current.patch
  }

  /** Lexicographic "greater" on equally long sequences of numbers. */
  predicate LexGreater(x: seq<int>, y: seq<int>)
    requires |x| == |y|
  {
    |x| > 0 && (x[0] > y[0] || (x[0] == y[0] && LexGreater(x[1..], y[1..])))
  }

  function Fields(t: Triple): (f: seq<int>)
    ensures |f| == 3
  {
    [t.major, t.minor, t.patch]
  }

  /** The ladder is exactly the lexicographic order of the three fields. */
  lemma IsNewerIsLexicographic(a: Triple, b: Triple)
    ensures IsNewer(a, b) <==> LexGreater(Fields(a), Fields(b))
  {
    var x, y := Fields(a), Fields(b);
    assert x[1..] == [a.minor, a.patch] && y[1..] == [b.minor, b.patch];
    assert x[1..][1..] == [a.patch] && y[1..][1..] == [b.patch];
    assert !LexGreater(x[1..][1..][1..], y[1..][1..][1..]);
    assert LexGreater(x[1..][1..], y[1..][1..]) <==> a.patch > b.patch;
    assert LexGreater(x[1..], y[1..]) <==> a.minor > b.minor || (a.minor == b.minor && a.patch > b.patch);
  }

  /** No version is newer than itself. */
  lemma NewerIrreflexive(a: Triple)
    ensures !IsNewer(a, a)
  {
  }

  /** Of two versions at most one is newer than the other, and of two different
      versions exactly one is. */
  lemma NewerAsymmetricAndTotal(a: Triple, b: Triple)
    ensures !(IsNewer(a, b) && IsNewer(b, a))
    ensures a != b ==> IsNewer(a, b) || IsNewer(b, a)
  {
  }

  lemma NewerTransitive(a: Triple, b: Triple, c: Triple)
    requires IsNewer(a, b) && IsNewer(b, c)
    ensures IsNewer(a, c)
  {
  }

  /** A triple of natural numbers. */
  predicate IsNatural(t: Triple) {
    t.major >= 0 && t.minor >= 0 && t.patch >= 0
  }

  /** `f"{major}.{minor}.{patch}"`. */
  function Format(t: Triple): (s: string)
    requires IsNatural(t)
    ensures |s| >= 5 && IsDigit(s[0]) && IsDigit(s[|s| - 1])
  {
    NatToString(t.major) + "." + NatToString(t.minor) + "." + NatToString(t.patch)
  }

  /** Different triples are rendered differently. */
  lemma FormatInjective(a: Triple, b: Triple)
    requires IsNatural(a) && IsNatural(b) && Format(a) == Format(b)
    ensures a == b
  {
    PiecesOfFields(NatToString(a.major), NatToString(a.minor), NatToString(a.patch));
    PiecesOfFields(NatToString(b.major), NatToString(b.minor), NatToString(b.patch));
    NatToStringInjective(a.major, b.major);
    NatToStringInjective(a.minor, b.minor);
    NatToStringInjective(a.patch, b.patch);
  }

  /** The text before the first dot, between the first and the second, and after
      the second. */
  function Pieces(s: string): (string, string, string) {
    var i := FirstDot(s);
    var tail := if i < |s| then s[i + 1..] else "";
    var j := FirstDot(tail);
    (s[..i], tail[..j], if j < |tail| then tail[j + 1..] else "")
  }

  /** Three digit strings joined by dots are read back as the three pieces. */
  lemma PiecesOfFields(m: string, n: string, p: string)
    requires IsDigits(m) && IsDigits(n) && IsDigits(p)
    ensures Pieces(m + "." + n + "." + p) == (m, n, p)
  {
    FieldsSplit(m, n, p);
  }

  /** The dots of a rendered triple are its only dots, so the fields can be read back. */
  lemma FieldsSplit(m: string, n: string, p: string)
    requires IsDigits(m) && IsDigits(n) && IsDigits(p)
    ensures var s := m + "." + n + "." + p;
      FirstDot(s) == |m| && FirstDot(s[|m| + 1..]) == |n| && s[..|m|] == m
      && s[|m| + 1..][..|n|] == n && s[|m| + 1..][|n| + 1..] == p
  {
    var s := m + "." + n + "." + p;
    FirstDotAfterDigits(m, n + "." + p);
    assert s == m + "." + (n + "." + p);
    assert s[|m| + 1..] == n + "." + p;
    FirstDotAfterDigits(n, p);
  }

  /** Position of the first '.' in `s`, or `|s|`. */
  function FirstDot(s: string): (i: nat)
    ensures i <= |s|
    ensures i < |s| ==> s[i] == '.'
    ensures forall k :: 0 <= k < i ==> s[k] != '.'
  {
    if |s| == 0 || s[0] == '.' then 0 else 1 + FirstDot(s[1..])
  }

  lemma {:induction false} FirstDotAfterDigits(d: string, rest: string)
    requires AllDigits(d)
    ensures FirstDot(d + "." + rest) == |d|
    decreases |d|
  {
    var s := d + "." + rest;
    if |d| > 0 {
      assert s[0] == d[0] && IsDigit(d[0]);
      assert s[1..] == d[1..] + "." + rest;
      FirstDotAfterDigits(d[1..], rest);
    }
  }
}

=== FILE: speed.dfy ===
/** The Morse speed selector: two switches choose the speed stored in the
    configuration and a PWM duty that drives the speed indicator. Three builds
    exist; the two under `main/include` were rewired for toggle switches. */
module SpeedManager {
  import opened Arduino
  import opened Config

  /** The speed chosen and the 8-bit duty written for it. */
  datatype Selection = Selection(speed: MorseSpeed, duty: int)

  /** The indicator duty of each speed: a third, two thirds and all of 3.3 V. */
  function DutyOf(s: MorseSpeed): (d: int)
    ensures 0 < d <= 255
  {
    match s
    case Slow => 85
    case Medium => 171
    case Fast => 255
  }

  /** A slower speed shows a lower duty. */
  lemma DutyOrdersSpeeds()
    ensures DutyOf(Slow) < DutyOf(Medium) < DutyOf(Fast)
  {
  }

  /** `SpeedManager::update` of `src`: the slow switch wins, then the medium switch,
      and fast when neither is closed. */
  function Select(slowPin: int, medPin: int): (r: Selection)
    ensures r.duty == DutyOf(r.speed)
    ensures r.speed == Slow <==> slowPin == LOW
    ensures r.speed == Medium <==> slowPin != LOW && medPin == LOW
    ensures r.speed == Fast <==> slowPin != LOW && medPin != LOW
  {
    if slowPin == LOW then Selection(Slow, 85)
    else if medPin == LOW then Selection(Medium, 171)
    else Selection(Fast, 255)
  }

  /** `SpeedManagerArduino::update`: the medium switch selects fast and no switch
      selects medium. */
  function SelectArduino(slowPin: int, medPin: int): (r: Selection)
    ensures r.duty == DutyOf(r.speed)
    ensures r.speed == Slow <==> slowPin == LOW
    ensures r.speed == Fast <==> slowPin != LOW && medPin == LOW
    ensures r.speed == Medium <==> slowPin != LOW && medPin != LOW
  {
    if slowPin == LOW then Selection(Slow, 85)
    else if medPin == LOW then Selection(Fast, 255)
    else Selection(Medium, 171)
  }

  /** `SpeedManagerESP::update`: the same choice over ESP-IDF GPIO levels, a closed
      switch reading level 0; the duty starts at 0 and is set on every branch. */
  function SelectEsp(slowLevel: int, medLevel: int): (r: Selection)
    ensures r.duty == DutyOf(r.speed)
    ensures r.speed == Slow <==> slowLevel == 0
    ensures r.speed == Fast <==> slowLevel != 0 && medLevel == 0
    ensures r.speed == Medium <==> slowLevel != 0 && medLevel != 0
  {
    if slowLevel == 0 then Selection(Slow, 85)
    else if medLevel == 0 then Selection(Fast, 255)
    else Selection(Medium, 171)
  }

  /** The ESP-IDF build behaves like the Arduino build of the same wiring, and both
      differ from the `src` build exactly by exchanging medium and fast. */
  lemma BuildsAgree(slowPin: int, medPin: int)
    ensures SelectEsp(slowPin, medPin) == SelectArduino(slowPin, medPin)
    ensures Select(slowPin, medPin).speed == Slow <==> SelectArduino(slowPin, medPin).speed == Slow
    ensures Select(slowPin, medPin).speed == Medium <==> SelectArduino(slowPin, medPin).speed == Fast
  {
  }

  /** `update` of any build: the selected speed is stored in the configuration,
      which changes in nothing else; the duty goes to the indicator. */
  function Update(c: ConfigState, s: Selection): (r: (ConfigState, int))
    ensures r.0 == c.(morseSpeed := s.speed) && r.1 == s.duty
    ensures CurrentMorseTimings(r.0) == TimingsForCode(SpeedCode(s.speed))
  {
    (c.(morseSpeed := s.speed), s.duty)
  }
}

=== FILE: station.dfy ===
/** The `Station` of src/Station.cpp: a station that can be switched off, tuned
    on the raw tuning value without scaling. */
module EnabledStation {
  import opened Arduino
  import opened Config

  datatype Station = Station(name: string, frequency: int, band: WaveBand, message: string, enabled: bool)

  /** `isInRange`: enabled and no further than the leeway from the frequency. */
  function IsInRange(s: Station, tuning: int): (b: bool)
    ensures b <==> s.enabled && Abs(tuning - s.frequency) <= TUNING_LEEWAY
  {
    if !s.enabled then false else Abs(tuning - s.frequency) <= TUNING_LEEWAY
  }

  /** `getSignalStrength`: full strength on the frequency, falling linearly to nothing
      at the leeway; nothing outside it or when the station is off. */
  function SignalStrength(s: Station, tuning: int): (r: int)
    ensures 0 <= r <= MAX_BRIGHTNESS
    ensures !s.enabled || Abs(tuning - s.frequency) > TUNING_LEEWAY ==> r == 0
    ensures s.enabled && Abs(tuning - s.frequency) <= TUNING_LEEWAY ==>
      r == MAX_BRIGHTNESS - (MAX_BRIGHTNESS * Abs(tuning - s.frequency)) / TUNING_LEEWAY
  {
    if !s.enabled then 0
    else
      var distance := Abs(tuning - s.frequency);
      if distance > TUNING_LEEWAY then 0
      else
        FallingMap(distance);
        Map(distance, 0, TUNING_LEEWAY, 255, 0)
  }

  /** `map(d, 0, 50, 255, 0)` on a distance inside the leeway is 255 less the
      floor of 255d/50: the truncating division rounds the drop down. */
  lemma FallingMap(d: int)
    requires 0 <= d <= TUNING_LEEWAY
    ensures Map(d, 0, TUNING_LEEWAY, 255, 0) == 255 - (255 * d) / TUNING_LEEWAY
    ensures 0 <= (255 * d) / TUNING_LEEWAY <= 255
  {
    var q := TruncDiv((d - 0) * (0 - 255), TUNING_LEEWAY - 0);
    assert Abs((d - 0) * (0 - 255)) == 255 * d;
    assert q <= 0;
    DivMonotone(255 * d, 255 * TUNING_LEEWAY, TUNING_LEEWAY);
    DivMonotone(0, 255 * d, TUNING_LEEWAY);
  }

  /** A station is heard with some strength exactly when it is in range and not at
      its very edge. */
  lemma StrengthPositiveIff(s: Station, tuning: int)
    ensures SignalStrength(s, tuning) > 0 <==> IsInRange(s, tuning) && Abs(tuning - s.frequency) < TUNING_LEEWAY
  {
    var d := Abs(tuning - s.frequency);
    if s.enabled && d <= TUNING_LEEWAY {
      assert SignalStrength(s, tuning) == 255 - (255 * d) / TUNING_LEEWAY;
      if d < TUNING_LEEWAY {
        DivMonotone(255 * d, 255 * 49, TUNING_LEEWAY);
        assert (255 * 49) / TUNING_LEEWAY == 249;
      } else {
        assert (255 * d) / TUNING_LEEWAY == 255;
      }
    }
  }

  /** Moving closer to the frequency never weakens the signal. */
  lemma StrengthMonotone(s: Station, near: int, far: int)
    requires Abs(near - s.frequency) <= Abs(far - s.frequency)
    ensures SignalStrength(s, near) >= SignalStrength(s, far)
  {
    var dn, df := Abs(near - s.frequency), Abs(far - s.frequency);
    if s.enabled && df <= TUNING_LEEWAY {
      DivMonotone(255 * dn, 255 * df, TUNING_LEEWAY);
    }
  }

  /** The values the firmware's station tests pin for a station on 2000. */
  lemma KnownRanges()
    ensures var s := Station("Test Station", 2000, MediumWave, "TEST MESSAGE", true);
      && IsInRange(s, 2000) && IsInRange(s, 2050) && IsInRange(s, 1950)
      && !IsInRange(s, 2051) && !IsInRange(s, 1949) && !IsInRange(s, 3000)
      && !IsInRange(s.(enabled := false), 2000)
  {
  }

  /** For an enabled station: full strength on the frequency, 128 a quarter-width
      (25 units) away, nothing at the edge of the leeway or beyond it. */
  lemma KnownStrengths(s: Station)
    requires s.enabled
    ensures SignalStrength(s, s.frequency) == 255
    ensures SignalStrength(s, s.frequency - 25) == 128
    ensures SignalStrength(s, s.frequency - 50) == 0
    ensures SignalStrength(s, s.frequency + 51) == 0
  {
    assert Abs(s.frequency - s.frequency) == 0;
    assert Abs(s.frequency - 25 - s.frequency) == 25;
    assert (255 * 25) / TUNING_LEEWAY == 127;
    assert Abs(s.frequency - 50 - s.frequency) == 50;
    assert (255 * 50) / TUNING_LEEWAY == 255;
    assert Abs(s.frequency + 51 - s.frequency) == 51;
  }
}

=== FILE: station_manager.dfy ===
/** `StationManager`: the table of 27 default stations (nine per band), station
    search by band and tuning, the list operations, and persistence of the table
    through the preference store. A `Station*` of the firmware is an index into the
    table here. */
module StationManager {
  import opened Wrappers
  import opened Config
  import opened Preferences
  import opened RadioStation
  import StationStorage

  /** `DEFAULT_STATIONS`. */
  const DEFAULT_STATIONS: seq<Station> := [
    Station("Athens", 300, LongWave, "FIRST CLUE FOUND IN LOBBY"),
    Station("Budapest", 1000, LongWave, "CHECK BEHIND BLUE PAINTING"),
    Station("Warsaw", 1400, LongWave, "LOCKER 237 CODE 4521"),
    Station("Prague", 2000, LongWave, "RED KEY OPENS NEXT DOOR"),
    Station("Cairo", 2200, LongWave, "LOOK UNDER THE STAIRS"),
    Station("Monaco", 2400, LongWave, "BASEMENT HOLDS SECRET"),
    Station("Oslo", 2900, LongWave, "CHECK THE BOOKSHELF"),
    Station("Ankara", 3200, LongWave, "THIRD FLOOR NEXT"),
    Station("Kiev", 3900, LongWave, "FINAL CODE 1893"),
    Station("Hilversum", 300, MediumWave, "START IN CONFERENCE ROOM"),
    Station("Edinburgh", 900, MediumWave, "GREEN BOX HAS TOOLS"),
    Station("Luxembourg", 1000, MediumWave, "PASSWORD IS EAGLE"),
    Station("Dublin", 2000, MediumWave, "CHECK KITCHEN DRAWER"),
    Station("London", 2100, MediumWave, "FOLLOW THE MAP"),
    Station("Vienna", 2400, MediumWave, "NEXT CLUE IN VAULT"),
    Station("Berlin", 3000, MediumWave, "COMBINATION 8675"),
    Station("Rome", 3200, MediumWave, "LOOK BEHIND CLOCK"),
    Station("Paris", 3900, MediumWave, "FINAL ROOM KEY"),
    Station("Canberra", 300, ShortWave, "BEGIN AT RECEPTION"),
    Station("Jerusalem", 900, ShortWave, "CHECK THE SAFE"),
    Station("Bangkok", 1300, ShortWave, "WHITE CABINET TOP"),
    Station("Havana", 2000, ShortWave, "USB KEY IN DRAWER"),
    Station("Beijing", 2300, ShortWave, "FOLLOW RED MARKS"),
    Station("Cape Town", 2500, ShortWave, "NEXT CODE 9312"),
    Station("Toronto", 2700, ShortWave, "CHECK OLD FILES"),
    Station("Washington", 3400, ShortWave, "LAST DOOR LEFT"),
    Station("Moscow", 3900, ShortWave, "VICTORY ACHIEVED")
  ]

  /** The band that holds the `k`-th block of nine defaults. */
  function BlockBand(k: nat): WaveBand {
    if k == 0 then LongWave else if k == 1 then MediumWave else ShortWave
  }

  /** The defaults come in three blocks of nine, long, medium and short wave in that
      order; within a block the frequencies rise by at least twice the leeway, and
      every frequency lies on the 0..4000 dial. */
  lemma DefaultsLayout()
    ensures |DEFAULT_STATIONS| == 27
    ensures forall i :: 0 <= i < 27 ==> DEFAULT_STATIONS[i].band == BlockBand(i / 9)
    ensures forall i :: 0 <= i < 27 ==> 0 <= DEFAULT_STATIONS[i].frequency <= 4000
    ensures forall i :: 0 <= i < 27 && i % 9 != 8 ==>
      DEFAULT_STATIONS[i].frequency + 2 * TUNING_LEEWAY <= DEFAULT_STATIONS[i + 1].frequency
  {
  }

  /** Within a band the default frequencies are strictly ascending, at least twice
      the leeway apart. */
  lemma {:induction false} DefaultsAscending(i: nat, j: nat)
    requires i < j < 27 && DEFAULT_STATIONS[i].band == DEFAULT_STATIONS[j].band
    ensures DEFAULT_STATIONS[i].frequency + 2 * TUNING_LEEWAY <= DEFAULT_STATIONS[j].frequency
    decreases j - i
  {
    DefaultsLayout();
    assert i / 9 == j / 9;
    if j > i + 1 {
      DefaultsAscending(i + 1, j);
    }
  }

  /** `initializeDefaultStations`. */
  function InitializeDefaultStations(): (stations: seq<Station>)
    ensures |stations| == 27
    ensures forall b: WaveBand :: |StationsForBand(stations, b)| == 9
  {
    DefaultsPerBand();
    DEFAULT_STATIONS
  }

  lemma DefaultsPerBand()
    ensures forall b: WaveBand :: |StationsForBand(DEFAULT_STATIONS, b)| == 9
  {
    DefaultsLayout();
    assert DEFAULT_STATIONS[..27] == DEFAULT_STATIONS;
    forall b: WaveBand
      ensures |StationsForBand(DEFAULT_STATIONS, b)| == 9
    {
      BandCount(DEFAULT_STATIONS, b, 27);
      DefaultsCount(b, 27);
    }
  }

  /** Which block of nine in the defaults holds band `b`. */
  function BlockOf(b: WaveBand): nat {
    match b
    case LongWave => 0
    case MediumWave => 1
    case ShortWave => 2
  }

  lemma {:induction false} DefaultsCount(b: WaveBand, n: nat)
    requires n <= 27
    ensures CountBand(DEFAULT_STATIONS, b, n) ==
      if n <= 9 * BlockOf(b) then 0 else if n >= 9 * BlockOf(b) + 9 then 9 else n - 9 * BlockOf(b)
  {
    if n > 0 {
      DefaultsLayout();
      DefaultsCount(b, n - 1);
      assert DEFAULT_STATIONS[n - 1].band == BlockBand((n - 1) / 9);
    }
  }

  /** How many of the first `n` stations belong to band `b`. */
  function CountBand(stations: seq<Station>, b: WaveBand, n: nat): nat
    requires n <= |stations|
  {
    if n == 0 then 0 else CountBand(stations, b, n - 1) + (if stations[n - 1].band == b then 1 else 0)
  }

  lemma {:induction false} BandCount(stations: seq<Station>, b: WaveBand, n: nat)
    requires n <= |stations|
    ensures |StationsForBand(stations[..n], b)| == CountBand(stations, b, n)
  {
    if n > 0 {
      BandCount(stations, b, n - 1);
      assert stations[..n][..n - 1] == stations[..n - 1];
    }
  }

  /** `getStation`: the station at `index`, or nothing past the end. */
  function GetStation(stations: seq<Station>, index: nat): (r: Option<Station>)
    ensures r.None? <==> index >= |stations|
    ensures r.Some? ==> r.value == stations[index]
  {
    if index < |stations| then Some(stations[index]) else None
  }

  /** `getStationsForBand`: the positions of the stations of band `b`, in table order. */
  function StationsForBand(stations: seq<Station>, b: WaveBand): (idx: seq<nat>)
    ensures forall k :: 0 <= k < |idx| ==> idx[k] < |stations| && stations[idx[k]].band == b
    ensures forall k, l :: 0 <= k < l < |idx| ==> idx[k] < idx[l]
    ensures forall i :: 0 <= i < |stations| && stations[i].band == b ==> i in idx
  {
    if |stations| == 0 then []
    else
      var init := StationsForBand(stations[..|stations| - 1], b);
      init + (if stations[|stations| - 1].band == b then [|stations| - 1] else [])
  }

  /** A station the search may settle on: of the band and within range. */
  predicate Audible(stations: seq<Station>, i: nat, tuning: int, b: WaveBand)
    requires i < |stations|
  {
    stations[i].band == b && IsInRange(stations[i], tuning)
  }

  /** `findClosestStation`: the first station of the band that is in range, with its
      signal strength; failing that the band's first station with strength 0;
      failing that nothing. `locked` is what the lock LED is set to. */
  method FindClosestStation(stations: seq<Station>, tuning: int, b: WaveBand)
    returns (closest: Option<nat>, signalStrength: int, locked: bool)
    ensures closest.Some? ==> closest.value < |stations| && stations[closest.value].band == b
    ensures closest.None? <==> forall i :: 0 <= i < |stations| ==> stations[i].band != b
    ensures closest.Some? && Audible(stations, closest.value, tuning, b) ==>
      signalStrength == SignalStrength(stations[closest.value], tuning)
      && forall j :: 0 <= j < closest.value ==> !Audible(stations, j, tuning, b)
    ensures closest.Some? && !Audible(stations, closest.value, tuning, b) ==>
      signalStrength == 0
      && (forall j :: 0 <= j < |stations| ==> !Audible(stations, j, tuning, b))
      && (forall j :: 0 <= j < closest.value ==> stations[j].band != b)
    ensures closest.None? ==> signalStrength == 0
    ensures 0 <= signalStrength <= 255
    ensures locked <==> closest.Some? && Audible(stations, closest.value, tuning, b)
    ensures locked <==> exists i :: 0 <= i < |stations| && Audible(stations, i, tuning, b)
  {
    closest := None;
    signalStrength := 0;
    locked := false;
    for i := 0 to |stations|
      invariant closest.Some? ==> closest.value < i && stations[closest.value].band == b
      invariant closest.None? <==> forall j :: 0 <= j < i ==> stations[j].band != b
      invariant closest.Some? ==> forall j :: 0 <= j < closest.value ==> stations[j].band != b
      invariant forall j :: 0 <= j < i ==> !Audible(stations, j, tuning, b)
      invariant signalStrength == 0 && !locked
    {
      if stations[i].band == b {
        if IsInRange(stations[i], tuning) {
          closest := Some(i);
          signalStrength := SignalStrength(stations[i], tuning);
          locked := true;
          return;
        } else if closest.None? {
          closest := Some(i);
        }
      }
    }
  }

  /** Among the defaults a tuning position is heard from at most one station of a
      band, so the first station found in range is the only one with any signal. */
  lemma DefaultsHeardOnce(tuning: int, i: nat, j: nat)
    requires i < j < 27 && DEFAULT_STATIONS[i].band == DEFAULT_STATIONS[j].band
    ensures SignalStrength(DEFAULT_STATIONS[i], tuning) == 0 || SignalStrength(DEFAULT_STATIONS[j], tuning) == 0
  {
    DefaultsAscending(i, j);
    StrengthPositiveIff(DEFAULT_STATIONS[i], tuning);
    StrengthPositiveIff(DEFAULT_STATIONS[j], tuning);
  }

  /** The persisted part of the stations. */
  function Entries(stations: seq<Station>): (e: seq<StationStorage.Entry>)
    ensures |e| == |stations|
    ensures forall i :: 0 <= i < |e| ==> e[i] == StationStorage.Entry(stations[i].frequency, stations[i].message)
  {
    seq(|stations|, i requires 0 <= i < |stations| => StationStorage.Entry(stations[i].frequency, stations[i].message))
  }

  /** `saveToPreferences`: the same key scheme and loop as the storage class. */
  function SaveToPreferences(p: Store, stations: seq<Station>): (r: Store)
    ensures forall i, d :: 0 <= i < |stations| ==> GetInt(r, StationStorage.FreqKey(i), d) == stations[i].frequency
    ensures forall i, d :: 0 <= i < |stations| ==> GetString(r, StationStorage.MsgKey(i), d) == stations[i].message
  {
    StationStorage.SaveEntries(p, Entries(stations))
  }

  /** `loadFromPreferences`: stored frequency and message where present, the current
      values otherwise; names and bands stay. */
  function LoadFromPreferences(p: Store, stations: seq<Station>): (r: seq<Station>)
    ensures |r| == |stations|
    ensures forall i :: 0 <= i < |r| ==>
      && r[i].name == stations[i].name && r[i].band == stations[i].band
      && r[i].frequency == GetInt(p, StationStorage.FreqKey(i), stations[i].frequency)
      && r[i].message == GetString(p, StationStorage.MsgKey(i), stations[i].message)
  {
    var loaded := StationStorage.LoadEntries(p, Entries(stations));
    seq(|stations|, i requires 0 <= i < |stations| =>
      stations[i].(frequency := loaded[i].frequency, message := loaded[i].message))
  }

  /** Saving then loading onto the same table changes nothing. */
  lemma PreferencesRoundTrip(p: Store, stations: seq<Station>)
    ensures LoadFromPreferences(SaveToPreferences(p, stations), stations) == stations
  {
    var r := LoadFromPreferences(SaveToPreferences(p, stations), stations);
    assert forall i :: 0 <= i < |r| ==> r[i] == stations[i];
  }

  /** `begin` without the hardware set-up: the defaults, overridden by whatever the
      store holds. */
  function Begin(p: Store): (stations: seq<Station>)
    ensures |stations| == 27
    ensures forall i :: 0 <= i < 27 ==>
      && stations[i].name == DEFAULT_STATIONS[i].name && stations[i].band == DEFAULT_STATIONS[i].band
      && stations[i].frequency == GetInt(p, StationStorage.FreqKey(i), DEFAULT_STATIONS[i].frequency)
      && stations[i].message == GetString(p, StationStorage.MsgKey(i), DEFAULT_STATIONS[i].message)
    ensures p == Empty ==> stations == DEFAULT_STATIONS
  {
    DefaultsLayout();
    var r := LoadFromPreferences(p, InitializeDefaultStations());
    assert p == Empty ==> forall i :: 0 <= i < |r| ==> r[i] == DEFAULT_STATIONS[i];
    r
  }

  /** `updateStation`: an index past the end changes nothing; otherwise only that
      station's frequency and message change and the table is saved. */
  function UpdateStation(stations: seq<Station>, p: Store, index: nat, frequency: int, message: string)
    : (r: (seq<Station>, Store))
    ensures index >= |stations| ==> r == (stations, p)
    ensures index < |stations| ==>
      && |r.0| == |stations|
      && r.0[index] == stations[index].(frequency := frequency, message := message)
      && (forall j :: 0 <= j < |stations| && j != index ==> r.0[j] == stations[j])
      && LoadFromPreferences(r.1, r.0) == r.0
  {
    if index < |stations| then
      var updated := stations[index := stations[index].(frequency := frequency, message := message)];
      PreferencesRoundTrip(p, updated);
      (updated, SaveToPreferences(p, updated))
    else (stations, p)
  }

  /** `resetToDefaults`: the default table, saved over whatever the store held. */
  function ResetToDefaults(p: Store): (r: (seq<Station>, Store))
    ensures r.0 == DEFAULT_STATIONS
    ensures LoadFromPreferences(r.1, DEFAULT_STATIONS) == DEFAULT_STATIONS
    ensures forall i, d :: 0 <= i < 27 ==> GetInt(r.1, StationStorage.FreqKey(i), d) == DEFAULT_STATIONS[i].frequency
  {
    DefaultsLayout();
    PreferencesRoundTrip(p, DEFAULT_STATIONS);
    (InitializeDefaultStations(), SaveToPreferences(p, InitializeDefaultStations()))
  }
}

=== FILE: station_storage.dfy ===
/** Persistence of the station table in the "stations" preference namespace:
    station `i` keeps its frequency under the integer key `freq<i>` and its message
    under the string key `msg<i>`. Only frequency and message are persisted; the
    table's length, names and bands come from the firmware's defaults. */
module StationStorage {
  import opened Preferences
  import opened Decimal
  import EnabledStation

  /** `generatePreferenceKey`: the prefix followed by the decimal index. */
  function PreferenceKey(prefix: string, index: nat): (k: string)
    ensures |k| > |prefix| && k[..|prefix|] == prefix && k[|prefix|..] == NatToString(index)
  {
    prefix + NatToString(index)
  }

  function FreqKey(i: nat): string { PreferenceKey("freq", i) }
  function MsgKey(i: nat): string { PreferenceKey("msg", i) }

  /** Different indices give different keys, and a frequency key is never a message key. */
  lemma KeysDistinct(i: nat, j: nat)
    ensures FreqKey(i) == FreqKey(j) <==> i == j
    ensures MsgKey(i) == MsgKey(j) <==> i == j
    ensures FreqKey(i) != MsgKey(j)
  {
    if FreqKey(i) == FreqKey(j) {
      assert FreqKey(i)[4..] == FreqKey(j)[4..];
      NatToStringInjective(i, j);
    }
    if MsgKey(i) == MsgKey(j) {
      assert MsgKey(i)[3..] == MsgKey(j)[3..];
      NatToStringInjective(i, j);
    }
    assert FreqKey(i)[0] == 'f' && MsgKey(j)[0] == 'm';
  }

  /** The persisted part of a station. */
  datatype Entry = Entry(frequency: int, message: string)

  /** The save loop run over the first `n` entries, index 0 first. */
  function SaveFirst(p: Store, entries: seq<Entry>, n: nat): (r: Store)
    requires n <= |entries|
    ensures forall i, d :: 0 <= i < n ==> GetInt(r, FreqKey(i), d) == entries[i].frequency
    ensures forall i, d :: 0 <= i < n ==> GetString(r, MsgKey(i), d) == entries[i].message
    ensures forall k, d :: (forall i :: 0 <= i < n ==> k != FreqKey(i)) ==> GetInt(r, k, d) == GetInt(p, k, d)
    ensures forall k, d :: (forall i :: 0 <= i < n ==> k != MsgKey(i)) ==> GetString(r, k, d) == GetString(p, k, d)
  {
    if n == 0 then p
    else
      var q := SaveFirst(p, entries, n - 1);
      KeysDistinctFrom(n - 1);
      PutString(PutInt(q, FreqKey(n - 1), entries[n - 1].frequency), MsgKey(n - 1), entries[n - 1].message)
  }

  lemma KeysDistinctFrom(j: nat)
    ensures forall i :: 0 <= i < j ==> FreqKey(i) != FreqKey(j) && MsgKey(i) != MsgKey(j)
  {
    forall i | 0 <= i < j
      ensures FreqKey(i) != FreqKey(j) && MsgKey(i) != MsgKey(j)
    {
      KeysDistinct(i, j);
    }
  }

  /** `saveStations`: write every entry's frequency and message under its keys. */
  function SaveEntries(p: Store, entries: seq<Entry>): (r: Store)
    ensures forall i, d :: 0 <= i < |entries| ==> GetInt(r, FreqKey(i), d) == entries[i].frequency
    ensures forall i, d :: 0 <= i < |entries| ==> GetString(r, MsgKey(i), d) == entries[i].message
  {
    SaveFirst(p, entries, |entries|)
  }

  /** `loadStations`: each entry takes the stored value of its key, keeping its
      current value when the key is absent. */
  function LoadEntries(p: Store, current: seq<Entry>): (r: seq<Entry>)
    ensures |r| == |current|
    ensures forall i :: 0 <= i < |r| ==>
      r[i] == Entry(GetInt(p, FreqKey(i), current[i].frequency), GetString(p, MsgKey(i), current[i].message))
  {
    seq(|current|, i requires 0 <= i < |current| =>
      Entry(GetInt(p, FreqKey(i), current[i].frequency), GetString(p, MsgKey(i), current[i].message)))
  }

  /** Saving writes the `freq<i>` and `msg<i>` keys of the saved entries and no others. */
  lemma SaveWritesOnlyItsKeys(p: Store, entries: seq<Entry>, k: string, d: int, ds: string)
    requires forall i :: 0 <= i < |entries| ==> k != FreqKey(i)
    requires forall i :: 0 <= i < |entries| ==> k != MsgKey(i)
    ensures GetInt(SaveEntries(p, entries), k, d) == GetInt(p, k, d)
    ensures GetString(SaveEntries(p, entries), k, ds) == GetString(p, k, ds)
  {
  }

  /** Loading what was just saved gives back the saved entries, whatever the
      defaults and whatever the store held before. */
  lemma LoadAfterSave(p: Store, entries: seq<Entry>, current: seq<Entry>)
    requires |current| == |entries|
    ensures LoadEntries(SaveEntries(p, entries), current) == entries
  {
  }

  /** Loading from a store that holds no station keys keeps the current entries. */
  lemma LoadFromEmpty(current: seq<Entry>)
    ensures LoadEntries(Empty, current) == current
  {
  }

  /** The persisted part of a flag-variant station. */
  function EntryOf(s: EnabledStation.Station): Entry {
    Entry(s.frequency, s.message)
  }

  /** `StationStorage::saveStations` on the flag-variant stations. */
  function SaveStations(p: Store, stations: seq<EnabledStation.Station>): (r: Store)
    ensures forall i, d :: 0 <= i < |stations| ==> GetInt(r, FreqKey(i), d) == stations[i].frequency
    ensures forall i, d :: 0 <= i < |stations| ==> GetString(r, MsgKey(i), d) == stations[i].message
  {
    SaveEntries(p, seq(|stations|, i requires 0 <= i < |stations| => EntryOf(stations[i])))
  }

  /** `StationStorage::loadStations`: frequency and message are loaded; the length,
      the names, the bands and the enabled flags are left as they are. */
  function LoadStations(p: Store, stations: seq<EnabledStation.Station>): (r: seq<EnabledStation.Station>)
    ensures |r| == |stations|
    ensures forall i :: 0 <= i < |r| ==>
      && r[i].name == stations[i].name && r[i].band == stations[i].band
      && r[i].enabled == stations[i].enabled
      && r[i].frequency == GetInt(p, FreqKey(i), stations[i].frequency)
      && r[i].message == GetString(p, MsgKey(i), stations[i].message)
  {
    var loaded := LoadEntries(p, seq(|stations|, i requires 0 <= i < |stations| => EntryOf(stations[i])));
    seq(|stations|, i requires 0 <= i < |stations| =>
      stations[i].(frequency := loaded[i].frequency, message := loaded[i].message))
  }

  /** Saving the stations and loading them back onto the same table changes nothing. */
  lemma StationsRoundTrip(p: Store, stations: seq<EnabledStation.Station>)
    ensures LoadStations(SaveStations(p, stations), stations) == stations
  {
    var r := LoadStations(SaveStations(p, stations), stations);
    assert forall i :: 0 <= i < |r| ==> r[i] == stations[i];
  }
}

=== FILE: text.dfy ===
/** The few string operations the Python scripts apply to command output and
    user answers: `str.strip()`, ASCII `str.lower()`, splitting on a separator. */
module Text {

  /** The characters `str.isspace()` accepts, which `str.strip()` removes: the
      ASCII controls tab to carriage return and the separators U+1C to U+1F,
      space, and the Unicode spaces and line and paragraph separators. */
  predicate IsSpace(c: char) {
    || '\t' <= c <= '\r' || '\U{1C}' <= c <= ' '
    || c == '\U{85}' || c == '\U{A0}' || c == '\U{1680}' || '\U{2000}' <= c <= '\U{200A}'
    || c == '\U{2028}' || c == '\U{2029}' || c == '\U{202F}' || c == '\U{205F}' || c == '\U{3000}'
  }

  predicate AllSpace(s: string) {
    forall k :: 0 <= k < |s| ==> IsSpace(s[k])
  }

  /** How many whitespace characters the string starts with. */
  function LeadingSpaces(s: string): (n: nat)
    ensures n <= |s|
    ensures forall k :: 0 <= k < n ==> IsSpace(s[k])
    ensures n < |s| ==> !IsSpace(s[n])
  {
    if |s| > 0 && IsSpace(s[0]) then 1 + LeadingSpaces(s[1..]) else 0
  }

  /** Where the trailing whitespace of the string begins. */
  function TrailingEnd(s: string): (n: nat)
    ensures n <= |s|
    ensures forall k :: n <= k < |s| ==> IsSpace(s[k])
    ensures n > 0 ==> !IsSpace(s[n - 1])
  {
    if |s| > 0 && IsSpace(s[|s| - 1]) then TrailingEnd(s[..|s| - 1]) else |s|
  }

  /** `str.strip()`: the slice left after removing whitespace at both ends;
      everything removed is whitespace. */
  function Strip(s: string): (r: string)
    ensures LeadingSpaces(s) + |r| <= |s|
    ensures r == s[LeadingSpaces(s)..LeadingSpaces(s) + |r|]
    ensures AllSpace(s[..LeadingSpaces(s)]) && AllSpace(s[LeadingSpaces(s) + |r|..])
    ensures |r| > 0 ==> !IsSpace(r[0]) && !IsSpace(r[|r| - 1])
  {
    var a := LeadingSpaces(s);
    var rest := s[a..];
    var r := rest[..TrailingEnd(rest)];
    assert s[a + |r|..] == rest[|r|..];
    r
  }

  /** A string with no whitespace at either end is left alone, and one that only
      has a trailing newline added loses exactly that newline. */
  lemma StripTrimmed(v: string)
    requires |v| > 0 && !IsSpace(v[0]) && !IsSpace(v[|v| - 1])
    ensures Strip(v) == v
    ensures Strip(v + "\n") == v
  {
    var w := v + "\n";
    assert LeadingSpaces(v) == 0 && v[0..] == v;
    assert LeadingSpaces(w) == 0 by { assert w[0] == v[0]; }
    assert w[0..] == w;
    assert TrailingEnd(v) == |v|;
    assert w[..|w| - 1] == v;
    assert TrailingEnd(w) == |v|;
  }

  /** ASCII part of `str.lower()`. */
  function LowerChar(c: char): (r: char)
    ensures 'A' <= c <= 'Z' ==> 'a' <= r <= 'z'
    ensures !('A' <= c <= 'Z') ==> r == c
  {
    if 'A' <= c <= 'Z' then (c as int - 'A' as int + 'a' as int) as char else c
  }

  function Lower(s: string): (r: string)
    ensures |r| == |s|
    ensures forall k :: 0 <= k < |s| ==> r[k] == LowerChar(s[k])
  {
    seq(|s|, k requires 0 <= k < |s| => LowerChar(s[k]))
  }

  predicate NoSep(s: string, sep: char) {
    forall k :: 0 <= k < |s| ==> s[k] != sep
  }

  /** Position of the first `sep` in `s`, or `|s|` when there is none. */
  function FindSep(s: string, sep: char): (i: nat)
    ensures i <= |s|
    ensures i < |s| ==> s[i] == sep
    ensures NoSep(s[..i], sep)
  {
    if |s| == 0 then 0
    else if s[0] == sep then 0
    else
      var j := FindSep(s[1..], sep);
      assert s[1..][..j] == s[1..j + 1];
      1 + j
  }

  /** `s.split(sep)`: the pieces between separators, always at least one. */
  function Split(s: string, sep: char): (parts: seq<string>)
    ensures |parts| >= 1
    ensures forall p :: p in parts ==> NoSep(p, sep)
    decreases |s|
  {
    var i := FindSep(s, sep);
    if i == |s| then [s] else [s[..i]] + Split(s[i + 1..], sep)
  }

  /** Joining the pieces back with the separator. */
  function Join(parts: seq<string>, sep: char): string
    requires |parts| >= 1
  {
    if |parts| == 1 then parts[0] else parts[0] + [sep] + Join(parts[1..], sep)
  }

  /** Splitting loses nothing: joining the pieces gives the original string. */
  lemma {:induction false} JoinSplit(s: string, sep: char)
    ensures Join(Split(s, sep), sep) == s
    decreases |s|
  {
    var i := FindSep(s, sep);
    if i < |s| {
      JoinSplit(s[i + 1..], sep);
      assert s == s[..i] + [sep] + s[i + 1..];
    }
  }

  /** A piece free of separators followed by a separator is split off on its own. */
  lemma {:induction false} SplitPiece(a: string, sep: char, rest: string)
    requires NoSep(a, sep)
    ensures Split(a + [sep] + rest, sep) == [a] + Split(rest, sep)
  {
    var s := a + [sep] + rest;
    FindSepAfterPiece(a, sep, rest);
    assert s[..|a|] == a;
    assert s[|a| + 1..] == rest;
  }

  lemma {:induction false} FindSepAfterPiece(a: string, sep: char, rest: string)
    requires NoSep(a, sep)
    ensures FindSep(a + [sep] + rest, sep) == |a|
    decreases |a|
  {
    var s := a + [sep] + rest;
    if |a| > 0 {
      assert s[1..] == a[1..] + [sep] + rest;
      FindSepAfterPiece(a[1..], sep, rest);
    }
  }

  /** Joining separator-free pieces and splitting again gives the pieces back. */
  lemma {:induction false} SplitJoin(parts: seq<string>, sep: char)
    requires |parts| >= 1
    requires forall i :: 0 <= i < |parts| ==> NoSep(parts[i], sep)
    ensures Split(Join(parts, sep), sep) == parts
    decreases |parts|
  {
    if |parts| == 1 {
      SplitWhole(parts[0], sep);
    } else {
      SplitJoin(parts[1..], sep);
      SplitPiece(parts[0], sep, Join(parts[1..], sep));
    }
  }

  /** A separator-free string is a single piece. */
  lemma SplitWhole(a: string, sep: char)
    requires NoSep(a, sep)
    ensures Split(a, sep) == [a]
  {
    var i := FindSep(a, sep);
    assert i == |a|;
  }
}

=== FILE: version_header.dfy ===
/** The build-time version script: which git answer becomes the firmware version,
    and the `Version.h` header that carries it into the firmware as
    `FIRMWARE_VERSION`. The git runs are parameters. */
module VersionHeader {
  import opened Wrappers
  import opened Text
  import opened SemVer
  import opened Decimal

  /** What running one `git` command gives the script: its output, a non-zero
      exit (`CalledProcessError`, which the script catches), or no process at
      all because git is not installed (`FileNotFoundError`, which it does not
      catch). */
  datatype GitRun = Printed(text: string) | Failed | NotInstalled

  /** `get_git_version`: the exact tag of the checked-out commit when there is one,
      else the `describe --tags --dirty --always` description, else "unknown";
      command output is stripped of surrounding whitespace. Nothing when the
      exception of a missing git escapes, which stops the script before the
      header is written; the description is not asked for when the exact tag is
      found or git is missing. */
  function GetGitVersion(exactTag: GitRun, describe: GitRun): (v: Option<string>)
    ensures v.None? <==> exactTag.NotInstalled? || (exactTag.Failed? && describe.NotInstalled?)
    ensures exactTag.Printed? ==> v == Some(Strip(exactTag.text))
    ensures exactTag.Failed? && describe.Printed? ==> v == Some(Strip(describe.text))
    ensures exactTag.Failed? && describe.Failed? ==> v == Some("unknown")
    ensures v.Some? && |v.value| > 0 ==> !IsSpace(v.value[0]) && !IsSpace(v.value[|v.value| - 1])
  {
    match exactTag
    case Printed(tag) => Some(Strip(tag))
    case NotInstalled => None
    case Failed =>
      match describe
      case Printed(description) => Some(Strip(description))
      case Failed => Some("unknown")
      case NotInstalled => None
  }

  /** "unknown" is only the fallback: an answer from git is always used instead,
      and the fallback appears only when both commands fail or git itself answers
      with that word. */
  lemma UnknownOnlyWhenGitFails(exactTag: GitRun, describe: GitRun)
    ensures GetGitVersion(exactTag, describe) == Some("unknown") ==>
      (exactTag.Failed? && describe.Failed?)
      || (exactTag.Printed? && Strip(exactTag.text) == "unknown")
      || (exactTag.Failed? && describe.Printed? && Strip(describe.text) == "unknown")
  {
  }

  /** A build from a release tag "vX.Y.Z" embeds the tag itself, 'v' included. */
  lemma TaggedBuildVersion(t: Triple, describe: GitRun)
    requires IsNatural(t)
    ensures GetGitVersion(Printed("v" + Format(t) + "\n"), describe) == Some("v" + Format(t))
  {
    var v := "v" + Format(t);
    assert v[|v| - 1] == Format(t)[|Format(t)| - 1];
    StripTrimmed(v);
  }

  const GUARD_OPEN: string := "#ifndef VERSION_H"
  const GUARD_DEFINE: string := "#define VERSION_H"
  const GENERATED_NOTE: string := NOTE_HEAD + NOTE_TAIL
  const NOTE_HEAD: string := "// Automatically generated"
  const NOTE_TAIL: string := " from Git - do not edit manually"
  const DEFINE_OPEN: string := "#define FIRMWARE_VERSION \""
  const GUARD_CLOSE: string := "#endif // VERSION_H"
  const NL: string := "\n"

  const HEADER_PREFIX: string := GUARD_OPEN + NL + GUARD_DEFINE + NL + NL + GENERATED_NOTE + NL + DEFINE_OPEN
  const HEADER_SUFFIX: string := "\"" + NL + NL + GUARD_CLOSE + NL

  /** The text of `include/Version.h` for a version. */
  function Header(version: string): (h: string)
    ensures |h| == |HEADER_PREFIX| + |version| + |HEADER_SUFFIX|
    ensures h[..|HEADER_PREFIX|] == HEADER_PREFIX && h[|h| - |HEADER_SUFFIX|..] == HEADER_SUFFIX
  {
    HEADER_PREFIX + version + HEADER_SUFFIX
  }

  /** The version between the quotes of the `FIRMWARE_VERSION` definition. */
  function EmbeddedVersion(h: string): (v: string)
    requires |h| >= |HEADER_PREFIX| + |HEADER_SUFFIX|
  {
    h[|HEADER_PREFIX|..|h| - |HEADER_SUFFIX|]
  }

  /** `generate_version_header`: the version it reports and the header it writes,
      or nothing when finding the version raised and no header was written. */
  function GenerateVersionHeader(exactTag: GitRun, describe: GitRun): (r: Option<(string, string)>)
    ensures r.Some? <==> GetGitVersion(exactTag, describe).Some?
    ensures r.Some? ==> |r.value.1| >= |HEADER_PREFIX| + |HEADER_SUFFIX|
    ensures r.Some? ==> r.value.0 == GetGitVersion(exactTag, describe).value
    ensures r.Some? ==> EmbeddedVersion(r.value.1) == r.value.0
  {
    match GetGitVersion(exactTag, describe)
    case None => None
    case Some(version) =>
      var h := Header(version);
      assert h[|HEADER_PREFIX|..|h| - |HEADER_SUFFIX|] == version;
      Some((version, h))
  }

  /** The header pins its version down: different versions give different headers. */
  lemma HeaderInjective(a: string, b: string)
    requires Header(a) == Header(b)
    ensures a == b
  {
    assert EmbeddedVersion(Header(a)) == a;
    assert EmbeddedVersion(Header(b)) == b;
  }

  /** The lines of the header: the `VERSION_H` include guard around the note and
      one definition, and a final newline. */
  function HeaderLinesOf(version: string): seq<string> {
    [GUARD_OPEN, GUARD_DEFINE, "", GENERATED_NOTE, DEFINE_OPEN + version + "\"", "", GUARD_CLOSE, ""]
  }

  /** A line followed by the rest, joined by newlines. */
  lemma JoinCons(ls: seq<string>, k: nat)
    requires k + 1 < |ls|
    ensures Join(ls[k..], '\n') == ls[k] + NL + Join(ls[k + 1..], '\n')
  {
    assert ls[k..][1..] == ls[k + 1..];
  }

  /** Eight lines joined by newlines, spelled out. */
  lemma JoinEight(ls: seq<string>)
    requires |ls| == 8
    ensures Join(ls, '\n') ==
      ls[0] + NL + (ls[1] + NL + (ls[2] + NL + (ls[3] + NL + (ls[4] + NL + (ls[5] + NL + (ls[6] + NL + ls[7]))))))
  {
    assert ls[0..] == ls;
    assert Join(ls[7..], '\n') == ls[7];
    JoinCons(ls, 6);
    JoinCons(ls, 5);
    JoinCons(ls, 4);
    JoinCons(ls, 3);
    JoinCons(ls, 2);
    JoinCons(ls, 1);
    JoinCons(ls, 0);
  }

  /** The header arranged as prefix, version and suffix is the same text as its
      lines joined, whatever the lines say. */
  lemma Regroup(a: string, b: string, d: string, o: string, v: string, q: string, n: string, g: string)
    ensures a + n + b + n + n + d + n + o + v + (q + n + n + g + n) ==
      a + n + (b + n + ("" + n + (d + n + ((o + v + q) + n + ("" + n + (g + n + ""))))))
  {
  }

  lemma HeaderIsJoinedLines(version: string)
    ensures Join(HeaderLinesOf(version), '\n') == Header(version)
  {
    JoinEight(HeaderLinesOf(version));
    Regroup(GUARD_OPEN, GUARD_DEFINE, GENERATED_NOTE, DEFINE_OPEN, version, "\"", NL, GUARD_CLOSE);
  }

  lemma NoNewlineIn(a: string, b: string)
    requires NoSep(a, '\n') && NoSep(b, '\n')
    ensures NoSep(a + b, '\n')
  {
    var ab := a + b;
    forall k | 0 <= k < |ab| ensures ab[k] != '\n' {
      if k >= |a| { assert ab[k] == b[k - |a|]; }
    }
  }

  lemma NoteIsOneLine()
    ensures NoSep(GENERATED_NOTE, '\n')
  {
    assert NoSep(NOTE_HEAD, '\n');
    assert NoSep(NOTE_TAIL, '\n');
    NoNewlineIn(NOTE_HEAD, NOTE_TAIL);
  }

  lemma HeaderLinesSeparate(version: string)
    requires NoSep(version, '\n')
    ensures forall i :: 0 <= i < |HeaderLinesOf(version)| ==> NoSep(HeaderLinesOf(version)[i], '\n')
  {
    NoNewlineIn(DEFINE_OPEN, version);
    NoNewlineIn(DEFINE_OPEN + version, "\"");
    NoteIsOneLine();
    assert NoSep(GUARD_OPEN, '\n') && NoSep(GUARD_DEFINE, '\n') && NoSep(GUARD_CLOSE, '\n');
  }

  /** For a version on one line, the header's lines are exactly the include guard,
      the note, the one `FIRMWARE_VERSION` definition and the guard's end. */
  lemma HeaderLines(version: string)
    requires NoSep(version, '\n')
    ensures Split(Header(version), '\n') == HeaderLinesOf(version)
  {
    HeaderLinesSeparate(version);
    HeaderIsJoinedLines(version);
    SplitJoin(HeaderLinesOf(version), '\n');
  }
}

=== FILE: wave_band.dfy ===
/** `WaveBandManager`: the two band switches choose the band stored in the
    configuration, and the three band LEDs show it. The LED outputs are the
    duties last written to the three PWM channels, in `BAND_LEDS` order. */
module WaveBandManager {
  import opened Arduino
  import opened Config

  const LED_MIN_BRIGHTNESS: int := 10
  const LED_MAX_BRIGHTNESS: int := 255

  /** A `uint8_t` argument. */
  type Byte = x: int | 0 <= x < 256

  /** `BAND_LEDS`: long, medium and short wave on channels 0, 1 and 2 after the base. */
  const BAND_LEDS: seq<WaveBand> := [LongWave, MediumWave, ShortWave]

  /** The band the switches select in `update`: the long-wave switch wins, then the
      medium-wave switch, and short wave when neither is closed. */
  function SelectBand(lwSwitch: int, mwSwitch: int): (b: WaveBand)
    ensures b == LongWave <==> lwSwitch == LOW
    ensures b == MediumWave <==> lwSwitch != LOW && mwSwitch == LOW
    ensures b == ShortWave <==> lwSwitch != LOW && mwSwitch != LOW
  {
    if lwSwitch == LOW then LongWave
    else if mwSwitch == LOW then MediumWave
    else ShortWave
  }

  /** The test double's `update`, built for toggle switches: the medium-wave switch
      selects short wave and no switch selects medium wave. */
  function SelectBandToggle(lwSwitch: int, mwSwitch: int): (b: WaveBand)
    ensures b == LongWave <==> lwSwitch == LOW
    ensures b == ShortWave <==> lwSwitch != LOW && mwSwitch == LOW
    ensures b == MediumWave <==> lwSwitch != LOW && mwSwitch != LOW
  {
    if lwSwitch == LOW then LongWave
    else if mwSwitch == LOW then ShortWave
    else MediumWave
  }

  function SwapMediumShort(b: WaveBand): WaveBand {
    match b
    case LongWave => LongWave
    case MediumWave => ShortWave
    case ShortWave => MediumWave
  }

  /** The two switch readings differ exactly by exchanging medium and short wave. */
  lemma ToggleSwapsMediumAndShort(lwSwitch: int, mwSwitch: int)
    ensures SelectBandToggle(lwSwitch, mwSwitch) == SwapMediumShort(SelectBand(lwSwitch, mwSwitch))
    ensures SelectBand(lwSwitch, mwSwitch) == SwapMediumShort(SelectBandToggle(lwSwitch, mwSwitch))
  {
  }

  datatype Manager = Manager(config: ConfigState, ledBrightness: Byte, leds: seq<int>)

  /** Power-on state: full brightness and every LED channel dark. */
  function New(config: ConfigState): (m: Manager)
    ensures m.ledBrightness == 255 && m.leds == [0, 0, 0]
  {
    Manager(config, 255, [0, 0, 0])
  }

  /** `updateLEDs`: every channel is zeroed, then the current band's channel is set
      to the brightness. */
  function UpdateLeds(m: Manager): (r: Manager)
    ensures |r.leds| == 3
    ensures forall i :: 0 <= i < 3 ==>
      r.leds[i] == if BAND_LEDS[i] == m.config.currentBand then m.ledBrightness else 0
    ensures r.config == m.config && r.ledBrightness == m.ledBrightness
  {
    var dark := [0, 0, 0];
    m.(leds := dark[BandChannel(m.config.currentBand) := m.ledBrightness])
  }

  /** The loop of `updateBandLED`: the first channel whose band matches. */
  function BandChannel(b: WaveBand): (i: nat)
    ensures i < 3 && BAND_LEDS[i] == b
  {
    match b
    case LongWave => 0
    case MediumWave => 1
    case ShortWave => 2
  }

  /** `update`: store the selected band and refresh the LEDs, but only when the
      selection differs from the stored band. */
  function Update(m: Manager, lwSwitch: int, mwSwitch: int): (r: Manager)
    ensures r.config == m.config.(currentBand := SelectBand(lwSwitch, mwSwitch))
    ensures m.config.currentBand == SelectBand(lwSwitch, mwSwitch) ==> r == m
    ensures m.config.currentBand != SelectBand(lwSwitch, mwSwitch) ==> r.leds == UpdateLeds(r).leds
    ensures r.ledBrightness == m.ledBrightness
  {
    var newBand := SelectBand(lwSwitch, mwSwitch);
    if newBand != m.config.currentBand then UpdateLeds(m.(config := m.config.(currentBand := newBand)))
    else m
  }

  /** A second `update` with the same switch positions changes nothing. */
  lemma UpdateIdempotent(m: Manager, lwSwitch: int, mwSwitch: int)
    ensures Update(Update(m, lwSwitch, mwSwitch), lwSwitch, mwSwitch) == Update(m, lwSwitch, mwSwitch)
  {
  }

  /** `setLEDBrightness`: the brightness is clamped to [10, 255] and shown at once. */
  function SetLedBrightness(m: Manager, brightness: Byte): (r: Manager)
    ensures LED_MIN_BRIGHTNESS <= r.ledBrightness <= LED_MAX_BRIGHTNESS
    ensures brightness >= LED_MIN_BRIGHTNESS ==> r.ledBrightness == brightness
    ensures brightness < LED_MIN_BRIGHTNESS ==> r.ledBrightness == LED_MIN_BRIGHTNESS
    ensures |r.leds| == 3 && r.leds[BandChannel(m.config.currentBand)] == r.ledBrightness
    ensures r == UpdateLeds(r) && r.config == m.config
  {
    UpdateLeds(m.(ledBrightness := Constrain(brightness, LED_MIN_BRIGHTNESS, LED_MAX_BRIGHTNESS)))
  }
}

=== FILE: wrappers.dfy ===
/** Option and Result types used where the firmware returns no station,
    an empty string or exits with an error code. */
module Wrappers {

  /** A value that may be absent: a null `Station*`, a failed git query. */
  datatype Option<+T> = None | Some(value: T)

  /** Either a value or the error that stopped the computation. */
  datatype Result<+R, +E> = Success(value: R) | Failure(error: E)
}
